=== FILE: README.md ===
# A Dafny model of the locutus node core

locutus is a peer-to-peer node written in Kotlin. This project models the
parts of it that do pure data handling:

- **Bytes** (`bytes.dfy`): the byte-array utilities `merge`, `split`,
  `startsWith`, `asByteArray` and `asLong`. It also holds the JVM's signed
  bytes, the 32-bit and 64-bit wrap-around, and `contentHashCode`.
- **ByteArraySegments** (`segments.dfy`): `ByteArraySegment`, a view of part of
  a byte array that is equal to another view exactly when their contents are.
- **PartTracking** (`parttracker.dfy`): `PartTracker`, the ranges of part
  numbers of a large message received so far, and the gaps it reports as
  missing.
- **LargeMessages** (`largemessages.dfy`): `LargeMessageHandler`. It splits a
  message too big for one UDP packet into parts. The receiver stores each
  part in its slot and reassembles the message once every slot is filled.
- **Rates** (`rates.dfy`): `Rate`, a sliding window of traffic samples with a
  running 32-bit byte total.
- **MessageRouting** (`messagerouting.dfy`): `MessageRouter`. It registers
  listeners by message class, extractor label and key, expires timed
  listeners, and routes an incoming message.
- **ContractPostStore** (`contractposts.dfy`): `ContractPosts`, posts stored
  by key with the time each was last read, and eviction of the least
  recently read.
- **The contracts**: one module per contract class, over the shared posts and
  checks of **Values** (`values.dfy`):
  - `SignedContractV1` in `signedcontract.dfy`;
  - the microblog protocol's `MicroblogContractV1` in `microblogcontract.dfy`;
  - `FlogContractV1` in `flogcontract.dfy`;
  - the ring protocol's `MicroblogContractV1` in `ringcontracts.dfy`;
  - the ring protocol's `MicroblogContract` in `ringmicroblog.dfy`;
  - `AccountContract` in `accountcontract.dfy`.
- **Connections** (`connection.dfy`): `Connection`, with its choice of
  outbound key.
- **Peers** (`peers.dfy`): `Peer`, `PeerKey` and `PeerKeyLocation`, with
  label-blind peer equality.
- **Keys** (`keys.dfy`) and **Failures** (`failures.dfy`): shared types.
  - Keys and signatures are opaque bytes. Signature verification is a
    function parameter.
  - The JVM exceptions the code raises become `Err` values of a `Result`.

Everything is immutable data and pure functions:

- A Kotlin operation that mutates an object becomes a function from the old
  value to the new one.
- An operation that can throw returns a `Result` naming the exception.
- Where a mutating operation can throw after it has already changed state,
  the model returns the state left behind together with the exception
  (`Failures.Mutation`): the large-message handlers and the `Rate`
  window.
- Where the code depends on things outside the model, these become
  parameters:
  - the wall clock (`Instant.now()`);
  - hash-map iteration order;
  - the signature check;
  - the key of a contract post;
  - `InetSocketAddress.toString`.
- JVM `Int` and `Long` arithmetic is written out with explicit wrap-around
  where the code relies on it:
  - `Rate.totalBytes`;
  - `Peer.hashCode`;
  - `contentHashCode`;
  - the `ByteArraySegment` bound check;
  - `asLong`;
  - the total size `merge` allocates;
  - the piece ends `split` computes.

## Model

Paths are relative to the repository root.

| member | source | states |
|---|---|---|
| Bytes.Merge | src/main/kotlin/locutus/tools/crypto/ByteArrayUtils.kt:13-23 | below 2^31 bytes in all, the merge is the inputs one after the other; from 2^31 bytes on, the wrapped Int total makes it fail: with a NegativeArraySizeException exactly when the wrapped total is negative, otherwise with an index error from a copy past the end |
| Bytes.CopyInto | src/main/kotlin/locutus/tools/crypto/ByteArrayUtils.kt:19 | `copyInto` fails exactly when the source does not fit at the position; otherwise it overwrites exactly those bytes |
| Bytes.CopyAll | src/main/kotlin/locutus/tools/crypto/ByteArrayUtils.kt:17-21 | the copy loop fails exactly when the inputs overrun the buffer; otherwise it writes their concatenation at the position and keeps every other byte |
| Bytes.MergeLayout | src/main/kotlin/locutus/tools/crypto/ByteArrayUtils.kt:13-23 | every input appears whole in the merged array, at the position where the previous inputs end |
| Bytes.MergeAppend | src/main/kotlin/locutus/tools/crypto/ByteArrayUtils.kt:13-23 | merging the concatenation of two lists is the concatenation of their merges |
| Bytes.MergeSkipsEmpty | src/main/kotlin/locutus/tools/crypto/ByteArrayUtils.kt:13-23 | an empty array contributes nothing to a merge, wherever it stands |
| Bytes.MergeOfFewArrays | src/main/kotlin/locutus/tools/crypto/Util.kt:12-22 | merging no arrays gives an empty array; merging one array gives its contents |
| Bytes.Pieces | src/main/kotlin/locutus/tools/crypto/ByteArrayUtils.kt:25-34 | there are ceil(size / n) pieces; each is non-empty and at most n long; all but the last are exactly n long |
| Bytes.PiecesLayout | src/main/kotlin/locutus/tools/crypto/ByteArrayUtils.kt:25-34 | piece k is the slice from k·n to min(k·n + n, size) of the input |
| Bytes.PiecesSpan | src/main/kotlin/locutus/tools/crypto/ByteArrayUtils.kt:25-34 | the piece count times n reaches the end of the array but stays below size + n |
| Bytes.SplitFrom | src/main/kotlin/locutus/tools/crypto/ByteArrayUtils.kt:26-33 | with n > 0, the loop from pos yields the pieces of the rest of the array exactly when no piece start pos + k·n reaches 2^31, and otherwise fails with IllegalArgumentException; with n < 0 it fails at once |
| Bytes.MergePieces | src/main/kotlin/locutus/tools/crypto/ByteArrayUtils.kt:13-34 | round trip: merging the pieces of a split gives back the array |
| Bytes.Split | src/main/kotlin/locutus/tools/crypto/ByteArrayUtils.kt:25-34 | an empty array splits into nothing; on a non-empty array a negative piece size is an IllegalArgumentException; a positive size gives pieces that merge back to the array exactly when the piece count times the size stays below 2^31, which always holds when size + n ≤ 2^31; otherwise the wrapped piece end is an IllegalArgumentException |
| Bytes.SplitOverflowExample | src/main/kotlin/locutus/tools/crypto/ByteArrayUtils.kt:29-30 | 2^30 + 1 bytes split by 2^30 fail: the second piece end 2^31 wraps negative |
| Bytes.MergeAndSplitExamples | src/test/kotlin/locutus/tools/crypto/ByteArrayUtilsSpec.kt:12-24 | [1,2], [5,8] and [] merge to [1,2,5,8]; seven bytes split by 3 give [1,2,3], [4,5,6], [7] |
| Bytes.StartsWithFrom | src/main/kotlin/locutus/tools/crypto/ByteArrayUtils.kt:36-41 | the loop from index ix gives one of three answers: true when the rest of the prefix matches; an index error when the array ends first with no mismatch; false when some byte differs |
| Bytes.StartsWith | src/main/kotlin/locutus/tools/crypto/ByteArrayUtils.kt:36-41 | true exactly when the array begins with the prefix; an index error exactly when the array is a proper prefix of the prefix; false exactly when the two differ at a shared index |
| Bytes.AsByteArray | src/main/kotlin/locutus/tools/crypto/ByteArrayUtils.kt:43-51 | a Long encodes to exactly eight bytes |
| Bytes.LowBytesValue | src/main/kotlin/locutus/tools/crypto/ByteArrayUtils.kt:43-51 | the shift loop writes x mod 256^k, most significant byte first |
| Bytes.AsLong | src/main/kotlin/locutus/tools/crypto/ByteArrayUtils.kt:53-60 | fewer than eight bytes is exactly the index-error case; otherwise the value is the first eight bytes read big-endian, wrapped to a signed Long |
| Bytes.LongRoundTrip | src/main/kotlin/locutus/tools/crypto/ByteArrayUtils.kt:43-60 | decoding the encoding of any Long gives that Long, negative values included |
| Bytes.BytesRoundTrip | src/main/kotlin/locutus/tools/crypto/ByteArrayUtils.kt:43-60 | encoding the decoded Long gives back the first eight bytes |
| ByteArraySegments.NewAsWritten | src/main/kotlin/locutus/tools/ByteArraySegment.kt:6-11 | the constructor's checks as written, with offset + length wrapping as a 32-bit Int; any other input is an IllegalArgumentException |
| ByteArraySegments.NewAsWrittenAcceptsOverflow | src/main/kotlin/locutus/tools/ByteArraySegment.kt:10 | a segment at offset 2^31 − 1 of length 1 in a 4-byte array passes the checks but lies outside its array |
| ByteArraySegments.New | src/main/kotlin/locutus/tools/ByteArraySegment.kt:6-11 | with the bound checked without overflow, construction succeeds exactly for views inside the array |
| ByteArraySegments.NewAgreesWithoutOverflow | src/main/kotlin/locutus/tools/ByteArraySegment.kt:7-11 | when offset + length stays below 2^31, the two constructors agree |
| ByteArraySegments.Whole | src/main/kotlin/locutus/tools/ByteArraySegment.kt:6 | the default arguments give a valid view of the whole array |
| ByteArraySegments.AsArray | src/main/kotlin/locutus/tools/ByteArraySegment.kt:28-31 | the copy has `size` bytes, and byte i is the backing byte at offset + i |
| ByteArraySegments.GetAsWritten | src/main/kotlin/locutus/tools/ByteArraySegment.kt:33 | `get` as written succeeds for any index that lands inside the backing array, and reads that byte |
| ByteArraySegments.GetAgreesWithAsArray | src/main/kotlin/locutus/tools/ByteArraySegment.kt:31-33 | inside the view, `get` returns the byte `asArray` has at that index |
| ByteArraySegments.GetReadsPastSegment | src/main/kotlin/locutus/tools/ByteArraySegment.kt:33 | the view [2,3] of [1,2,3,4] has size 2 but answers 4 at index 2 |
| ByteArraySegments.Get | src/main/kotlin/locutus/tools/ByteArraySegment.kt:33 | the bounds-checked `get` succeeds exactly below `size`, returns the `asArray` byte, and otherwise gives an IndexOutOfBoundsException |
| ByteArraySegments.EqualityIsContentEquality | src/main/kotlin/locutus/tools/ByteArraySegment.kt:13-26 | two views are equal exactly when they have the same size and the same byte at every index, whatever their backing arrays and offsets; equal views hash alike |
| ByteArraySegments.Serialize | src/main/kotlin/locutus/tools/ByteArraySegment.kt:40-42 | the serializer writes `asArray`: `size` bytes, byte i being what `get(i)` reads |
| ByteArraySegments.Deserialize | src/main/kotlin/locutus/tools/ByteArraySegment.kt:44-46 | deserialization builds a valid view of the whole decoded array: its `asArray` is the bytes, and `get(i)` reads byte i |
| ByteArraySegments.SerializeRoundTrip | src/main/kotlin/locutus/tools/ByteArraySegment.kt:40-46 | deserializing a serialized segment gives an equal segment |
| ByteArraySegments.AsArrayExample | src/test/kotlin/locutus/tools/ByteArraySegmentSpec.kt:10-13 | the unit test's view of (1,2,3,4) at offset 1, length 2 is [2,3] |
| PartTracking.Extend | src/main/kotlin/locutus/tools/PartTracker.kt:14-25 | the `when` branch that fires turns a non-empty range into one holding exactly its old parts plus the new part |
| PartTracking.FirstReacting | src/main/kotlin/locutus/tools/PartTracker.kt:13-27 | the loop stops at the first range in list order that one of the three branches reacts to; no earlier range reacts |
| PartTracking.InsertSingleton | src/main/kotlin/locutus/tools/PartTracker.kt:28-34 | the "exact match" error happens exactly when a range already starts at the part; otherwise part..part is inserted after every range that starts below it |
| PartTracking.Add | src/main/kotlin/locutus/tools/PartTracker.kt:10-36 | a negative part is an IllegalArgumentException; otherwise the list keeps its length or grows by one |
| PartTracking.ExtendKeepsWf | src/main/kotlin/locutus/tools/PartTracker.kt:13-27 | extending the first reacting range keeps ranges non-empty with strictly increasing starts |
| PartTracking.InsertKeepsWf | src/main/kotlin/locutus/tools/PartTracker.kt:28-34 | when no range reacts, the search finds no exact match, and the insertion keeps starts strictly increasing |
| PartTracking.AddPreservesWf | src/main/kotlin/locutus/tools/PartTracker.kt:10-36 | `+=` on a non-negative part keeps that invariant, and under it the error branch is unreachable |
| PartTracking.AddCovers | src/main/kotlin/locutus/tools/PartTracker.kt:10-36 | after `+= p` the parts covered are exactly the old ones plus p |
| PartTracking.AddExtendsFirstReacting | src/main/kotlin/locutus/tools/PartTracker.kt:13-27 | a part some range reacts to goes to the first such range; no other range changes and the list keeps its length |
| PartTracking.AddInsertsSingleton | src/main/kotlin/locutus/tools/PartTracker.kt:28-34 | a part no range reacts to becomes a new range p..p between the ranges starting below and above it |
| PartTracking.ReAddInsideFirstIsNoOp | src/main/kotlin/locutus/tools/PartTracker.kt:23-25 | re-adding a part leaves the list unchanged when the first range that reacts to it holds it |
| PartTracking.ReAddCanOverlap | src/main/kotlin/locutus/tools/PartTracker.kt:13-27 | parts 0, 2, 1 give [0..1, 2..2]; adding the received part 2 again gives the overlapping [0..2, 2..2] |
| PartTracking.MissingWhenEmpty | src/main/kotlin/locutus/tools/PartTracker.kt:41-43 | with nothing received, exactly the parts 0 until totalParts are missing |
| PartTracking.GapsExact | src/main/kotlin/locutus/tools/PartTracker.kt:44-61 | over disjoint ranges, the loop from index ix reports exactly the parts after range ix, below totalParts, that no later range covers |
| PartTracking.MissingRangesExact | src/main/kotlin/locutus/tools/PartTracker.kt:38-64 | over disjoint ranges below totalParts, `missingRanges` covers exactly the parts below totalParts that were not received |
| PartTracking.GapsComplete | src/main/kotlin/locutus/tools/PartTracker.kt:44-61 | over any list `+=` builds, overlapping ranges included, the loop from index ix reports every part from the start of range ix up to totalParts that no range from ix on covers |
| PartTracking.MissingComplete | src/main/kotlin/locutus/tools/PartTracker.kt:38-64 | over any list `+=` builds, every part below totalParts that no range covers is among the missing ranges |
| PartTracking.DuplicatePartReportedMissing | src/main/kotlin/locutus/tools/PartTracker.kt:10-64 | parts 0, 2, 1, 2, 3 leave [0..3, 2..2], and `missingRanges(5)` then reports the received part 3 as missing |
| PartTracking.AddUnlessCovered | src/main/kotlin/locutus/tools/PartTracker.kt:10-36 | the corrected `+=` ignores a part some range covers, and rejects a negative part as `+=` does |
| PartTracking.AddUnlessCoveredPreservesDisjoint | src/main/kotlin/locutus/tools/PartTracker.kt:10-36 | the corrected `+=` accepts any part below totalParts, keeps ranges disjoint and below totalParts, and covers exactly the old parts plus the new one |
| PartTracking.DuplicatePartIgnoredWhenCovered | src/main/kotlin/locutus/tools/PartTracker.kt:10-64 | with the corrected `+=` the same parts give the disjoint [0..1, 2..3], and only part 4 is reported missing |
| PartTracking.UnitTestsFirstParts | src/test/kotlin/locutus/tools/PartTrackerSpec.kt:7-27 | the unit tests' scenarios with no parts, part 0, part 0 twice, and parts 0 and 1 |
| PartTracking.UnitTestsGaps | src/test/kotlin/locutus/tools/PartTrackerSpec.kt:28-39 | the unit tests' scenarios with parts 0 and 2, and parts 1 and 4 |
| PartTracking.UnitTestsOutOfOrder | src/test/kotlin/locutus/tools/PartTrackerSpec.kt:40-46 | parts 1, 2, 0 make the single range 0..2, and only 3..4 is missing |
| LargeMessages.SendAsWritten | src/main/kotlin/locutus/net/LargeMessageHandler.kt:49-56 | `send` as written fails exactly when `split` does; otherwise it builds one part per piece, and each carries part number 0 |
| LargeMessages.Send | src/main/kotlin/locutus/net/LargeMessageHandler.kt:49-56 | the split fails, with IllegalArgumentException, exactly when the piece count times MAX_PART_SIZE reaches 2^31, never for a message at least MAX_PART_SIZE bytes below 2^31; otherwise each part carries the uid, the message size, its own index as part number, and the part count; only part 0 is flagged first; payloads are non-empty, fit MAX_PART_SIZE, and concatenate back to the message |
| LargeMessages.NewHandler | src/main/kotlin/locutus/net/LargeMessageHandler.kt:78-85 | a handler starts with totalParts empty slots and an empty tracker; a negative count is a NegativeArraySizeException |
| LargeMessages.Receive | src/main/kotlin/locutus/net/LargeMessageHandler.kt:87-90 | a part number outside the slots is an index error that changes nothing; otherwise the part goes into its slot and no other slot changes, and that write stays when the tracker then throws, leaving the tracker as it was |
| LargeMessages.NewHandlerWf | src/main/kotlin/locutus/net/LargeMessageHandler.kt:78-85 | a fresh handler satisfies both handler invariants: the tracker is well formed and covers exactly the filled slots, with disjoint ranges |
| LargeMessages.ReceivePreservesWf | src/main/kotlin/locutus/net/LargeMessageHandler.kt:87-90 | receiving any part keeps the invariant: the tracker stays well formed (its ranges may overlap), below the slot count, and covers exactly the filled slots; a part naming a slot never throws |
| LargeMessages.EmptySlotsAreMissing | src/main/kotlin/locutus/net/LargeMessageHandler.kt:85-90 | under the invariant, every empty slot is among the ranges `missingRanges(totalParts)` reports |
| LargeMessages.SlotPayloads | src/main/kotlin/locutus/net/LargeMessageHandler.kt:98-102 | the payloads are read in slot order |
| LargeMessages.IsComplete | src/main/kotlin/locutus/net/LargeMessageHandler.kt:92-107 | the result is null exactly while a slot is empty; with no slots it is a NoSuchElementException; with a negative size a NegativeArraySizeException; with payloads longer than the size an index error; otherwise the payloads in slot order, zero-padded to the size |
| LargeMessages.OnLargeMessage | src/main/kotlin/locutus/net/LargeMessageHandler.kt:38-42 | for a known uid, its handler receives the part; for a new uid, a handler sized by the part count is created, stored, and receives the part, and it stays stored even when the part is rejected; a negative count stores nothing and throws NegativeArraySizeException; other uids' handlers are untouched |
| LargeMessages.OnLargeMessagePreservesWf | src/main/kotlin/locutus/net/LargeMessageHandler.kt:38-42 | the handler of every uid keeps the invariant across a callback, whatever the part |
| LargeMessages.FirstPartOutOfRangeKeepsHandler | src/main/kotlin/locutus/net/LargeMessageHandler.kt:38-42 | a first part whose number is not below its part count is rejected with an index error, the empty handler of that count stays stored, and a later part of that uid with a larger count and the same number is rejected too |
| LargeMessages.DeliverInOrder | src/main/kotlin/locutus/net/LargeMessageHandler.kt:38-42 | parts numbered 0, 1, … delivered in order fill their handler slot by slot, and no callback throws |
| LargeMessages.FirstPartFillsSlotZero | src/main/kotlin/locutus/net/LargeMessageHandler.kt:87-90 | the first part fills slot 0 of a fresh handler sized by its part count |
| LargeMessages.FirstDelivery | src/main/kotlin/locutus/net/LargeMessageHandler.kt:38-42 | the first part creates the handler for its uid without throwing |
| LargeMessages.CompleteAfterSend | src/main/kotlin/locutus/net/LargeMessageHandler.kt:92-107 | a handler holding the sent parts in order completes to the message |
| LargeMessages.SendRoundTrip | src/main/kotlin/locutus/net/LargeMessageHandler.kt:38-107 | round trip: a non-empty message that `send` splits, delivered in order to a listener, reassembles to exactly the message, and no callback throws |
| LargeMessages.SendAsWrittenNeverCompletes | src/main/kotlin/locutus/net/LargeMessageHandler.kt:54 | with the parts as written, a message of more than one part never completes |
| LargeMessages.DeliverToSlotZero | src/main/kotlin/locutus/net/LargeMessageHandler.kt:87-90 | parts that all name slot 0 never fill slot 1 |
| LargeMessages.DuplicatePartLeavesFilledSlotMissing | src/main/kotlin/locutus/net/LargeMessageHandler.kt:87-90 | parts 0, 2, 1, 2, 3 of a five-part message fill slot 3, yet leave the tracker [0..3, 2..2], whose missing ranges report slot 3 |
| LargeMessages.ReceiveUnlessCovered | src/main/kotlin/locutus/net/LargeMessageHandler.kt:87-90 | with the corrected tracker addition, a part outside the slots is an index error that changes nothing, and a part already covered only overwrites its slot |
| LargeMessages.ReceiveUnlessCoveredPreservesWf | src/main/kotlin/locutus/net/LargeMessageHandler.kt:87-90 | the corrected handler accepts every part naming a slot and keeps its ranges disjoint, below the slot count, and covering exactly the filled slots |
| LargeMessages.MissingRangesAreEmptySlots | src/main/kotlin/locutus/net/LargeMessageHandler.kt:85-90 | with the corrected handler, `missingRanges(totalParts)` reports exactly the empty slots |
| Rates.NewRate | src/main/kotlin/locutus/protocols/bw/Rate.kt:6-12 | a new rate has an empty window, a zero total, and satisfies the total invariant |
| Rates.TrimWindow | src/main/kotlin/locutus/protocols/bw/Rate.kt:29-34 | trimming keeps the window size and never grows the window; without a throw at least one sample is left; the only throw is a null dereference, and it leaves the window drained to empty |
| Rates.TrimFailsIffAllTooOld | src/main/kotlin/locutus/protocols/bw/Rate.kt:30 | trimming throws exactly when every sample is older than the window |
| Rates.TrimLeavesRecentSuffix | src/main/kotlin/locutus/protocols/bw/Rate.kt:29-34 | what trimming leaves is a suffix of the window, and without a throw its head is recent enough |
| Rates.TrimDropsOnlyOldSamples | src/main/kotlin/locutus/protocols/bw/Rate.kt:29-34 | every dropped sample was older than the window, also when the trim throws |
| Rates.RegisterTraffic | src/main/kotlin/locutus/protocols/bw/Rate.kt:14-20 | with a non-negative window, registering does not throw and the new sample ends the window; a throw is a null dereference that leaves the window empty |
| Rates.WfIsWrappedSum | src/main/kotlin/locutus/protocols/bw/Rate.kt:12-17 | the invariant says exactly that totalBytes is the window's byte sum wrapped to 32 bits |
| Rates.TrimPreservesWf | src/main/kotlin/locutus/protocols/bw/Rate.kt:29-34 | trimming keeps totalBytes equal to the wrapped sum over the window, and a throw leaves the total zero |
| Rates.RegisterPreservesWf | src/main/kotlin/locutus/protocols/bw/Rate.kt:14-34 | registering keeps totalBytes equal to the wrapped sum over the window, and a throw leaves the total zero |
| Rates.TrimIdempotent | src/main/kotlin/locutus/protocols/bw/Rate.kt:29-34 | trimming twice at the same time is trimming once, exception included |
| Rates.RegisterWithNegativeWindowFails | src/main/kotlin/locutus/protocols/bw/Rate.kt:14-34 | with a negative window, registering into a window of old samples drains every sample and ends in a null dereference |
| Rates.NegativeWindowDrainsExample | src/main/kotlin/locutus/protocols/bw/Rate.kt:14-34 | a one-nanosecond negative window throws on the first sample and leaves an empty window with a zero total |
| MessageRouting.EmptyRouter | src/main/kotlin/locutus/net/messages/MessageRouter.kt:62-68 | a new router satisfies the invariant that every listening label has an extractor and a non-empty map, and no handler is registered under any class, label and key |
| MessageRouting.Listen | src/main/kotlin/locutus/net/messages/MessageRouter.kt:18-43 | the handler is registered under its class, label and key, and no other registration changes; the first extractor under a label is kept; a removal is scheduled exactly when the timeout is not NEVER |
| MessageRouting.Expire | src/main/kotlin/locutus/net/messages/MessageRouter.kt:29-41 | the removal unregisters exactly its key; the label's map goes when it becomes empty; classes and extractors stay |
| MessageRouting.RemoveKey | src/main/kotlin/locutus/net/messages/MessageRouter.kt:33-39 | the key is dropped from the label's map, and the label is dropped exactly when no key is left; other labels are unchanged |
| MessageRouting.RouteFrom | src/main/kotlin/locutus/net/messages/MessageRouter.kt:51-59 | the loop over the labels in iteration order throws exactly when some label's body throws (missing extractor or throwing extractor); every handler invoked is registered for the key its label's extractor computes, at most one per label; without a throw every such handler is invoked |
| MessageRouting.RouteFromThrowsFirstFailure | src/main/kotlin/locutus/net/messages/MessageRouter.kt:51-59 | the exception the loop ends with is that of the first label, in iteration order, whose body throws |
| MessageRouting.Route | src/main/kotlin/locutus/net/messages/MessageRouter.kt:45-60 | a class with no listeners reaches nobody; the call throws exactly when some label under the class has no extractor or its extractor throws, and then with the first such label's exception in iteration order; every handler invoked, before a throw too, is registered for its label's computed key, once per label; without a throw the handlers invoked are exactly those |
| MessageRouting.ListenPreservesWf | src/main/kotlin/locutus/net/messages/MessageRouter.kt:24-27 | `listen` keeps that invariant |
| MessageRouting.ExpirePreservesWf | src/main/kotlin/locutus/net/messages/MessageRouter.kt:31-40 | the timed removal keeps that invariant |
| MessageRouting.RouteThrowsOnlyFromExtractorsWhenWf | src/main/kotlin/locutus/net/messages/MessageRouter.kt:51-54 | under the invariant the `requireNotNull` never fires: any exception is one an extractor of a listening label throws, and with no throwing extractor `route` does not throw |
| MessageRouting.ListenThenRouteDelivers | src/main/kotlin/locutus/net/messages/MessageRouter.kt:18-60 | a registered handler receives every message of its class whose key, as the label's kept extractor computes it, is its key, unless routing throws; when no extractor throws it always does |
| MessageRouting.ExpireStopsDelivery | src/main/kotlin/locutus/net/messages/MessageRouter.kt:28-60 | after the removal, a message with that key reaches no handler under the label, whether or not routing throws |
| MessageRouting.TestRouterShape | src/test/kotlin/locutus/net/messages/MessageRouterSpec.kt:31-33 | the test's registration builds one class map, one label map and one key |
| MessageRouting.RouterUnitTestRegistration | src/test/kotlin/locutus/net/messages/MessageRouterSpec.kt:31-38 | with timeout NEVER, no removal is scheduled and one listener is registered |
| MessageRouting.RouterUnitTestOtherClass | src/test/kotlin/locutus/net/messages/MessageRouterSpec.kt:42-47 | a Bar message reaches nobody |
| MessageRouting.RouterUnitTestOtherKey | src/test/kotlin/locutus/net/messages/MessageRouterSpec.kt:49-54 | Foo(2) reaches nobody |
| MessageRouting.RouterUnitTestDelivers | src/test/kotlin/locutus/net/messages/MessageRouterSpec.kt:56-61 | Foo(1) reaches exactly the registered handler |
| MessageRouting.SharedLabelThrowsClassCast | src/main/kotlin/locutus/net/messages/MessageRouter.kt:24-54 | a second message class listening under an existing label keeps the first class's extractor, and routing its message throws ClassCastException before any handler runs |
| ContractPostStore.EmptyStore | src/main/kotlin/locutus/state/ContractPosts.kt:13-16 | a new store satisfies the invariant that only stored posts have read times, and holds no post under any key |
| ContractPostStore.Put | src/main/kotlin/locutus/state/ContractPosts.kt:18-20 | the post is stored under its key; other keys and all read times are unchanged |
| ContractPostStore.Get | src/main/kotlin/locutus/state/ContractPosts.kt:22-28 | a hit returns the stored post and stamps its read time; a miss returns null and changes nothing |
| ContractPostStore.SortByTimeSorts | src/main/kotlin/locutus/state/ContractPosts.kt:34 | `sortedBy` orders keys by read time and keeps distinct keys distinct |
| ContractPostStore.LeastRecentlyRead | src/main/kotlin/locutus/state/ContractPosts.kt:31-36 | a negative count is an IllegalArgumentException; otherwise the victims are min(i, entries) distinct read keys, none read later than a key that stays |
| ContractPostStore.DeleteLeastRecentlyUsed | src/main/kotlin/locutus/state/ContractPosts.kt:30-40 | a negative count fails; otherwise exactly min(i, entries) keys leave both stores, none read later than a key that stays |
| ContractPostStore.DeletePreservesWf | src/main/kotlin/locutus/state/ContractPosts.kt:30-40 | eviction keeps read times only for stored posts and never evicts a post that was never read |
| ContractPostStore.ReadPostIsEvictedLast | src/main/kotlin/locutus/state/ContractPosts.kt:22-40 | a post just read survives a single eviction when other posts have been read |
| Values.CheckNumber | src/main/kotlin/locutus/protocols/microblog/v1/MicroblogContractV1.kt:22-24 | the number check passes exactly for no number or a non-negative one |
| Values.PinnedNumberNarrowsAcceptance | src/main/kotlin/locutus/protocols/microblog/v1/MicroblogContractV1.kt:26-32 | a contract pinned to post number n accepts exactly the posts the unpinned contract accepts that carry n |
| Values.NewerIsStrictOrder | src/main/kotlin/locutus/protocols/microblog/v1/MicroblogContractV1.kt:36 | "strictly higher version" is irreflexive, asymmetric and transitive |
| Values.LatestKeepsHighestVersion | src/main/kotlin/locutus/protocols/microblog/v1/MicroblogContractV1.kt:34-44 | a holder that takes every strictly newer offer ends on a post no offer is newer than, which is the start or one of the offers |
| SignedContracts.Valid | src/main/kotlin/locutus/apps/signed/v1/SignedContractV1.kt:14-20 | a value is valid exactly when it is a signed value whose signature verifies; each failure carries its message |
| SignedContracts.Update | src/main/kotlin/locutus/apps/signed/v1/SignedContractV1.kt:22-32 | the update is taken exactly when both sides are signed values and the new version is strictly higher |
| SignedContracts.UpdateIsStrictlyNewer | src/main/kotlin/locutus/apps/signed/v1/SignedContractV1.kt:22-32 | an accepted update raises the version, and offering it again is refused |
| SignedContracts.ApplyUpdatesKeepsHighestVersion | src/main/kotlin/locutus/apps/signed/v1/SignedContractV1.kt:22-32 | after any sequence of offers, the held value carries the highest version seen |
| MicroblogContracts.New | src/main/kotlin/locutus/protocols/microblog/v1/MicroblogContractV1.kt:22-24 | the constructor fails with IllegalArgumentException exactly for a negative number |
| MicroblogContracts.PinnedContractValidity | src/main/kotlin/locutus/protocols/microblog/v1/MicroblogContractV1.kt:26-32 | a pinned contract accepts exactly the posts the latest-post contract accepts that carry its number |
| MicroblogContracts.Update | src/main/kotlin/locutus/protocols/microblog/v1/MicroblogContractV1.kt:34-44 | a ClassCastException exactly unless both sides are of this protocol; otherwise the update is taken exactly when its version is strictly higher |
| MicroblogContracts.UpdateFollowsLatest | src/main/kotlin/locutus/protocols/microblog/v1/MicroblogContractV1.kt:34-44 | `update` keeps exactly the post the reference holder keeps |
| MicroblogContracts.ApplyUpdatesFollowsLatest | src/main/kotlin/locutus/protocols/microblog/v1/MicroblogContractV1.kt:34-44 | a holder applying `update` to any sequence of offers ends on the reference holder's post, which no offer is newer than |
| FlogContracts.New | src/main/kotlin/locutus/apps/flog/protocol/v1/FlogContractV1.kt:32-34 | the constructor fails exactly for a negative number |
| FlogContracts.PinnedContractValidity | src/main/kotlin/locutus/apps/flog/protocol/v1/FlogContractV1.kt:36-42 | a pinned contract accepts exactly the flog posts the latest-post contract accepts that carry its number |
| FlogContracts.Update | src/main/kotlin/locutus/apps/flog/protocol/v1/FlogContractV1.kt:44-57 | the update is taken exactly when both sides are flog posts and the version is strictly higher |
| FlogContracts.UpdateFollowsLatest | src/main/kotlin/locutus/apps/flog/protocol/v1/FlogContractV1.kt:44-57 | on flog posts `update` keeps exactly the post the reference holder keeps; on anything else it declines |
| FlogContracts.ApplyUpdatesFollowsLatest | src/main/kotlin/locutus/apps/flog/protocol/v1/FlogContractV1.kt:44-57 | a holder applying `update` to any sequence of flog offers ends on the reference holder's post, which no offer is newer than |
| RingContracts.New | src/main/kotlin/locutus/protocols/ring/contracts/contracts.kt:59-61 | the constructor fails exactly for a negative number |
| RingContracts.PinnedContractValidity | src/main/kotlin/locutus/protocols/ring/contracts/contracts.kt:63-69 | a pinned contract accepts exactly the posts the latest-post contract accepts that carry its number |
| RingContracts.Supersedes | src/main/kotlin/locutus/protocols/ring/contracts/contracts.kt:71-77 | a ClassCastException exactly unless both are ring microblog posts; otherwise true exactly for a strictly higher version |
| RingContracts.SupersedesIsStrictOrder | src/main/kotlin/locutus/protocols/ring/contracts/contracts.kt:71-77 | `supersedes` is irreflexive, asymmetric and transitive |
| RingContracts.LatestIsNotSuperseded | src/main/kotlin/locutus/protocols/ring/contracts/contracts.kt:71-77 | the post the reference holder ends on is superseded by no offer |
| RingMicroblog.PinnedContractValidity | src/main/kotlin/locutus/protocols/ring/contracts/microblog.kt:14-20 | a pinned contract accepts exactly the MicroblogPosts the latest-post contract with the same key accepts that carry its number |
| RingMicroblog.Supersedes | src/main/kotlin/locutus/protocols/ring/contracts/microblog.kt:22-28 | an IllegalStateException exactly unless both are MicroblogPosts; otherwise true exactly for a strictly higher number |
| RingMicroblog.PinnedContractNeverSupersedes | src/main/kotlin/locutus/protocols/ring/contracts/microblog.kt:14-28 | among posts a pinned contract accepts, `supersedes` is always false |
| RingMicroblog.SupersedesIsStrictOrder | src/main/kotlin/locutus/protocols/ring/contracts/microblog.kt:22-28 | `supersedes` is irreflexive, asymmetric and transitive on MicroblogPosts |
| AccountContracts.CheckEntries | src/main/kotlin/locutus/protocols/karma/AccountContract.kt:29-37 | the entry loop either passes or fails with the "not sent or received" message, and passes exactly when every remaining entry is from or to the account |
| AccountContracts.Valid | src/main/kotlin/locutus/protocols/karma/AccountContract.kt:26-42 | a non-ledger value fails with its own message; a ledger passes or fails with the entry message |
| AccountContracts.ValidIffEveryEntryInvolves | src/main/kotlin/locutus/protocols/karma/AccountContract.kt:26-42 | a value is valid exactly when it is a ledger whose every entry is from or to the account |
| AccountContracts.AppendKeepsValid | src/main/kotlin/locutus/protocols/karma/AccountContract.kt:26-42 | appending to a valid ledger keeps it valid exactly when the new entry involves the account |
| Connections.OutboundKey | src/main/kotlin/locutus/net/Connection.kt:14-22 | a friend's own key; a stranger's inbound key; an IllegalStateException otherwise |
| Connections.OutboundKeyAvailability | src/main/kotlin/locutus/net/Connection.kt:12-22 | the key is missing exactly for a stranger with no inbound key, and a friend's key ignores inbound keys |
| Peers.SamePeerIgnoresLabel | src/main/kotlin/locutus/net/messages/Peer.kt:22-38 | peers are equal exactly when they agree apart from the label, and equal peers hash alike |
| Peers.RelabelledPeerIsSame | src/main/kotlin/locutus/net/messages/Peer.kt:22-38 | relabelling a peer keeps it equal and keeps its hash |
| Peers.PeerText | src/main/kotlin/locutus/net/messages/Peer.kt:17-40 | the text is the label when there is one; otherwise an address not 4 or 16 bytes long throws UnknownHostException, a port outside 0..65535 throws IllegalArgumentException, and a valid pair prints as its socket address |
| Peers.SamePeerPrintsAlike | src/main/kotlin/locutus/net/messages/Peer.kt:22-40 | unlabelled peers that `Peer.equals` identifies print alike, or both throw |
| Peers.NewPeerKeyLocation | src/main/kotlin/locutus/net/messages/Peer.kt:52-53 | the secondary constructor keeps peer, key and location |
| Peers.SecondaryConstructorAgrees | src/main/kotlin/locutus/net/messages/Peer.kt:44-53 | the secondary constructor gives data-class-equal keys for peers that `Peer.equals` identifies, whatever their labels and locations |

## Left out

- Concurrency (`synchronized`, `@Volatile`, concurrent maps,
  `CopyOnWriteArrayList`): each operation is modelled as one atomic step.
- `LargeMessageHandler.handle` and its `Timer`: the private resend logic is
  never called. `expectNextMessageBy` is derived from a floating-point send
  rate.
- `LargeMessageHandler.send` only builds its parts and never transmits them.
  `Send` returns the list of parts, and the random uid is a parameter.
- Send, SendAsWritten: MAX_PART_SIZE uses `MAX_UDP_PACKET_SIZE` = 1400 from
  `TrConstants.kt:5`. `locutus.Constants` is not part of this model.
- LargeMessages.OnLargeMessage: the cache's five-minute expiry after access
  is not modelled. Handlers never disappear.
- `InboundMessageHandler` stores its `sender`, which neither `plusAssign`
  nor `isComplete` reads.
- LargeMessages.DeliverAll: what the connection manager does with an
  exception a listener throws is not part of this model. Each part is still
  delivered after it, and the first exception is recorded.
- `Rate.rate`: floating-point division over a wall-clock duration. Time is
  an integer count of nanoseconds, and `Instant.now()` is a parameter.
- MessageRouting.Route: the handler blocks are caller code and are taken
  not to throw. An exception from one would end the loop like an
  extractor's does. The labels' iteration order is a parameter.
- Handlers are identified by a number, and message classes by an explicit
  tag.
- `listen`'s coroutine `delay(timeout)` becomes a `Removal` value that
  `Expire` carries out whenever the caller chooses.
- ContractPostStore: the post's key (`sig.asBase58Encoded`), `Instant.now()`
  and the map's iteration order are parameters.
- DeleteLeastRecentlyUsed: among keys with equal read times, which keys are
  evicted depends on the iteration order. The contract states only the time
  order, not that tie-breaking.
- The `shoebox` persistence is not part of this model: the stores are maps.
- Signature verification (RSA and elliptic-curve) is a function parameter.
- ProtoBuf decoding of payloads is not modelled: decoded payloads are
  carried next to the bytes the signature covers.
- `contentHashCode` is modelled, but no property about hash values beyond
  "equal inputs hash alike" is stated.
- `FlogUpdateV1` declares its field as a microblog post, while
  `FlogContractV1.update` reads it as a flog post. The model follows the
  reading in `update`.
- `AccountContract.update`, `LargeFileContractV1` and the microblog contract's
  `postType` are unimplemented (`TODO()`) in the source.
- AccountContracts.Valid: the failure message for a non-ledger value leaves
  out the class name the source interpolates into it.
- Bytes.Split: a piece size of 0 on a non-empty array makes the source loop
  forever, so that case is excluded by the precondition. Arrays are JVM
  arrays, so their length is below 2^31.
- `betterBinarySearch` comes from a library that is not part of this model.
  It is modelled as the insertion point after every range that starts below
  the part, with an "exact match" error when a range starts at the part.
- `LargeMessage` is declared in a file that is not part of this model. Its
  third constructor argument, the literal 0 in `send`, is taken to be the
  part number, since the receiver indexes slots by `partNo`.
- PartTracking.MissingRanges: between two adjacent ranges such as 0..1 and
  2..3, the gap check `next.first - this.last > 0` adds the empty range
  2..1. The model reports it as the source does; it covers no part.

## Findings

| source | as written | input that shows it | evidently intended | confidence | as-written member | corrected member |
|---|---|---|---|---|---|---|
| src/main/kotlin/locutus/tools/PartTracker.kt:13-27 | `+=` extends the first range that a part is next to or inside, even when a later range already holds the part. A duplicate part can therefore grow an earlier range over a later one. | parts 0, 2, 1, 2, 3 leave [0..3, 2..2]; `missingRanges(5)` then reports the received part 3 as missing | a part already received changes nothing, ranges stay disjoint, and `missingRanges` reports exactly the parts not received | medium, not executed | PartTracking.DuplicatePartReportedMissing | PartTracking.AddUnlessCoveredPreservesDisjoint |
| src/main/kotlin/locutus/tools/ByteArraySegment.kt:10 | `offset + length <= array.size` is computed in 32-bit Int arithmetic and can wrap negative | offset 2^31 − 1, length 1, array of 4 bytes: the check passes, and the segment lies outside its array | the constructor accepts only views inside the array | high, not executed | ByteArraySegments.NewAsWrittenAcceptsOverflow | ByteArraySegments.New |
| src/main/kotlin/locutus/tools/ByteArraySegment.kt:33 | `get(index)` reads `array[offset + index]` without checking `index < length` | the view [2,3] of [1,2,3,4] (offset 1, length 2) answers 4 at index 2, although its size is 2 | an index error at or past `size`, as the List contract requires | high, not executed | ByteArraySegments.GetReadsPastSegment | ByteArraySegments.Get |
| src/main/kotlin/locutus/net/LargeMessageHandler.kt:54 | every part is built with part number 0 | a message of 1301 bytes gives two parts, both numbered 0: slot 1 is never filled, and the message never completes | part number = the piece's index | low, not executed | LargeMessages.SendAsWrittenNeverCompletes | LargeMessages.SendRoundTrip |

=== FILE: accountcontract.dfy ===
/** `AccountContract`: a ledger value is valid for an account when every
    entry in it is a transfer from or to that account. */
module AccountContracts {
  import opened Failures
  import opened Keys
  import opened Values

  /** The message for an entry that does not involve the account. */
  const NotInvolved: string := "This transaction isn't being sent or received from this contract"

  /** The message for a value of the wrong kind; the class name the source
      interpolates is left out. */
  const NotAnAccountValue: string := "value is not an AccountValue"

  /** An entry involves the account when the account sends or receives it.
      Contracts are data classes, so this is equality of public keys. */
  predicate Involves(c: AccountContract, e: SignedAccountEntry)
  {
    e.accountEntry.from == c || e.accountEntry.to == c
  }

  /** The entry loop of `valid`, from index `index` on: it stops at the
      first entry that does not involve the account. */
  function CheckEntries(c: AccountContract, entries: seq<SignedAccountEntry>, index: nat): (r: Outcome)
    requires index <= |entries|
    ensures r == Pass || r == Fail(NotInvolved)
    ensures r == Pass <==> forall i :: index <= i < |entries| ==> Involves(c, entries[i])
    decreases |entries| - index
  {
    if index == |entries| then Pass
    else if entries[index].accountEntry.from == c then CheckEntries(c, entries, index + 1)
    else if entries[index].accountEntry.to == c then CheckEntries(c, entries, index + 1)
    else Fail(NotInvolved)
  }

  /** `valid(store, p)`. The store is not consulted. */
  function Valid(c: AccountContract, value: Value): (r: Outcome)
    ensures !value.AccountValue? ==> r == Fail(NotAnAccountValue)
    ensures value.AccountValue? ==> r == Pass || r == Fail(NotInvolved)
  {
    match value
    case AccountValue(entries) => CheckEntries(c, entries, 0)
    case _ => Fail(NotAnAccountValue)
  }

  /** A ledger is valid for an account exactly when every entry is a
      transfer from or to it; signatures are not checked here. */
  lemma ValidIffEveryEntryInvolves(c: AccountContract, value: Value)
    ensures Valid(c, value) == Pass <==>
      value.AccountValue? && forall i :: 0 <= i < |value.entries| ==> Involves(c, value.entries[i])
  {
  }

  /** `verify(entry)`: the entry's signature covers its payload under the
      account's key. */
  predicate Verify(c: AccountContract, e: SignedAccountEntry, verify: Verifier)
  {
    verify(c.publicKey, e.signature, e.payload)
  }

  /** Appending an entry to a valid ledger keeps it valid exactly when the
      new entry involves the account. */
  lemma AppendKeepsValid(c: AccountContract, entries: seq<SignedAccountEntry>, e: SignedAccountEntry)
    requires Valid(c, AccountValue(entries)) == Pass
    ensures Valid(c, AccountValue(entries + [e])) == Pass <==> Involves(c, e)
  {
    ValidIffEveryEntryInvolves(c, AccountValue(entries));
    ValidIffEveryEntryInvolves(c, AccountValue(entries + [e]));
    var all := entries + [e];
    assert all[|entries|] == e;
    if Involves(c, e) {
      forall i | 0 <= i < |all| ensures Involves(c, all[i]) {
        if i < |entries| {
          assert all[i] == entries[i];
        }
      }
    }
  }
}

=== FILE: bytes.dfy ===
/** Byte-array utilities of `locutus.tools.crypto` (ByteArrayUtils.kt and
    Util.kt, whose `merge` and `startsWith` are the same code and are defined
    once here), the 8-byte big-endian Long codec, and the JVM's 32-bit
    wrap-around and `contentHashCode` that other modules share. */
module Bytes {
  import opened Failures

  /** A JVM `Byte`: signed, two's complement. */
  newtype Byte = b: int | -128 <= b < 128

  const TwoTo31: int := 0x8000_0000
  const TwoTo32: int := 0x1_0000_0000
  const TwoTo63: int := 0x8000_0000_0000_0000
  const TwoTo64: int := 0x1_0000_0000_0000_0000

  /** A JVM `Int`. */
  type Int32 = x: int | -TwoTo31 <= x < TwoTo31

  /** A JVM `Long`. */
  type Long = x: int | -TwoTo63 <= x < TwoTo63

  /** Two's-complement wrap-around of JVM `Int` arithmetic. */
  function Wrap32(x: int): (r: Int32)
    ensures (r - x) % TwoTo32 == 0
    ensures -TwoTo31 <= x < TwoTo31 ==> r == x
  {
    (x + TwoTo31) % TwoTo32 - TwoTo31
  }

  /** Two's-complement wrap-around of JVM `Long` arithmetic. */
  function Wrap64(x: int): (r: Long)
    ensures (r - x) % TwoTo64 == 0
    ensures -TwoTo63 <= x < TwoTo63 ==> r == x
  {
    (x + TwoTo63) % TwoTo64 - TwoTo63
  }

  /** `b.toLong() and 0xFF`: the byte read as unsigned. */
  function Unsigned(b: Byte): (u: int)
    ensures 0 <= u < 256
    ensures (u - b as int) % 256 == 0
  {
    if b < 0 then b as int + 256 else b as int
  }

  /** `x.toByte()` for a value already masked with `and 0xFF`. */
  function ToByte(u: int): (b: Byte)
    requires 0 <= u < 256
    ensures Unsigned(b) == u
  {
    if u >= 128 then (u - 256) as Byte else u as Byte
  }

  // ---------------------------------------------------------------------
  // merge
  // ---------------------------------------------------------------------

  /** Sum of the sizes of the arrays: `sizes.sum()`. */
  function TotalSize(arrays: seq<seq<Byte>>): nat
  {
    if |arrays| == 0 then 0 else |arrays[0]| + TotalSize(arrays[1..])
  }

  /** Where `merge` starts copying the `k`-th array. */
  function Offset(arrays: seq<seq<Byte>>, k: nat): nat
    requires k <= |arrays|
  {
    TotalSize(arrays[..k])
  }

  lemma {:induction false} OffsetStep(arrays: seq<seq<Byte>>, k: nat)
    requires 0 < k <= |arrays|
    ensures Offset(arrays, k) == |arrays[0]| + Offset(arrays[1..], k - 1)
  {
    assert arrays[..k][1..] == arrays[1..][..k - 1];
  }

  lemma {:induction false} OffsetBound(arrays: seq<seq<Byte>>, k: nat)
    requires k < |arrays|
    ensures Offset(arrays, k) + |arrays[k]| <= TotalSize(arrays)
  {
    if k > 0 {
      OffsetStep(arrays, k);
      OffsetBound(arrays[1..], k - 1);
    }
  }

  /** The inputs one after the other: what `merge` writes when their total
      size fits in an `Int`. */
  function Concat(arrays: seq<seq<Byte>>): (r: seq<Byte>)
    ensures |r| == TotalSize(arrays)
  {
    if |arrays| == 0 then [] else arrays[0] + Concat(arrays[1..])
  }

  /** `src.copyInto(dest, pos)`: an index error when `src` does not fit. */
  function CopyInto(dest: seq<Byte>, src: seq<Byte>, pos: nat): (r: Result<seq<Byte>>)
    requires pos <= |dest|
    ensures r.Ok? <==> pos + |src| <= |dest|
    ensures r.Err? ==> r.error == IndexOutOfBounds
    ensures r.Ok? ==> |r.value| == |dest| && r.value[pos..pos + |src|] == src
    ensures r.Ok? ==> r.value[..pos] == dest[..pos] && r.value[pos + |src|..] == dest[pos + |src|..]
  {
    if pos + |src| > |dest| then Err(IndexOutOfBounds)
    else Ok(dest[..pos] + src + dest[pos + |src|..])
  }

  /** The copy loop shared by `merge` and `isComplete`, from position `pos`
      on, over the remaining inputs: it writes their concatenation at `pos` and leaves
      the rest of the buffer alone, or fails on the first payload that
      runs past the buffer's end. */
  function CopyAll(dest: seq<Byte>, pos: nat, ps: seq<seq<Byte>>): (r: Result<seq<Byte>>)
    requires pos <= |dest|
    ensures r.Ok? <==> pos + TotalSize(ps) <= |dest|
    ensures r.Err? ==> r.error == IndexOutOfBounds
    ensures r.Ok? ==> r.value == dest[..pos] + Concat(ps) + dest[pos + TotalSize(ps)..]
    decreases |ps|
  {
    if |ps| == 0 then
      Ok(dest)
    else
      match CopyInto(dest, ps[0], pos)
      case Err(e) => Err(e)
      case Ok(d) =>
        var r := CopyAll(d, pos + |ps[0]|, ps[1..]);
        if r.Ok? then
          CopyStep(dest, pos, ps[0], Concat(ps[1..]), d, r.value);
          r
        else r
  }

  /** Copying a first payload `x` and then the rest `m` writes `x + m`. */
  lemma CopyStep(dest: seq<Byte>, pos: nat, x: seq<Byte>, m: seq<Byte>, d: seq<Byte>, written: seq<Byte>)
    requires pos + |x| + |m| <= |dest|
    requires |d| == |dest| && d[..pos] == dest[..pos] && d[pos..pos + |x|] == x
    requires d[pos + |x|..] == dest[pos + |x|..]
    requires written == d[..pos + |x|] + m + d[pos + |x| + |m|..]
    ensures written == dest[..pos] + (x + m) + dest[pos + |x| + |m|..]
  {
    var n := |x|;
    assert d[..pos + n] == dest[..pos] + x by { PrefixSplit(d, pos, pos + n); }
    assert d[pos + n + |m|..] == dest[pos + n + |m|..] by {
      DropDrop(d, pos + n, |m|);
      DropDrop(dest, pos + n, |m|);
    }
  }

  lemma PrefixSplit(s: seq<Byte>, i: nat, j: nat)
    requires i <= j <= |s|
    ensures s[..j] == s[..i] + s[i..j]
  {
  }

  lemma DropDrop(s: seq<Byte>, i: nat, k: nat)
    requires i + k <= |s|
    ensures s[i..][k..] == s[i + k..]
  {
  }

  /** `n` zero bytes: a fresh `ByteArray(n)`. */
  function Zeros(n: nat): (z: seq<Byte>)
    ensures |z| == n && forall i :: 0 <= i < n ==> z[i] == 0
  {
    seq(n, _ => 0)
  }

  /** `Iterable<ByteArray>.merge()`. The sizes are summed in `Int`
      arithmetic; since every size is itself an `Int`, that sum is the
      exact total wrapped to 32 bits. A fresh array of that size is
      allocated and every input is copied in right after the previous one.
      Below 2^31 bytes in all, the result is the inputs one after the other.
      From 2^31 on, the wrapped size is either negative, which the
      allocation rejects, or too small, so that some copy runs past the end
      of the fresh array. */
  function Merge(arrays: seq<seq<Byte>>): (r: Result<seq<Byte>>)
    ensures TotalSize(arrays) < TwoTo31 ==> r == Ok(Concat(arrays))
    ensures TotalSize(arrays) >= TwoTo31 ==> r.Err?
    ensures r.Err? ==> (r.error == NegativeArraySize <==> Wrap32(TotalSize(arrays)) < 0)
    ensures r.Err? ==> r.error == NegativeArraySize || r.error == IndexOutOfBounds
  {
    var size := Wrap32(TotalSize(arrays));
    if size < 0 then Err(NegativeArraySize)
    else
      var z := Zeros(size);
      assert TotalSize(arrays) < TwoTo31 ==> z[..0] + Concat(arrays) + z[TotalSize(arrays)..] == Concat(arrays);
      CopyAll(z, 0, arrays)
  }

  /** `merge` places the `k`-th input at `Offset(arrays, k)`, so every input
      appears in the result, whole and in order. */
  lemma {:induction false} MergeLayout(arrays: seq<seq<Byte>>, k: nat)
    requires k < |arrays|
    ensures Offset(arrays, k) + |arrays[k]| <= |Concat(arrays)|
    ensures Concat(arrays)[Offset(arrays, k) .. Offset(arrays, k) + |arrays[k]|] == arrays[k]
  {
    if k == 0 {
      assert arrays[..0] == [];
    } else {
      OffsetStep(arrays, k);
      MergeLayout(arrays[1..], k - 1);
      assert arrays[k] == arrays[1..][k - 1];
    }
  }

  /** Merging two lists of arrays one after the other is merging their
      concatenation. */
  lemma {:induction false} MergeAppend(a: seq<seq<Byte>>, b: seq<seq<Byte>>)
    ensures Concat(a + b) == Concat(a) + Concat(b)
  {
    if |a| == 0 {
      assert a + b == b;
    } else {
      assert (a + b)[1..] == a[1..] + b;
      MergeAppend(a[1..], b);
    }
  }

  /** An empty array contributes nothing to `merge`, wherever it stands. */
  lemma MergeSkipsEmpty(a: seq<seq<Byte>>, b: seq<seq<Byte>>)
    ensures Concat(a + [[]] + b) == Concat(a + b)
  {
    MergeAppend(a + [[]], b);
    MergeAppend(a, [[]]);
    MergeAppend(a, b);
    assert Concat([[]]) == [];
  }

  /** `merge` of an empty list is an empty array, and of a single array is
      that array's contents. */
  lemma MergeOfFewArrays(x: seq<Byte>)
    ensures Concat([]) == []
    ensures Concat([x]) == x
  {
    assert [x][1..] == [];
  }

  // ---------------------------------------------------------------------
  // split
  // ---------------------------------------------------------------------

  function Min(a: int, b: int): int { if a <= b then a else b }

  /** A multiple of a positive number strictly between -d and d is 0. */
  lemma MultipleBound(t: int, d: int)
    requires d > 0 && -d < t * d < d
    ensures t == 0
  {
  }

  /** Euclidean division is unique: quotient and remainder are determined. */
  lemma DivModUnique(x: int, d: int, q: int, r: int)
    requires d > 0 && 0 <= r < d && x == q * d + r
    ensures x / d == q && x % d == r
  {
    var q', r' := x / d, x % d;
    assert x == q' * d + r';
    assert (q' - q) * d == r - r';
    MultipleBound(q' - q, d);
  }

  lemma CeilStep(m: int, n: int)
    requires n > 0 && m > n
    ensures (m - n + n - 1) / n + 1 == (m + n - 1) / n
  {
    var x := m - 1;
    DivModUnique(x + n, n, x / n + 1, x % n);
  }

  /** Start of the `k`-th piece: `k * maxPieceSize`. */
  function ChunkStart(k: nat, n: nat): nat
  {
    if k == 0 then 0 else ChunkStart(k - 1, n) + n
  }

  /** The pieces `split` produces for `maxPieceSize = n > 0`: consecutive
      chunks of `n` bytes, the last one possibly shorter. */
  function Pieces(a: seq<Byte>, n: int): (r: seq<seq<Byte>>)
    requires n > 0
    ensures |r| == (|a| + n - 1) / n
    ensures forall k :: 0 <= k < |r| ==> 0 < |r[k]| <= n
    ensures forall k :: 0 <= k < |r| - 1 ==> |r[k]| == n
    decreases |a|
  {
    if |a| == 0 then
      assert (|a| + n - 1) / n == 0 by { DivModUnique(n - 1, n, 0, n - 1); }
      []
    else if |a| <= n then
      assert (|a| + n - 1) / n == 1 by { DivModUnique(|a| + n - 1, n, 1, |a| - 1); }
      [a]
    else
      CeilStep(|a|, n);
      [a[..n]] + Pieces(a[n..], n)
  }

  /** The `k`-th piece is `copyOfRange(k * n, min(k * n + n, size))`. */
  lemma {:induction false} PiecesLayout(a: seq<Byte>, n: int, k: nat)
    requires n > 0 && k < |Pieces(a, n)|
    ensures ChunkStart(k, n) < |a|
    ensures Pieces(a, n)[k] == a[ChunkStart(k, n) .. Min(ChunkStart(k, n) + n, |a|)]
    decreases |a|
  {
    if k > 0 {
      PiecesStep(a, n, k);
      PiecesLayout(a[n..], n, k - 1);
      ChunkOfRest(a, n, k, Pieces(a, n)[k]);
    } else {
      PiecesHead(a, n);
    }
  }

  /** The chunk `k - 1` of the array past its first `n` bytes is its chunk
      `k`. */
  lemma ChunkOfRest(a: seq<Byte>, n: int, k: nat, p: seq<Byte>)
    requires 0 < n < |a| && k > 0
    requires ChunkStart(k - 1, n) < |a| - n
    requires p == a[n..][ChunkStart(k - 1, n) .. Min(ChunkStart(k - 1, n) + n, |a| - n)]
    ensures ChunkStart(k, n) < |a|
    ensures p == a[ChunkStart(k, n) .. Min(ChunkStart(k, n) + n, |a|)]
  {
    var start := ChunkStart(k - 1, n);
    var end := Min(start + n, |a| - n);
    SliceOfDrop(a, n, start, end);
    assert ChunkStart(k, n) == n + start;
    assert Min(ChunkStart(k, n) + n, |a|) == n + end;
  }

  /** Past the first piece, the pieces are those of the rest of the array. */
  lemma PiecesStep(a: seq<Byte>, n: int, k: nat)
    requires n > 0 && 0 < k < |Pieces(a, n)|
    ensures |a| > n && k - 1 < |Pieces(a[n..], n)|
    ensures Pieces(a, n)[k] == Pieces(a[n..], n)[k - 1]
  {
    PiecesOfShort(a, n);
    PiecesTail(a, n);
  }

  lemma PiecesOfShort(a: seq<Byte>, n: int)
    requires n > 0
    ensures |a| <= n ==> |Pieces(a, n)| <= 1
  {
    if |a| == 0 {
      assert Pieces(a, n) == [];
    } else if |a| <= n {
      assert Pieces(a, n) == [a];
    }
  }

  lemma PiecesTail(a: seq<Byte>, n: int)
    requires n > 0 && |a| > n
    ensures Pieces(a, n) == [a[..n]] + Pieces(a[n..], n)
  {
  }

  lemma PiecesHead(a: seq<Byte>, n: int)
    requires n > 0 && |a| > 0
    ensures Pieces(a, n)[0] == a[..Min(n, |a|)]
  {
    if |a| <= n {
      assert a[..|a|] == a;
    }
  }

  lemma SliceOfDrop(a: seq<Byte>, n: nat, start: nat, end: nat)
    requires n <= |a| && start <= end <= |a| - n
    ensures a[n..][start..end] == a[n + start..n + end]
  {
  }

  lemma {:induction false} ChunkStartShift(k: nat, n: nat)
    ensures ChunkStart(k + 1, n) == n + ChunkStart(k, n)
    decreases k
  {
    if k > 0 {
      ChunkStartShift(k - 1, n);
    }
  }

  /** Round trip: merging the pieces of `split` gives back the array. */
  lemma {:induction false} MergePieces(a: seq<Byte>, n: int)
    requires n > 0
    ensures Concat(Pieces(a, n)) == a
    decreases |a|
  {
    if |a| == 0 {
    } else if |a| <= n {
      MergeOfFewArrays(a);
    } else {
      var p := Pieces(a, n);
      PiecesTail(a, n);
      assert p[0] == a[..n] && p[1..] == Pieces(a[n..], n);
      MergePieces(a[n..], n);
      assert Concat(p) == p[0] + Concat(p[1..]);
      assert a == a[..n] + a[n..];
    }
  }

  /** The pieces span whole chunks: their chunk count times `n` reaches the
      array's end but not a further `n` bytes. */
  lemma {:induction false} PiecesSpan(a: seq<Byte>, n: int)
    requires n > 0
    ensures |a| <= ChunkStart(|Pieces(a, n)|, n) < |a| + n
    decreases |a|
  {
    if |a| == 0 {
    } else if |a| <= n {
      assert Pieces(a, n) == [a];
    } else {
      PiecesTail(a, n);
      PiecesSpan(a[n..], n);
    }
  }

  /** An `Int` sum between 2^31 and 2^32 wraps to a negative value. */
  lemma Wrap32Above(x: int)
    ensures TwoTo31 <= x < TwoTo32 ==> Wrap32(x) == x - TwoTo32
  {
    if TwoTo31 <= x < TwoTo32 {
      DivModUnique(x + TwoTo31, TwoTo32, 1, x + TwoTo31 - TwoTo32);
    }
  }

  /** The loop of `split` from `pos` on. `pieceEnd = pos + maxPieceSize` is
      `Int` arithmetic and wraps past `Int.MAX_VALUE`, and `copyOfRange`
      rejects an end before its start. The loop stops once `pos` reaches
      the size. With `n > 0` it yields the pieces of the rest of the array,
      unless the start of some later piece would reach 2^31: then the wrapped
      `pieceEnd` is negative and the copy fails. */
  function SplitFrom(a: seq<Byte>, n: Int32, pos: nat): (r: Result<seq<seq<Byte>>>)
    requires |a| < TwoTo31 && n != 0 && pos <= |a|
    ensures n < 0 && pos < |a| ==> r == Err(IllegalArgument)
    ensures n > 0 ==> (r.Ok? <==> pos + ChunkStart(|Pieces(a[pos..], n)|, n) < TwoTo31)
    ensures n > 0 && r.Ok? ==> r.value == Pieces(a[pos..], n)
    ensures r.Err? ==> r.error == IllegalArgument
    decreases |a| - pos
  {
    if pos == |a| then
      assert a[pos..] == [];
      Ok([])
    else
      var pieceEnd := Wrap32(pos + n);
      Wrap32Above(pos + n);
      var end := Min(pieceEnd, |a|);
      if end < pos then Err(IllegalArgument)
      else if pieceEnd >= |a| then
        assert a[pos..end] == a[pos..];
        Ok([a[pos..end]])
      else
        var rest :- SplitFrom(a, n, pieceEnd);
        PiecesTail(a[pos..], n);
        assert a[pos..][..n] == a[pos..end] && a[pos..][n..] == a[pieceEnd..];
        Ok([a[pos..end]] + rest)
  }

  /** `ByteArray.split(maxPieceSize)`, on an array of at most `Int.MAX_VALUE`
      bytes. On an empty array the loop does not run. A negative size makes
      `copyOfRange` see `from > to`. A zero size on a non-empty array makes
      the loop add empty pieces forever, so that case is excluded. A
      positive size yields the pieces, which merge back to the array, as
      long as the piece count times the size stays below 2^31; past that,
      the wrapped `pieceEnd` makes the last copy fail. */
  function Split(a: seq<Byte>, maxPieceSize: Int32): (r: Result<seq<seq<Byte>>>)
    requires |a| < TwoTo31
    requires maxPieceSize != 0 || |a| == 0
    ensures |a| == 0 ==> r == Ok([])
    ensures |a| > 0 && maxPieceSize < 0 ==> r == Err(IllegalArgument)
    ensures maxPieceSize > 0 ==>
      (r.Ok? <==> ChunkStart(|Pieces(a, maxPieceSize)|, maxPieceSize) < TwoTo31)
    ensures maxPieceSize > 0 && |a| + maxPieceSize <= TwoTo31 ==> r.Ok?
    ensures maxPieceSize > 0 && r.Ok? ==> r.value == Pieces(a, maxPieceSize) && Concat(r.value) == a
    ensures r.Err? ==> r.error == IllegalArgument
  {
    if |a| == 0 then Ok([])
    else
      assert a[0..] == a;
      if maxPieceSize < 0 then SplitFrom(a, maxPieceSize, 0)
      else
        PiecesSpan(a, maxPieceSize);
        MergePieces(a, maxPieceSize);
        SplitFrom(a, maxPieceSize, 0)
  }

  /** The wrap-around in `split`: 2^30 + 1 bytes cut into pieces of 2^30
      bytes. The second piece starts at 2^30, its end 2^31 wraps to
      `Int.MIN_VALUE`, and `copyOfRange` rejects it. */
  lemma SplitOverflowExample(a: seq<Byte>)
    requires |a| == 0x4000_0001
    ensures Split(a, 0x4000_0000) == Err(IllegalArgument)
  {
    var n: Int32 := 0x4000_0000;
    assert (|a| + n - 1) / n == 2;
    assert ChunkStart(2, n) == TwoTo31 by {
      assert ChunkStart(1, n) == n;
    }
    var r := Split(a, n);
    assert r.Err? && r.error == IllegalArgument;
  }

  /** The unit tests' examples: `[1, 2]`, `[5, 8]` and an empty array merge
      to `[1, 2, 5, 8]`, and seven bytes split by 3 give two full pieces and
      a piece of one. */
  lemma MergeAndSplitExamples()
    ensures Merge([[1, 2], [5, 8], []]) == Ok([1, 2, 5, 8])
    ensures Split([1, 2, 3, 4, 5, 6, 7], 3) == Ok([[1, 2, 3], [4, 5, 6], [7]])
  {
    var arrays: seq<seq<Byte>> := [[1, 2], [5, 8], []];
    assert arrays[1..][1..][1..] == [];
    assert TotalSize(arrays) == 4;
    assert Concat(arrays) == [1, 2, 5, 8];
    var a: seq<Byte> := [1, 2, 3, 4, 5, 6, 7];
    PiecesTail(a, 3);
    PiecesTail(a[3..], 3);
    assert a[..3] == [1, 2, 3] && a[3..][..3] == [4, 5, 6] && a[3..][3..] == [7];
    var rest: seq<Byte> := [7];
    assert a[3..][3..] == rest && Pieces(rest, 3) == [rest];
    assert Pieces(a[3..], 3) == [[4, 5, 6], rest];
    assert Pieces(a, 3) == [[1, 2, 3], [4, 5, 6], [7]];
  }

  // ---------------------------------------------------------------------
  // startsWith
  // ---------------------------------------------------------------------

  /** The loop of `startsWith` from index `ix` on: it walks the prefix and
      stops at the first index that is past the array's end (an
      out-of-bounds read) or where the bytes differ (false). */
  function StartsWithFrom(a: seq<Byte>, prefix: seq<Byte>, ix: nat): (r: Result<bool>)
    requires ix <= |prefix| && ix <= |a|
    ensures r == Ok(true) <==>
      |prefix| <= |a| && forall i :: ix <= i < |prefix| ==> a[i] == prefix[i]
    ensures r.Err? <==>
      |a| < |prefix| && forall i :: ix <= i < |a| ==> a[i] == prefix[i]
    ensures r.Err? ==> r.error == IndexOutOfBounds
    ensures r == Ok(false) <==>
      exists i :: ix <= i < |prefix| && i < |a| && a[i] != prefix[i]
    decreases |prefix| - ix
  {
    if ix == |prefix| then Ok(true)
    else if ix >= |a| then Err(IndexOutOfBounds)
    else if a[ix] != prefix[ix] then Ok(false)
    else StartsWithFrom(a, prefix, ix + 1)
  }

  /** `ByteArray.startsWith(prefix)`. */
  function StartsWith(a: seq<Byte>, prefix: seq<Byte>): (r: Result<bool>)
    ensures r == Ok(true) <==> |prefix| <= |a| && a[..|prefix|] == prefix
    ensures r == Err(IndexOutOfBounds) <==> |a| < |prefix| && prefix[..|a|] == a
    ensures r == Ok(false) <==>
      exists i :: 0 <= i < |prefix| && i < |a| && a[i] != prefix[i]
  {
    var r := StartsWithFrom(a, prefix, 0);
    assert r == Ok(true) ==> a[..|prefix|] == prefix;
    assert r.Err? ==> prefix[..|a|] == a;
    assert |prefix| <= |a| ==>
      ((forall i :: 0 <= i < |prefix| ==> a[i] == prefix[i]) <==> a[..|prefix|] == prefix) by {
      if |prefix| <= |a| && a[..|prefix|] == prefix {
        forall i | 0 <= i < |prefix| ensures a[i] == prefix[i] {
          assert a[..|prefix|][i] == a[i];
        }
      }
    }
    assert |a| < |prefix| ==>
      ((forall i :: 0 <= i < |a| ==> a[i] == prefix[i]) <==> prefix[..|a|] == a) by {
      if |a| < |prefix| && prefix[..|a|] == a {
        forall i | 0 <= i < |a| ensures a[i] == prefix[i] {
          assert prefix[..|a|][i] == prefix[i];
        }
      }
    }
    r
  }

  // ---------------------------------------------------------------------
  // Long <-> ByteArray
  // ---------------------------------------------------------------------

  function Pow256(k: nat): (p: nat)
    ensures p > 0
  {
    if k == 0 then 1 else 256 * Pow256(k - 1)
  }

  /** The unsigned big-endian value of a byte sequence. */
  function BigEndian(s: seq<Byte>): (v: nat)
    ensures v < Pow256(|s|)
  {
    if |s| == 0 then 0
    else BigEndian(s[..|s| - 1]) * 256 + Unsigned(s[|s| - 1])
  }

  /** The loop of `asByteArray` for `k` iterations: it stores the low byte of
      `x` at the last free index and shifts `x` right by 8 (`shr`, which
      floors, like Euclidean `/` by a positive divisor). */
  function LowBytes(x: int, k: nat): (r: seq<Byte>)
    decreases k
    ensures |r| == k
  {
    if k == 0 then [] else LowBytes(x / 256, k - 1) + [ToByte(x % 256)]
  }

  /** `Long.asByteArray()`. */
  function AsByteArray(l: Long): (r: seq<Byte>)
    ensures |r| == 8
  {
    LowBytes(l, 8)
  }

  /** Read an unsigned 64-bit value as a signed `Long`. */
  function ToSigned64(u: int): (l: Long)
    requires 0 <= u < TwoTo64
    ensures l == Wrap64(u)
  {
    if u >= TwoTo63 then u - TwoTo64 else u
  }

  /** `ByteArray.asLong()`: the first eight bytes, most significant first;
      an array shorter than eight bytes fails on the read past its end. */
  function AsLong(a: seq<Byte>): (r: Result<Long>)
    ensures |a| < 8 <==> r == Err(IndexOutOfBounds)
    ensures |a| >= 8 ==> r.Ok? && Wrap64(r.value) == Wrap64(BigEndian(a[..8]))
  {
    if |a| < 8 then Err(IndexOutOfBounds)
    else
      Pow256Eight();
      Ok(ToSigned64(BigEndian(a[..8])))
  }

  /** Peeling the low byte off: `x mod 256p` from `x / 256 mod p` and
      `x mod 256`. */
  lemma ModCompose(x: int, p: int)
    requires p > 0
    ensures ((x / 256) % p) * 256 + x % 256 == x % (256 * p)
  {
    var q, r := x / 256, x % 256;
    var a, b := q / p, q % p;
    assert x == q * 256 + r;
    assert q == a * p + b;
    assert q * 256 == (a * p) * 256 + b * 256;
    assert (a * p) * 256 == a * (256 * p);
    assert 0 <= b * 256 + r < 256 * p by {
      assert b * 256 <= (p - 1) * 256;
    }
    DivModUnique(x, 256 * p, a, b * 256 + r);
  }

  lemma {:induction false} LowBytesValue(x: int, k: nat)
    ensures BigEndian(LowBytes(x, k)) == x % Pow256(k)
    decreases k
  {
    if k > 0 {
      var s := LowBytes(x, k);
      assert s[..|s| - 1] == LowBytes(x / 256, k - 1);
      LowBytesValue(x / 256, k - 1);
      ModCompose(x, Pow256(k - 1));
    }
  }

  /** Round trip: `asLong(asByteArray(l)) == l`. */
  lemma LongRoundTrip(l: Long)
    ensures AsLong(AsByteArray(l)) == Ok(l)
  {
    var bs := AsByteArray(l);
    assert bs[..8] == bs;
    LowBytesValue(l, 8);
    Pow256Eight();
    var u := l % TwoTo64;
    if l < 0 {
      DivModUnique(l, TwoTo64, -1, l + TwoTo64);
    } else {
      DivModUnique(l, TwoTo64, 0, l);
    }
  }

  lemma {:induction false} LowBytesOfBigEndian(s: seq<Byte>)
    ensures LowBytes(BigEndian(s), |s|) == s
  {
    if |s| > 0 {
      var init, last := s[..|s| - 1], s[|s| - 1];
      var v := BigEndian(s);
      DivModUnique(v, 256, BigEndian(init), Unsigned(last));
      LowBytesOfBigEndian(init);
      assert ToByte(Unsigned(last)) == last by {
        var b := ToByte(Unsigned(last));
        assert Unsigned(b) == Unsigned(last);
      }
      assert s == init + [last];
    }
  }

  /** Subtracting 256^k does not change the low `k` bytes. */
  lemma {:induction false} LowBytesShift(x: int, k: nat)
    decreases k
    ensures LowBytes(x - Pow256(k), k) == LowBytes(x, k)
  {
    if k > 0 {
      var p := Pow256(k - 1);
      var q, r := x / 256, x % 256;
      var y := x - Pow256(k);
      assert y == (q - p) * 256 + r;
      DivModUnique(y, 256, q - p, r);
      LowBytesShift(q, k - 1);
      assert LowBytes(y, k) == LowBytes(q - p, k - 1) + [ToByte(r)];
    }
  }

  /** The other round trip: the eight bytes `asLong` reads are exactly the
      bytes `asByteArray` writes back. */
  lemma BytesRoundTrip(a: seq<Byte>)
    requires |a| >= 8
    ensures AsLong(a).Ok? && AsByteArray(AsLong(a).value) == a[..8]
  {
    var u := BigEndian(a[..8]);
    var l := AsLong(a).value;
    assert l == u || l == u - Pow256(8) by {
      Pow256Eight();
      assert l == ToSigned64(u);
    }
    assert LowBytes(l, 8) == LowBytes(u, 8) by {
      if l != u {
        LowBytesShift(u, 8);
      }
    }
    LowBytesOfBigEndian(a[..8]);
  }

  lemma Pow256Eight()
    ensures Pow256(8) == TwoTo64
  {
  }

  // ---------------------------------------------------------------------
  // contentHashCode
  // ---------------------------------------------------------------------

  /** `ByteArray.contentHashCode()`: start at 1, then `31 * h + b` for each
      byte in order, in 32-bit arithmetic. */
  function ContentHash(s: seq<Byte>): Int32
  {
    if |s| == 0 then 1 else Wrap32(31 * ContentHash(s[..|s| - 1]) + s[|s| - 1] as int)
  }
}

=== FILE: connection.dfy ===
/** `Connection`: which AES key encrypts outbound messages to a peer. A
    friend has its own outbound key; a stranger can only be answered with
    the key it sent inbound. */
module Connections {
  import opened Failures
  import opened Bytes
  import opened Keys
  import opened Peers

  /** The key a peer sent with its first message, and the prefix it came
      encrypted under. */
  datatype InboundKey = InboundKey(encryptedInboundKeyPrefix: seq<Byte>, aesKey: AESKey)

  datatype ConnectionType =
    | Friend(outboundKey: AESKey, outboundKeyReceived: bool, pubKey: PublicKey)
    | Stranger

  datatype Connection = Connection(peer: Peer, kind: ConnectionType, inboundKey: Option<InboundKey>)

  /** `receivedInbound`: an inbound key has arrived. */
  predicate ReceivedInbound(c: Connection)
  {
    c.inboundKey.Some?
  }

  /** `outboundKey`: a friend's own key; a stranger's inbound AES key; an
      `error(...)` for a stranger that has sent no key. */
  function OutboundKey(c: Connection): (r: Result<AESKey>)
    ensures c.kind.Friend? ==> r == Ok(c.kind.outboundKey)
    ensures c.kind.Stranger? && ReceivedInbound(c) ==> r == Ok(c.inboundKey.value.aesKey)
    ensures r.Err? ==> r.error == IllegalState
  {
    match c.kind
    case Friend(key, _, _) => Ok(key)
    case Stranger =>
      match c.inboundKey
      case Some(k) => Ok(k.aesKey)
      case None => Err(IllegalState)
  }

  /** The outbound key is missing exactly for strangers that have not sent
      an inbound key, and a friend's key does not depend on what arrived
      inbound. */
  lemma OutboundKeyAvailability(c: Connection, other: Option<InboundKey>)
    ensures OutboundKey(c).Err? <==> c.kind.Stranger? && !ReceivedInbound(c)
    ensures c.kind.Friend? ==> OutboundKey(c.(inboundKey := other)) == OutboundKey(c)
  {
  }
}

=== FILE: contractposts.dfy ===
/** `ContractPosts`: contract posts stored under their contract's address,
    with the time each was last read, and eviction of the least recently
    read.

    The post type is a parameter, and so is the function computing a
    post's key (`contract.sig.asBase58Encoded`, a hash in Base58). Times
    are integers (`Instant`), and `Instant.now()` is a parameter. The order
    in which the last-read map yields its entries is a parameter of the
    eviction, since the sort that follows is stable. */
module ContractPostStore {
  import opened Failures
  import opened Bytes

  type Key = string

  /** The two stores: posts by key, and the last-read time by key. */
  datatype Store<P> = Store(posts: map<Key, P>, lastRead: map<Key, int>)

  /** A fresh store: it satisfies the store's invariant and holds no post
      under any key. */
  function EmptyStore<P>(): (s: Store<P>)
    ensures Wf(s)
    ensures forall k :: k !in s.posts
  {
    Store(map[], map[])
  }

  /** Only stored posts have ever been read. */
  predicate Wf<P>(s: Store<P>)
  {
    s.lastRead.Keys <= s.posts.Keys
  }

  /** `plusAssign(contractPost)`: store the post under its key; its read
      time, if any, stays. */
  function Put<P>(s: Store<P>, contractPost: P, keyOf: P -> Key): (r: Store<P>)
    ensures keyOf(contractPost) in r.posts && r.posts[keyOf(contractPost)] == contractPost
    ensures forall k :: k != keyOf(contractPost) ==> (k in r.posts <==> k in s.posts)
    ensures forall k :: k != keyOf(contractPost) && k in s.posts ==> r.posts[k] == s.posts[k]
    ensures r.lastRead == s.lastRead
    ensures Wf(s) ==> Wf(r)
  {
    Store(s.posts[keyOf(contractPost) := contractPost], s.lastRead)
  }

  /** `get(base58Sig)`: the stored post, or `null`; a hit stamps the read
      time, a miss changes nothing. */
  function Get<P>(s: Store<P>, key: Key, now: int): (r: (Store<P>, Option<P>))
    ensures r.1.Some? <==> key in s.posts
    ensures r.1.Some? ==> r.1.value == s.posts[key]
    ensures r.0.posts == s.posts
    ensures key in s.posts ==> r.0.lastRead == s.lastRead[key := now]
    ensures key !in s.posts ==> r.0 == s
    ensures Wf(s) ==> Wf(r.0)
  {
    if key in s.posts then (Store(s.posts, s.lastRead[key := now]), Some(s.posts[key]))
    else (s, None)
  }

  // ---------------------------------------------------------------------
  // Sorting keys by last-read time
  // ---------------------------------------------------------------------

  function Elems(keys: seq<Key>): set<Key>
  {
    set k | k in keys
  }

  predicate Distinct(keys: seq<Key>)
  {
    forall a, b :: 0 <= a < b < |keys| ==> keys[a] != keys[b]
  }

  /** Every key has a read time. */
  predicate AllTimed(keys: seq<Key>, time: map<Key, int>)
  {
    forall i :: 0 <= i < |keys| ==> keys[i] in time
  }

  predicate SortedByTime(keys: seq<Key>, time: map<Key, int>)
    requires AllTimed(keys, time)
  {
    forall a, b :: 0 <= a < b < |keys| ==> time[keys[a]] <= time[keys[b]]
  }

  /** Insert `k` before the first key read no earlier, so that among equal
      times it stays ahead of the keys already placed. */
  function Insert(k: Key, sorted: seq<Key>, time: map<Key, int>): (r: seq<Key>)
    requires k in time && AllTimed(sorted, time)
    ensures |r| == |sorted| + 1 && AllTimed(r, time)
    ensures Elems(r) == Elems(sorted) + {k}
    decreases |sorted|
  {
    if |sorted| == 0 || time[k] <= time[sorted[0]] then
      var r := [k] + sorted;
      assert Elems(r) == Elems(sorted) + {k} by {
        assert forall x :: x in r <==> x == k || x in sorted;
      }
      r
    else
      var rest := Insert(k, sorted[1..], time);
      var r := [sorted[0]] + rest;
      assert Elems(sorted) == {sorted[0]} + Elems(sorted[1..]) by {
        assert forall x :: x in sorted <==> x == sorted[0] || x in sorted[1..];
      }
      assert Elems(r) == {sorted[0]} + Elems(rest) by {
        assert forall x :: x in r <==> x == sorted[0] || x in rest;
      }
      r
  }

  /** Inserting into a sorted sequence keeps it sorted, and the result
      starts with the inserted key or with the old head. */
  lemma {:induction false} InsertKeepsSorted(k: Key, sorted: seq<Key>, time: map<Key, int>)
    requires k in time && AllTimed(sorted, time) && SortedByTime(sorted, time)
    ensures SortedByTime(Insert(k, sorted, time), time)
    ensures Insert(k, sorted, time)[0] == k || (|sorted| > 0 && Insert(k, sorted, time)[0] == sorted[0])
    decreases |sorted|
  {
    if |sorted| > 0 && time[k] > time[sorted[0]] {
      var tail := sorted[1..];
      SortedTail(sorted, time);
      InsertKeepsSorted(k, tail, time);
      var rest := Insert(k, tail, time);
      assert Insert(k, sorted, time) == [sorted[0]] + rest;
      ConsKeepsSorted(sorted[0], rest, time);
    } else {
      assert Insert(k, sorted, time) == [k] + sorted;
      ConsKeepsSorted(k, sorted, time);
    }
  }

  lemma SortedTail(keys: seq<Key>, time: map<Key, int>)
    requires |keys| > 0 && AllTimed(keys, time) && SortedByTime(keys, time)
    ensures AllTimed(keys[1..], time) && SortedByTime(keys[1..], time)
    ensures forall j :: 0 <= j < |keys| - 1 ==> time[keys[0]] <= time[keys[1..][j]]
  {
    var tail := keys[1..];
    forall a, b | 0 <= a < b < |tail| ensures time[tail[a]] <= time[tail[b]] {
      assert tail[a] == keys[a + 1] && tail[b] == keys[b + 1];
    }
    forall j | 0 <= j < |tail| ensures time[keys[0]] <= time[tail[j]] {
      assert tail[j] == keys[j + 1];
    }
  }

  /** A key read no later than the head of a sorted sequence can go in
      front of it. */
  lemma ConsKeepsSorted(x: Key, keys: seq<Key>, time: map<Key, int>)
    requires x in time && AllTimed(keys, time) && SortedByTime(keys, time)
    requires |keys| > 0 ==> time[x] <= time[keys[0]]
    ensures AllTimed([x] + keys, time) && SortedByTime([x] + keys, time)
  {
    var r := [x] + keys;
    forall a, b | 0 <= a < b < |r| ensures time[r[a]] <= time[r[b]] {
      assert r[b] == keys[b - 1];
      if a > 0 {
        assert r[a] == keys[a - 1];
      } else if b > 1 {
        assert time[keys[0]] <= time[keys[b - 1]];
      }
    }
  }

  /** Inserting a new key into a sequence of distinct keys keeps them
      distinct. */
  lemma {:induction false} InsertKeepsDistinct(k: Key, sorted: seq<Key>, time: map<Key, int>)
    requires k in time && AllTimed(sorted, time) && Distinct(sorted) && k !in sorted
    ensures Distinct(Insert(k, sorted, time))
    decreases |sorted|
  {
    if |sorted| > 0 && time[k] > time[sorted[0]] {
      InsertKeepsDistinct(k, sorted[1..], time);
      var rest := Insert(k, sorted[1..], time);
      assert sorted[0] !in Elems(rest);
    }
  }

  /** `sortedBy { it.value }`: a stable sort of the keys by read time. */
  function SortByTime(keys: seq<Key>, time: map<Key, int>): (r: seq<Key>)
    requires AllTimed(keys, time)
    ensures |r| == |keys| && Elems(r) == Elems(keys) && AllTimed(r, time)
    decreases |keys|
  {
    if |keys| == 0 then []
    else
      assert Elems(keys) == {keys[0]} + Elems(keys[1..]) by {
        assert forall x :: x in keys <==> x == keys[0] || x in keys[1..];
      }
      Insert(keys[0], SortByTime(keys[1..], time), time)
  }

  /** The sort orders by read time and keeps distinct keys distinct. */
  lemma {:induction false} SortByTimeSorts(keys: seq<Key>, time: map<Key, int>)
    requires AllTimed(keys, time)
    ensures SortedByTime(SortByTime(keys, time), time)
    ensures Distinct(keys) ==> Distinct(SortByTime(keys, time))
    decreases |keys|
  {
    if |keys| > 0 {
      var tail := keys[1..];
      SortByTimeSorts(tail, time);
      var rest := SortByTime(tail, time);
      assert SortByTime(keys, time) == Insert(keys[0], rest, time);
      InsertKeepsSorted(keys[0], rest, time);
      if Distinct(keys) {
        assert Distinct(tail) && keys[0] !in tail by { DistinctTail(keys); }
        assert keys[0] !in rest by { assert keys[0] !in Elems(tail); }
        InsertKeepsDistinct(keys[0], rest, time);
      }
    }
  }

  lemma DistinctTail(keys: seq<Key>)
    requires Distinct(keys) && |keys| > 0
    ensures Distinct(keys[1..]) && keys[0] !in keys[1..]
  {
    var tail := keys[1..];
    forall a, b | 0 <= a < b < |tail| ensures tail[a] != tail[b] {
      assert tail[a] == keys[a + 1] && tail[b] == keys[b + 1];
    }
    forall j | 0 <= j < |tail| ensures tail[j] != keys[0] {
      assert tail[j] == keys[j + 1];
    }
  }

  /** Distinct keys have as many elements as their length. */
  lemma {:induction false} DistinctCard(keys: seq<Key>)
    requires Distinct(keys)
    ensures |Elems(keys)| == |keys|
    decreases |keys|
  {
    if |keys| > 0 {
      var tail := keys[1..];
      DistinctTail(keys);
      DistinctCard(tail);
      assert Elems(keys) == {keys[0]} + Elems(tail) by {
        assert forall x :: x in keys <==> x == keys[0] || x in tail;
      }
    }
  }

  /** An iteration order of a map: each key exactly once. */
  predicate IsIterationOrder(order: seq<Key>, m: map<Key, int>)
  {
    Distinct(order) && Elems(order) == m.Keys
  }

  /** The keys `deleteLeastRecentlyUsed(i)` removes: the first `i` in read
      time order, or all of them when there are fewer; a negative count is
      an `IllegalArgumentException` from `take`. */
  function LeastRecentlyRead(lastRead: map<Key, int>, order: seq<Key>, i: int): (r: Result<seq<Key>>)
    requires IsIterationOrder(order, lastRead)
    ensures r.Err? <==> i < 0
    ensures r.Err? ==> r.error == IllegalArgument
    ensures r.Ok? ==> |r.value| == Min(i, |order|) && Distinct(r.value) && Elems(r.value) <= lastRead.Keys
    ensures r.Ok? ==> forall v, k :: v in r.value && k in lastRead && k !in r.value ==> lastRead[v] <= lastRead[k]
  {
    if i < 0 then Err(IllegalArgument)
    else
      var sorted := SortByTime(order, lastRead);
      SortByTimeSorts(order, lastRead);
      var m := Min(i, |sorted|);
      var victims := sorted[..m];
      PrefixOfSorted(sorted, lastRead, m);
      assert forall k :: k in lastRead ==> k in sorted by {
        assert Elems(sorted) == lastRead.Keys;
      }
      Ok(victims)
  }

  /** A prefix of a sorted sequence of distinct keys holds distinct keys,
      none read later than a key outside it. */
  lemma PrefixOfSorted(sorted: seq<Key>, time: map<Key, int>, m: nat)
    requires AllTimed(sorted, time) && SortedByTime(sorted, time) && Distinct(sorted) && m <= |sorted|
    ensures Distinct(sorted[..m]) && Elems(sorted[..m]) <= Elems(sorted)
    ensures forall v, k :: v in sorted[..m] && k in sorted && k !in sorted[..m] ==> time[v] <= time[k]
  {
    var victims := sorted[..m];
    forall v, k | v in victims && k in sorted && k !in victims ensures time[v] <= time[k] {
      var a :| 0 <= a < m && sorted[a] == v;
      var b :| 0 <= b < |sorted| && sorted[b] == k;
      assert b >= m;
    }
  }

  /** `deleteLeastRecentlyUsed(i)`: remove the victims from both stores. */
  function DeleteLeastRecentlyUsed<P>(s: Store<P>, i: int, order: seq<Key>): (r: Result<Store<P>>)
    requires IsIterationOrder(order, s.lastRead)
    ensures r.Err? <==> i < 0
    ensures r.Err? ==> r.error == IllegalArgument
    ensures r.Ok? ==>
      var gone := s.lastRead.Keys - r.value.lastRead.Keys;
      && |gone| == Min(i, |s.lastRead|)
      && r.value.lastRead == s.lastRead - gone
      && r.value.posts == s.posts - gone
      && (forall v, k :: v in gone && k in r.value.lastRead ==> s.lastRead[v] <= s.lastRead[k])
  {
    var victims :- LeastRecentlyRead(s.lastRead, order, i);
    var gone := Elems(victims);
    var t := Store(s.posts - gone, s.lastRead - gone);
    EvictionRemovesExactly(s.lastRead, order, victims);
    assert s.lastRead.Keys - t.lastRead.Keys == gone;
    assert forall v, k :: v in gone && k in t.lastRead ==> v in victims && k in s.lastRead && k !in victims;
    Ok(t)
  }

  /** Removing distinct victims from a map removes exactly them, as many as
      there are. */
  lemma EvictionRemovesExactly(m: map<Key, int>, order: seq<Key>, victims: seq<Key>)
    requires IsIterationOrder(order, m) && Distinct(victims) && Elems(victims) <= m.Keys
    ensures m.Keys - (m - Elems(victims)).Keys == Elems(victims)
    ensures |Elems(victims)| == |victims| && |order| == |m|
  {
    DistinctCard(victims);
    CardOfKeys(m, order);
  }

  /** An iteration order is as long as the map. */
  lemma CardOfKeys(m: map<Key, int>, order: seq<Key>)
    requires IsIterationOrder(order, m)
    ensures |order| == |m|
  {
    DistinctCard(order);
    assert |m.Keys| == |m|;
  }

  // ---------------------------------------------------------------------
  // Properties across operations
  // ---------------------------------------------------------------------

  /** Eviction keeps every read post's time next to the post, and a post
      that was never read is never evicted. */
  lemma DeletePreservesWf<P>(s: Store<P>, i: int, order: seq<Key>)
    requires Wf(s) && IsIterationOrder(order, s.lastRead)
    requires DeleteLeastRecentlyUsed(s, i, order).Ok?
    ensures Wf(DeleteLeastRecentlyUsed(s, i, order).value)
    ensures forall k :: k in s.posts && k !in s.lastRead ==> k in DeleteLeastRecentlyUsed(s, i, order).value.posts
  {
  }

  /** Reading a post makes it the most recently read when `now` is later
      than every recorded read, so a single eviction then spares it unless
      every read post goes. */
  lemma ReadPostIsEvictedLast<P>(s: Store<P>, key: Key, now: int, order: seq<Key>)
    requires key in s.posts
    requires forall k :: k in s.lastRead ==> s.lastRead[k] < now
    requires IsIterationOrder(order, Get(s, key, now).0.lastRead)
    requires |Get(s, key, now).0.lastRead| > 1
    ensures DeleteLeastRecentlyUsed(Get(s, key, now).0, 1, order).Ok?
    ensures key in DeleteLeastRecentlyUsed(Get(s, key, now).0, 1, order).value.posts
  {
    var t := Get(s, key, now).0;
    var r := DeleteLeastRecentlyUsed(t, 1, order).value;
    ReadIsNewest(s, key, now);
    SingleEvictionSparesNewest(t.lastRead, t.posts, r.lastRead, r.posts, key);
  }

  /** When `now` is later than every recorded read, the post just read is
      the most recently read. */
  lemma ReadIsNewest<P>(s: Store<P>, key: Key, now: int)
    requires key in s.posts
    requires forall k :: k in s.lastRead ==> s.lastRead[k] < now
    ensures var m := Get(s, key, now).0.lastRead;
      key in m && forall k :: k in m && k != key ==> m[k] < m[key]
  {
  }

  /** A single eviction with the guarantees of `DeleteLeastRecentlyUsed`
      spares the most recently read of several keys. */
  lemma SingleEvictionSparesNewest<P>(m: map<Key, int>, posts: map<Key, P>, m': map<Key, int>, posts': map<Key, P>, key: Key)
    requires key in m && key in posts && |m| > 1
    requires forall k :: k in m && k != key ==> m[k] < m[key]
    requires
      var gone := m.Keys - m'.Keys;
      && |gone| == Min(1, |m|)
      && m' == m - gone
      && posts' == posts - gone
      && (forall v, k :: v in gone && k in m' ==> m[v] <= m[k])
    ensures key in posts'
  {
    var gone := m.Keys - m'.Keys;
    assert forall k :: k in m && k !in gone ==> k in m';
    NewestSurvivesSingleEviction(m, gone, key);
  }

  /** When one key is evicted, and none is evicted while a key read earlier
      stays, the most recently read of several keys stays. */
  lemma NewestSurvivesSingleEviction(m: map<Key, int>, gone: set<Key>, key: Key)
    requires key in m && |m| > 1 && |gone| == 1 && gone <= m.Keys
    requires forall k :: k in m && k != key ==> m[k] < m[key]
    requires forall v, k :: v in gone && k in m && k !in gone ==> m[v] <= m[k]
    ensures key !in gone
  {
    var other :| other in m && other != key by {
      assert |m.Keys - {key}| == |m.Keys| - 1;
    }
    SingletonHoldsOne(gone, key, other);
  }

  /** A one-element set does not hold two different keys. */
  lemma SingletonHoldsOne(s: set<Key>, x: Key, y: Key)
    requires |s| == 1 && x != y
    ensures !(x in s && y in s)
  {
    if x in s {
      var rest := s - {x};
      assert |rest| == |s| - 1;
      assert rest == {};
    }
  }
}

=== FILE: failures.dfy ===
/** Error and optional-value wrappers shared by every module of the model.
    The JVM exceptions the Kotlin code throws become `Err` values. */
module Failures {

  /** The exception kinds the modelled code can raise. */
  datatype Error =
    | IllegalArgument      // `require(...)` failed, or `requireNotNull`
    | IllegalState         // `error(...)`
    | IndexOutOfBounds     // array or list index outside its bounds
    | NoSuchElement        // `first()` of an empty list
    | NegativeArraySize    // `ByteArray(n)` or `Array(n)` with n < 0
    | NullPointer          // a member read through a null reference
    | ClassCast            // an explicit `ClassCastException`
    | UnknownHost          // `InetAddress.getByAddress` on a malformed address

  datatype Result<+T> = Ok(value: T) | Err(error: Error) {
    predicate IsFailure() { Err? }

    function PropagateFailure<U>(): Result<U>
      requires Err?
    {
      Err(error)
    }

    function Extract(): T
      requires Ok?
    {
      value
    }
  }

  /** Kotlin's nullable `T?`. */
  datatype Option<+T> = None | Some(value: T)

  /** A mutating call that may throw part-way: the state it leaves behind,
      and the exception it raised, if any. */
  datatype Mutation<+T> = Mutation(after: T, thrown: Option<Error>)

  /** A success-or-message outcome, Kotlin's `Result<Unit>`. */
  datatype Outcome = Pass | Fail(message: string)
}

=== FILE: flogcontract.dfy ===
/** `FlogContractV1`: the flog's variant of the microblog contract, over
    values instead of posts, answering `null` instead of throwing when the
    kinds do not match. */
module FlogContracts {
  import opened Failures
  import opened Bytes
  import opened Keys
  import opened Values

  /** `number == None` designates the latest post. */
  datatype FlogContractV1 = FlogContractV1(pubKey: PublicKey, number: Option<Int32>)

  /** The constructor, with its `number == null || number >= 0` check. */
  function New(pubKey: PublicKey, number: Option<Int32> := None): (r: Result<FlogContractV1>)
    ensures r.Ok? <==> (number.Some? ==> number.value >= 0)
    ensures r.Ok? ==> r.value == FlogContractV1(pubKey, number)
    ensures r.Err? ==> r.error == IllegalArgument
  {
    var n :- CheckNumber(number);
    Ok(FlogContractV1(pubKey, n))
  }

  /** `valid(retriever, post)`: only a `FlogPostV1` can be valid. */
  predicate Valid(c: FlogContractV1, value: Value, verify: Verifier)
  {
    value.FlogPost? && PostAccepted(c.pubKey, c.number, value.flog, verify)
  }

  /** A contract pinned to a number accepts the flog posts the latest-post
      contract with the same key accepts that carry that number, and no
      others. */
  lemma PinnedContractValidity(c: FlogContractV1, value: Value, verify: Verifier)
    requires c.number.Some?
    ensures Valid(c, value, verify) <==>
      Valid(FlogContractV1(c.pubKey, None), value, verify) && value.flog.payload.number == c.number.value
  {
    if value.FlogPost? {
      PinnedNumberNarrowsAcceptance(c.pubKey, c.number.value, value.flog, verify);
    }
  }

  /** `update(old, update)`: the updated post when both sides are flog posts
      and its version is strictly higher, otherwise `null`. */
  function Update(c: FlogContractV1, current: Value, update: ValueUpdate): (r: Option<SignedPost>)
    ensures r.Some? <==>
      (current.FlogPost? && update.FlogUpdate? && update.updated.payload.version > current.flog.payload.version)
    ensures r.Some? ==> r.value == update.updated
  {
    if current.FlogPost? && update.FlogUpdate? then
      if Newer(update.updated, current.flog) then Some(update.updated) else None
    else None
  }

  /** On flog posts `update` keeps exactly the post that the reference
      `Latest` keeps for a single offer; on anything else it declines. */
  lemma UpdateFollowsLatest(c: FlogContractV1, current: Value, update: ValueUpdate)
    ensures current.FlogPost? && update.FlogUpdate? ==>
      (Update(c, current, update).Some? <==> Latest(current.flog, [update.updated]) != current.flog)
    ensures current.FlogPost? && update.FlogUpdate? && Update(c, current, update).Some? ==>
      Update(c, current, update).value == Latest(current.flog, [update.updated])
    ensures !(current.FlogPost? && update.FlogUpdate?) ==> Update(c, current, update).None?
  {
    if current.FlogPost? && update.FlogUpdate? {
      var p, u := current.flog, update.updated;
      assert Latest(p, [u]) == Latest(if Newer(u, p) then u else p, []);
      if Newer(u, p) {
        assert u != p;
      }
    }
  }

  /** A holder of a flog post that offers `update` each signed post in turn
      and keeps whatever post it returns. */
  function ApplyUpdates(c: FlogContractV1, p: SignedPost, offers: seq<SignedPost>): SignedPost
    decreases |offers|
  {
    if |offers| == 0 then p
    else
      var next := match Update(c, FlogPost(p), FlogUpdate(offers[0])) case Some(q) => q case None => p;
      ApplyUpdates(c, next, offers[1..])
  }

  /** After any sequence of offers the holder keeps what the reference
      `Latest` keeps: a post no offer is newer than, drawn from the start
      or the offers. */
  lemma {:induction false} ApplyUpdatesFollowsLatest(c: FlogContractV1, p: SignedPost, offers: seq<SignedPost>)
    ensures ApplyUpdates(c, p, offers) == Latest(p, offers)
    ensures forall i :: 0 <= i < |offers| ==> !Newer(offers[i], ApplyUpdates(c, p, offers))
    ensures ApplyUpdates(c, p, offers) == p || ApplyUpdates(c, p, offers) in offers
    decreases |offers|
  {
    LatestKeepsHighestVersion(p, offers);
    if |offers| > 0 {
      UpdateFollowsLatest(c, FlogPost(p), FlogUpdate(offers[0]));
      var next := if Newer(offers[0], p) then offers[0] else p;
      ApplyUpdatesFollowsLatest(c, next, offers[1..]);
    }
  }
}

=== FILE: keys.dfy ===
/** Keys and signatures as the model sees them: opaque byte strings. The
    cryptographic check itself is foreign code and enters the model only as
    a `Verifier` parameter. */
module Keys {
  import opened Bytes

  /** An RSA or elliptic-curve public key, by its encoded bytes. */
  datatype PublicKey = PublicKey(encoded: seq<Byte>)

  /** An RSA or elliptic-curve signature. */
  datatype Signature = Signature(bytes: seq<Byte>)

  /** A symmetric AES key. */
  datatype AESKey = AESKey(bytes: seq<Byte>)

  /** `key.verify(signature, data)`: whether `signature` is a valid
      signature of `data` under `key`. */
  type Verifier = (PublicKey, Signature, seq<Byte>) -> bool
}

=== FILE: largemessages.dfy ===
/** `LargeMessageHandler`: a message too big for one UDP packet is split
    into parts, and the receiver stores each part in the slot its part
    number names until every slot is filled.

    The receiving side records part numbers with the tracker's own `+=`,
    whose ranges may overlap after a re-sent part; the tracker's missing
    ranges then still include every empty slot. A handler built on the
    corrected addition, under which the missing ranges are exactly the
    empty slots, closes the file. */
module LargeMessages {
  import opened Failures
  import opened Bytes
  import opened PartTracking

  /** `MAX_UDP_PACKET_SIZE` of the node's constants. */
  const MaxUdpPacketSize: int := 1400

  /** Payload bytes per part, leaving room for the message envelope. */
  const MaxPartSize: Int32 := MaxUdpPacketSize - 100

  /** One part of a large message. The `expectNextMessageBy` duration is
      left out: it is derived from a floating-point send rate. */
  datatype LargeMessage = LargeMessage(
    uid: Int32,
    totalSize: Int32,
    partNo: Int32,
    totalParts: Int32,
    payload: seq<Byte>,
    isFirst: bool)

  // ---------------------------------------------------------------------
  // Sending
  // ---------------------------------------------------------------------

  /** The parts `send` builds for `serializedMessage`, as written: every
      part carries the literal part number 0. `split` fails first when
      its piece ends overflow. */
  function SendAsWritten(serializedMessage: seq<Byte>, uid: Int32): (r: Result<seq<LargeMessage>>)
    requires |serializedMessage| < TwoTo31
    ensures r.Ok? <==> Split(serializedMessage, MaxPartSize).Ok?
    ensures r.Ok? ==> |r.value| == |Pieces(serializedMessage, MaxPartSize)|
    ensures r.Ok? ==> forall ix :: 0 <= ix < |r.value| ==> r.value[ix].partNo == 0
  {
    var pieces :- Split(serializedMessage, MaxPartSize);
    Ok(seq(|pieces|, ix requires 0 <= ix < |pieces| =>
      LargeMessage(uid, |serializedMessage|, 0, |pieces|, pieces[ix], ix == 0)))
  }

  /** The parts `send` builds, with the part number of each piece set to its
      index. Every part carries the same uid, the message size and the piece
      count; only the first is flagged as first; the payloads are the pieces
      of `split(MAX_PART_SIZE)` and concatenate back to the message. The
      split, and so the send, fails only when the piece count times
      `MAX_PART_SIZE` reaches 2^31, which a message at least
      `MAX_PART_SIZE` bytes below 2^31 never does. */
  function Send(serializedMessage: seq<Byte>, uid: Int32): (r: Result<seq<LargeMessage>>)
    requires |serializedMessage| < TwoTo31
    ensures r.Ok? <==> ChunkStart(|Pieces(serializedMessage, MaxPartSize)|, MaxPartSize) < TwoTo31
    ensures |serializedMessage| <= TwoTo31 - MaxPartSize ==> r.Ok?
    ensures r.Err? ==> r.error == IllegalArgument
    ensures r.Ok? ==> |r.value| == (|serializedMessage| + MaxPartSize - 1) / MaxPartSize
    ensures r.Ok? ==> forall ix :: 0 <= ix < |r.value| ==>
      && r.value[ix].uid == uid
      && r.value[ix].totalSize == |serializedMessage|
      && r.value[ix].partNo == ix
      && r.value[ix].totalParts == |r.value|
      && (r.value[ix].isFirst <==> ix == 0)
      && 0 < |r.value[ix].payload| <= MaxPartSize
    ensures r.Ok? ==> Concat(Payloads(r.value)) == serializedMessage
  {
    var pieces :- Split(serializedMessage, MaxPartSize);
    var parts := seq(|pieces|, ix requires 0 <= ix < |pieces| =>
      LargeMessage(uid, |serializedMessage|, ix, |pieces|, pieces[ix], ix == 0));
    assert Payloads(parts) == pieces;
    Ok(parts)
  }

  /** The payloads of a list of parts, in order. */
  function Payloads(ms: seq<LargeMessage>): (ps: seq<seq<Byte>>)
    ensures |ps| == |ms|
    ensures forall i :: 0 <= i < |ms| ==> ps[i] == ms[i].payload
  {
    seq(|ms|, i requires 0 <= i < |ms| => ms[i].payload)
  }

  // ---------------------------------------------------------------------
  // Receiving
  // ---------------------------------------------------------------------

  /** `InboundMessageHandler`: one slot per part and the tracker of the
      part numbers received. The sender peer it stores is not used by
      `plusAssign` or `isComplete` and is left out. */
  datatype InboundHandler = InboundHandler(slots: seq<Option<LargeMessage>>, tracker: Ranges)

  /** `InboundMessageHandler(sender, totalParts)`: `totalParts` empty slots,
      or a negative-size error. */
  function NewHandler(totalParts: Int32): (r: Result<InboundHandler>)
    ensures r.Err? <==> totalParts < 0
    ensures r.Err? ==> r.error == NegativeArraySize
    ensures r.Ok? ==> |r.value.slots| == totalParts && r.value.tracker == []
    ensures r.Ok? ==> forall i :: 0 <= i < |r.value.slots| ==> r.value.slots[i] == None
  {
    if totalParts < 0 then Err(NegativeArraySize)
    else Ok(InboundHandler(seq(totalParts, _ => None), []))
  }

  /** `plusAssign(message)`: store the part in slot `partNo` (an index error
      outside the slots), then record its number with the tracker's `+=`.
      When the tracker throws, the slot write stays. */
  function Receive(h: InboundHandler, m: LargeMessage): (r: Mutation<InboundHandler>)
    ensures !(0 <= m.partNo < |h.slots|) ==> r == Mutation(h, Some(IndexOutOfBounds))
    ensures 0 <= m.partNo < |h.slots| ==> r.after.slots == h.slots[m.partNo := Some(m)]
    ensures 0 <= m.partNo < |h.slots| && r.thrown.Some? ==> r.after.tracker == h.tracker
  {
    if !(0 <= m.partNo < |h.slots|) then Mutation(h, Some(IndexOutOfBounds))
    else
      var slots := h.slots[m.partNo := Some(m)];
      match Add(h.tracker, m.partNo)
      case Ok(tracker) => Mutation(InboundHandler(slots, tracker), None)
      case Err(e) => Mutation(InboundHandler(slots, h.tracker), Some(e))
  }

  /** What `plusAssign` keeps true: the tracker's list is well formed (its
      ranges may overlap), lies among the slots, and covers exactly the
      filled slots. */
  ghost predicate HandlerWf(h: InboundHandler)
  {
    && Wf(h.tracker)
    && AllBelow(h.tracker, |h.slots|)
    && forall q :: Covers(h.tracker, q) <==> 0 <= q < |h.slots| && h.slots[q].Some?
  }

  lemma NewHandlerWf(totalParts: Int32)
    requires totalParts >= 0
    ensures HandlerWf(NewHandler(totalParts).value)
    ensures CorrectedHandlerWf(NewHandler(totalParts).value)
  {
  }

  /** Receiving any part keeps the invariant. A part whose number names a
      slot is always accepted: the tracker's `+=` never throws on a handler
      that keeps the invariant. */
  lemma ReceivePreservesWf(h: InboundHandler, m: LargeMessage)
    requires HandlerWf(h)
    ensures 0 <= m.partNo < |h.slots| ==> Receive(h, m).thrown == None
    ensures HandlerWf(Receive(h, m).after)
  {
    if 0 <= m.partNo < |h.slots| {
      AddPreservesWf(h.tracker, m.partNo);
      AllBelowAfterAdd(h.tracker, m.partNo, |h.slots|);
      forall q
        ensures Covers(Add(h.tracker, m.partNo).value, q) <==> Covers(h.tracker, q) || q == m.partNo
      {
        AddCovers(h.tracker, m.partNo, q);
      }
    }
  }

  /** With the invariant, every empty slot is among the ranges
      `missingRanges(totalParts)` reports. */
  lemma EmptySlotsAreMissing(h: InboundHandler, q: int)
    requires HandlerWf(h) && 0 <= q < |h.slots| && h.slots[q].None?
    ensures Covers(MissingRanges(h.tracker, |h.slots|), q)
  {
    MissingComplete(h.tracker, |h.slots|, q);
  }

  /** Every slot holds a part. */
  predicate AllFilled(slots: seq<Option<LargeMessage>>)
  {
    forall i :: 0 <= i < |slots| ==> slots[i].Some?
  }

  /** The payloads of the filled slots, in slot order. */
  function SlotPayloads(slots: seq<Option<LargeMessage>>): (ps: seq<seq<Byte>>)
    requires AllFilled(slots)
    ensures |ps| == |slots|
    ensures forall i :: 0 <= i < |slots| ==> ps[i] == slots[i].value.payload
  {
    seq(|slots|, i requires 0 <= i < |slots| => slots[i].value.payload)
  }

  /** `isComplete()`: `None` (Kotlin's null) while a slot is empty. With
      every slot filled, a buffer of the first part's `totalSize` holding
      the payloads one after the other in slot order, zero-padded; an error
      when there are no slots (`first()` of an empty list), when
      `totalSize` is negative, or when the payloads do not fit. */
  function IsComplete(h: InboundHandler): (r: Result<Option<seq<Byte>>>)
    ensures r == Ok(None) <==> !AllFilled(h.slots)
    ensures AllFilled(h.slots) && |h.slots| == 0 ==> r == Err(NoSuchElement)
    ensures AllFilled(h.slots) && |h.slots| > 0 ==>
      var size := h.slots[0].value.totalSize;
      var ps := SlotPayloads(h.slots);
      && (size < 0 ==> r == Err(NegativeArraySize))
      && (0 <= size < TotalSize(ps) ==> r == Err(IndexOutOfBounds))
      && (0 <= size && TotalSize(ps) <= size ==>
            r.Ok? && r.value.Some? && r.value.value == Concat(ps) + Zeros(size - TotalSize(ps)))
  {
    if !AllFilled(h.slots) then Ok(None)
    else if |h.slots| == 0 then Err(NoSuchElement)
    else
      var size := h.slots[0].value.totalSize;
      if size < 0 then Err(NegativeArraySize)
      else
        var buffer :- CopyAll(Zeros(size), 0, SlotPayloads(h.slots));
        Ok(Some(buffer))
  }

  // ---------------------------------------------------------------------
  // The listener: one handler per message uid
  // ---------------------------------------------------------------------

  /** The `listen<LargeMessage>` callback: `computeIfAbsent` finds the
      handler for the part's uid, or creates and stores one sized by the
      part's `totalParts`; then the part is added to it. A failed creation
      stores nothing; a part the handler rejects leaves the handler stored,
      fresh or not, as `plusAssign` left it. The cache's five-minute expiry
      is left out. */
  function OnLargeMessage(handlers: map<Int32, InboundHandler>, m: LargeMessage): (r: Mutation<map<Int32, InboundHandler>>)
    ensures m.uid !in handlers && m.totalParts < 0 ==> r == Mutation(handlers, Some(NegativeArraySize))
    ensures m.uid in handlers || m.totalParts >= 0 ==> r.after.Keys == handlers.Keys + {m.uid}
    ensures forall u :: u in handlers && u != m.uid ==> u in r.after && r.after[u] == handlers[u]
    ensures m.uid in handlers ==>
      r.after[m.uid] == Receive(handlers[m.uid], m).after && r.thrown == Receive(handlers[m.uid], m).thrown
    ensures m.uid !in handlers && m.totalParts >= 0 ==>
      && r.after[m.uid] == Receive(NewHandler(m.totalParts).value, m).after
      && r.thrown == Receive(NewHandler(m.totalParts).value, m).thrown
  {
    var found := if m.uid in handlers then Ok(handlers[m.uid]) else NewHandler(m.totalParts);
    match found
    case Err(e) => Mutation(handlers, Some(e))
    case Ok(h) =>
      var received := Receive(h, m);
      Mutation(handlers[m.uid := received.after], received.thrown)
  }

  /** The handlers of every uid keep the invariant across a callback. */
  lemma OnLargeMessagePreservesWf(handlers: map<Int32, InboundHandler>, m: LargeMessage)
    requires forall u :: u in handlers ==> HandlerWf(handlers[u])
    ensures forall u :: u in OnLargeMessage(handlers, m).after ==> HandlerWf(OnLargeMessage(handlers, m).after[u])
  {
    if m.uid in handlers {
      ReceivePreservesWf(handlers[m.uid], m);
    } else if m.totalParts >= 0 {
      NewHandlerWf(m.totalParts);
      ReceivePreservesWf(NewHandler(m.totalParts).value, m);
    }
  }

  /** A first part whose number lies outside its own part count leaves an
      undersized handler behind: the part is rejected, the empty handler
      stays stored under the uid, and a later part of that uid with a larger
      count and the same number is rejected by it too. */
  lemma FirstPartOutOfRangeKeepsHandler(m: LargeMessage, later: LargeMessage)
    requires m.uid == later.uid && 0 <= m.totalParts <= m.partNo && later.partNo == m.partNo
    ensures OnLargeMessage(map[], m).thrown == Some(IndexOutOfBounds)
    ensures OnLargeMessage(map[], m).after == map[m.uid := InboundHandler(seq(m.totalParts, _ => None), [])]
    ensures OnLargeMessage(OnLargeMessage(map[], m).after, later).thrown == Some(IndexOutOfBounds)
  {
  }

  /** Feed the parts to the listener one callback after another. A callback
      that throws leaves the state it reached, and the next part is still
      delivered; `thrown` is the first exception any callback threw. */
  function DeliverAll(handlers: map<Int32, InboundHandler>, ms: seq<LargeMessage>): Mutation<map<Int32, InboundHandler>>
    decreases |ms|
  {
    if |ms| == 0 then Mutation(handlers, None)
    else
      var step := OnLargeMessage(handlers, ms[0]);
      var rest := DeliverAll(step.after, ms[1..]);
      Mutation(rest.after, if step.thrown.Some? then step.thrown else rest.thrown)
  }

  /** Slots `0 .. k-1` hold the first `k` parts and the rest are empty. */
  predicate FilledUpTo(h: InboundHandler, ms: seq<LargeMessage>, k: nat)
  {
    && |h.slots| == |ms|
    && k <= |ms|
    && (forall i :: 0 <= i < k ==> h.slots[i] == Some(ms[i]))
    && (forall i :: k <= i < |ms| ==> h.slots[i] == None)
  }

  /** The parts of one message, sent in order, fill the handler of their
      uid slot by slot, and no callback throws. */
  lemma {:induction false} DeliverInOrder(handlers: map<Int32, InboundHandler>, ms: seq<LargeMessage>, k: nat, uid: Int32)
    requires k <= |ms|
    requires forall i :: 0 <= i < |ms| ==> ms[i].uid == uid && ms[i].partNo == i
    requires uid in handlers && HandlerWf(handlers[uid]) && FilledUpTo(handlers[uid], ms, k)
    ensures DeliverAll(handlers, ms[k..]).thrown == None
    ensures var hs := DeliverAll(handlers, ms[k..]).after;
      uid in hs && HandlerWf(hs[uid]) && FilledUpTo(hs[uid], ms, |ms|)
    decreases |ms| - k
  {
    if k < |ms| {
      var h := handlers[uid];
      ReceivePreservesWf(h, ms[k]);
      var h' := Receive(h, ms[k]).after;
      assert ms[k..][0] == ms[k] && ms[k..][1..] == ms[k + 1..];
      assert FilledUpTo(h', ms, k + 1);
      DeliverInOrder(handlers[uid := h'], ms, k + 1, uid);
    } else {
      assert ms[k..] == [];
    }
  }

  /** The first part of a message fills slot 0 of a fresh handler sized by
      its part count. */
  lemma FirstPartFillsSlotZero(ms: seq<LargeMessage>, uid: Int32)
    requires |ms| > 0 && |ms| < TwoTo31
    requires forall i :: 0 <= i < |ms| ==> ms[i].uid == uid && ms[i].partNo == i && ms[i].totalParts == |ms|
    ensures NewHandler(|ms|).Ok? && Receive(NewHandler(|ms|).value, ms[0]).thrown == None
    ensures HandlerWf(Receive(NewHandler(|ms|).value, ms[0]).after)
    ensures FilledUpTo(Receive(NewHandler(|ms|).value, ms[0]).after, ms, 1)
  {
    var h0 := NewHandler(|ms|).value;
    NewHandlerWf(|ms|);
    ReceivePreservesWf(h0, ms[0]);
  }

  /** The first part creates the handler for its uid, and the callback
      does not throw. */
  lemma FirstDelivery(ms: seq<LargeMessage>, uid: Int32)
    requires |ms| > 0 && |ms| < TwoTo31
    requires forall i :: 0 <= i < |ms| ==> ms[i].uid == uid && ms[i].partNo == i && ms[i].totalParts == |ms|
    ensures NewHandler(|ms|).Ok? && Receive(NewHandler(|ms|).value, ms[0]).thrown == None
    ensures DeliverAll(map[], ms) == DeliverAll(map[uid := Receive(NewHandler(|ms|).value, ms[0]).after], ms[1..])
  {
    var h0 := NewHandler(|ms|).value;
    NewHandlerWf(|ms|);
    ReceivePreservesWf(h0, ms[0]);
  }

  /** A handler whose slots hold the parts `Send` built, in order, completes
      to the message. */
  lemma CompleteAfterSend(serializedMessage: seq<Byte>, uid: Int32, h: InboundHandler)
    requires 0 < |serializedMessage| < TwoTo31 && Send(serializedMessage, uid).Ok?
    requires FilledUpTo(h, Send(serializedMessage, uid).value, |Send(serializedMessage, uid).value|)
    ensures IsComplete(h) == Ok(Some(serializedMessage))
  {
    var ms := Send(serializedMessage, uid).value;
    assert AllFilled(h.slots);
    assert SlotPayloads(h.slots) == Payloads(ms);
    assert |ms| > 0;
    assert h.slots[0].value.totalSize == |serializedMessage|;
    assert TotalSize(Payloads(ms)) == |serializedMessage|;
    assert Concat(Payloads(ms)) + Zeros(0) == serializedMessage;
  }

  /** Round trip: a non-empty message that `send` splits, sent as parts and
      delivered in order to a listener that has no handler for its uid,
      completes to exactly the message, and no callback throws. */
  lemma SendRoundTrip(serializedMessage: seq<Byte>, uid: Int32)
    requires 0 < |serializedMessage| < TwoTo31 && Send(serializedMessage, uid).Ok?
    ensures DeliverAll(map[], Send(serializedMessage, uid).value).thrown == None
    ensures var hs := DeliverAll(map[], Send(serializedMessage, uid).value).after;
      uid in hs && IsComplete(hs[uid]) == Ok(Some(serializedMessage))
  {
    var ms := Send(serializedMessage, uid).value;
    assert |ms| > 0;
    FirstPartFillsSlotZero(ms, uid);
    FirstDelivery(ms, uid);
    var h1 := Receive(NewHandler(|ms|).value, ms[0]).after;
    DeliverInOrder(map[uid := h1], ms, 1, uid);
    CompleteAfterSend(serializedMessage, uid, DeliverAll(map[], ms).after[uid]);
  }

  /** The parts built as written all name slot 0, so a message of more than
      one part never completes: slot 1 stays empty however the parts are
      delivered in order. */
  lemma {:induction false} SendAsWrittenNeverCompletes(serializedMessage: seq<Byte>, uid: Int32)
    requires MaxPartSize < |serializedMessage| < TwoTo31 && SendAsWritten(serializedMessage, uid).Ok?
    ensures DeliverAll(map[], SendAsWritten(serializedMessage, uid).value).thrown == None
    ensures var hs := DeliverAll(map[], SendAsWritten(serializedMessage, uid).value).after;
      uid in hs && IsComplete(hs[uid]) == Ok(None)
  {
    var ms := SendAsWritten(serializedMessage, uid).value;
    var n := |ms|;
    CeilStep(|serializedMessage|, MaxPartSize);
    assert n >= 2;
    var h0 := NewHandler(n).value;
    NewHandlerWf(n);
    ReceivePreservesWf(h0, ms[0]);
    var h1 := Receive(h0, ms[0]).after;
    assert ms[0..][1..] == ms[1..] && ms[0..] == ms;
    DeliverToSlotZero(map[uid := h1], ms, 1, uid);
  }

  /** Parts that all name slot 0 never fill slot 1. */
  lemma {:induction false} DeliverToSlotZero(handlers: map<Int32, InboundHandler>, ms: seq<LargeMessage>, k: nat, uid: Int32)
    requires k <= |ms|
    requires forall i :: 0 <= i < |ms| ==> ms[i].uid == uid && ms[i].partNo == 0
    requires uid in handlers && HandlerWf(handlers[uid]) && |handlers[uid].slots| >= 2
    requires handlers[uid].slots[1] == None
    ensures DeliverAll(handlers, ms[k..]).thrown == None
    ensures var hs := DeliverAll(handlers, ms[k..]).after;
      uid in hs && IsComplete(hs[uid]) == Ok(None)
    decreases |ms| - k
  {
    if k < |ms| {
      var h := handlers[uid];
      ReceivePreservesWf(h, ms[k]);
      var h' := Receive(h, ms[k]).after;
      assert ms[k..][0] == ms[k] && ms[k..][1..] == ms[k + 1..];
      DeliverToSlotZero(handlers[uid := h'], ms, k + 1, uid);
    } else {
      assert ms[k..] == [];
    }
  }

  /** The run that shows the tracker's defect at the handler: parts 0, 2,
      1, 2, 3 of a five-part message fill slots 0 to 3, yet the tracker
      ends as `[0..3, 2..2]` and `missingRanges(5)` reports the filled
      slot 3 as missing. */
  lemma DuplicatePartLeavesFilledSlotMissing(ms: seq<LargeMessage>, uid: Int32)
    requires |ms| == 5
    requires forall i :: 0 <= i < 5 ==> ms[i].uid == uid && ms[i].totalParts == 5
    requires ms[0].partNo == 0 && ms[1].partNo == 2 && ms[2].partNo == 1
    requires ms[3].partNo == 2 && ms[4].partNo == 3
    ensures DeliverAll(map[], ms).thrown == None
    ensures uid in DeliverAll(map[], ms).after
    ensures var h := DeliverAll(map[], ms).after[uid];
      && |h.slots| == 5
      && h.slots[3] == Some(ms[4])
      && h.tracker == [Range(0, 3), Range(2, 2)]
      && Covers(MissingRanges(h.tracker, |h.slots|), 3)
  {
    DuplicatePartReportedMissing();
    var h := NewHandler(5).value;
    var t1, t2, t3, t4, t5 := [Range(0, 0)], [Range(0, 0), Range(2, 2)], [Range(0, 1), Range(2, 2)],
      [Range(0, 2), Range(2, 2)], [Range(0, 3), Range(2, 2)];
    assert Add([], 0) == Ok(t1);
    AppendStep(t1, 2, t2);
    ExtendStep(t2, 1, t3);
    ExtendStep(t3, 2, t4);
    ExtendStep(t4, 3, t5);
    var s1 := h.slots[0 := Some(ms[0])];
    var s2 := s1[2 := Some(ms[1])];
    var s3 := s2[1 := Some(ms[2])];
    var s4 := s3[2 := Some(ms[3])];
    var s5 := s4[3 := Some(ms[4])];
    var hs1 := map[uid := InboundHandler(s1, t1)];
    var hs2 := map[uid := InboundHandler(s2, t2)];
    var hs3 := map[uid := InboundHandler(s3, t3)];
    var hs4 := map[uid := InboundHandler(s4, t4)];
    var hs5 := map[uid := InboundHandler(s5, t5)];
    assert Receive(h, ms[0]) == Mutation(InboundHandler(s1, t1), None);
    assert OnLargeMessage(map[], ms[0]) == Mutation(hs1, None);
    assert Receive(InboundHandler(s1, t1), ms[1]) == Mutation(InboundHandler(s2, t2), None);
    assert Receive(InboundHandler(s2, t2), ms[2]) == Mutation(InboundHandler(s3, t3), None);
    assert Receive(InboundHandler(s3, t3), ms[3]) == Mutation(InboundHandler(s4, t4), None);
    assert Receive(InboundHandler(s4, t4), ms[4]) == Mutation(InboundHandler(s5, t5), None);
    assert ms[1].uid == uid && ms[2].uid == uid && ms[3].uid == uid && ms[4].uid == uid;
    assert hs1[uid := InboundHandler(s2, t2)] == hs2;
    assert OnLargeMessage(hs1, ms[1]) == Mutation(hs2, None);
    assert hs2[uid := InboundHandler(s3, t3)] == hs3;
    assert OnLargeMessage(hs2, ms[2]) == Mutation(hs3, None);
    assert hs3[uid := InboundHandler(s4, t4)] == hs4;
    assert OnLargeMessage(hs3, ms[3]) == Mutation(hs4, None);
    assert hs4[uid := InboundHandler(s5, t5)] == hs5;
    assert OnLargeMessage(hs4, ms[4]) == Mutation(hs5, None);
    assert ms[1..][1..][1..][1..][1..] == [];
    assert ms[1..][1..][1..][1..][0] == ms[4];
    assert ms[1..][1..][1..][0] == ms[3];
    assert ms[1..][1..][0] == ms[2];
    assert ms[1..][0] == ms[1];
    assert DeliverAll(hs4, ms[1..][1..][1..][1..]) == Mutation(hs5, None);
    assert DeliverAll(hs3, ms[1..][1..][1..]) == Mutation(hs5, None);
    assert DeliverAll(hs2, ms[1..][1..]) == Mutation(hs5, None);
    assert DeliverAll(hs1, ms[1..]) == Mutation(hs5, None);
  }

  // ---------------------------------------------------------------------
  // The corrected handler
  // ---------------------------------------------------------------------

  /** `plusAssign` over the corrected tracker addition, which ignores a part
      some range already covers. */
  function ReceiveUnlessCovered(h: InboundHandler, m: LargeMessage): (r: Mutation<InboundHandler>)
    ensures !(0 <= m.partNo < |h.slots|) ==> r == Mutation(h, Some(IndexOutOfBounds))
    ensures 0 <= m.partNo < |h.slots| ==> r.after.slots == h.slots[m.partNo := Some(m)]
    ensures 0 <= m.partNo < |h.slots| && Covers(h.tracker, m.partNo) ==> r == Mutation(h.(slots := r.after.slots), None)
  {
    if !(0 <= m.partNo < |h.slots|) then Mutation(h, Some(IndexOutOfBounds))
    else
      var slots := h.slots[m.partNo := Some(m)];
      match AddUnlessCovered(h.tracker, m.partNo)
      case Ok(tracker) => Mutation(InboundHandler(slots, tracker), None)
      case Err(e) => Mutation(InboundHandler(slots, h.tracker), Some(e))
  }

  /** The corrected handler's invariant: the tracker's ranges are disjoint,
      lie among the slots, and cover exactly the filled slots. */
  ghost predicate CorrectedHandlerWf(h: InboundHandler)
  {
    && Disjoint(h.tracker)
    && AllBelow(h.tracker, |h.slots|)
    && forall q :: Covers(h.tracker, q) <==> 0 <= q < |h.slots| && h.slots[q].Some?
  }

  /** The corrected handler accepts every part that names a slot and keeps
      its invariant. */
  lemma ReceiveUnlessCoveredPreservesWf(h: InboundHandler, m: LargeMessage)
    requires CorrectedHandlerWf(h)
    ensures 0 <= m.partNo < |h.slots| ==> ReceiveUnlessCovered(h, m).thrown == None
    ensures CorrectedHandlerWf(ReceiveUnlessCovered(h, m).after)
  {
    if 0 <= m.partNo < |h.slots| {
      AddUnlessCoveredPreservesDisjoint(h.tracker, m.partNo, |h.slots|);
    }
  }

  /** With the corrected handler's invariant, `missingRanges(totalParts)`
      reports exactly the slots still empty. */
  lemma MissingRangesAreEmptySlots(h: InboundHandler, q: int)
    requires CorrectedHandlerWf(h)
    ensures Covers(MissingRanges(h.tracker, |h.slots|), q) <==> 0 <= q < |h.slots| && h.slots[q].None?
  {
    MissingRangesExact(h.tracker, |h.slots|, q);
  }
}

=== FILE: messagerouting.dfy ===
/** `MessageRouter`: a three-level registry, message class to extractor
    label to key to handler, and the routing of one incoming message.

    The message class is an explicit tag (`classOf`), an extractor is a
    label plus a function of sender and message, and a handler is known by
    an identity. The delayed launch that removes a listener after its
    timeout becomes a `Removal` that `listen` hands back and that `Expire`
    carries out, whenever the caller chooses. */
module MessageRouting {
  import opened Failures
  import opened Peers

  /** `message::class`. */
  type ClassTag = string

  /** `ExtractorLabel`. */
  type Label = string

  /** The identity of a handler block. */
  type HandlerId = nat

  /** `Extractor`: a label and the key it computes from a sender and a
      message. Computing the key is caller code and may throw; in
      particular the generic parameter is erased, so an extractor applied
      to a message of another class than its own throws
      `ClassCastException`. */
  datatype Extractor<!M, K> = Extractor(name: Label, extract: (Peer, M) -> Result<K>)

  /** The router's two concurrent maps. */
  datatype Router<!M, K> = Router(
    listeners: map<ClassTag, map<Label, map<K, HandlerId>>>,
    extractors: map<Label, Extractor<M, K>>)

  /** The removal a timed listener schedules. */
  datatype Removal<K> = Removal(cls: ClassTag, name: Label, key: K)

  /** One handler invocation: the label it was found under, and the
      handler. */
  datatype Delivery = Delivery(name: Label, handler: HandlerId)

  /** A fresh `MessageRouter`: it satisfies the router's invariant, and no
      handler is registered under any class, label and key. */
  function EmptyRouter<M, K(!new)>(): (r: Router<M, K>)
    ensures Wf(r)
    ensures forall cls, name, key :: Lookup(r, cls, name, key) == None
  {
    Router(map[], map[])
  }

  /** The handler registered under a class, label and key, if any. */
  function Lookup<M, K>(r: Router<M, K>, cls: ClassTag, name: Label, key: K): Option<HandlerId>
  {
    if cls in r.listeners && name in r.listeners[cls] && key in r.listeners[cls][name] then
      Some(r.listeners[cls][name][key])
    else None
  }

  /** `listen(extractor, key, timeout, block)` for message class `cls`:
      create the class and label maps when absent, set the key's handler,
      keep the first extractor registered under the label, and hand back a
      removal unless the timeout is `NEVER` (`None`). */
  function Listen<M, K(!new)>(r: Router<M, K>, cls: ClassTag, extractor: Extractor<M, K>, key: K, handler: HandlerId,
                        timeout: Option<int>): (res: (Router<M, K>, Option<Removal<K>>))
    ensures Lookup(res.0, cls, extractor.name, key) == Some(handler)
    ensures forall c, l, k :: (c, l, k) != (cls, extractor.name, key) ==> Lookup(res.0, c, l, k) == Lookup(r, c, l, k)
    ensures res.0.listeners.Keys == r.listeners.Keys + {cls}
    ensures res.0.extractors == if extractor.name in r.extractors then r.extractors
                                else r.extractors[extractor.name := extractor]
    ensures res.1.Some? <==> timeout.Some?
    ensures res.1.Some? ==> res.1.value == Removal(cls, extractor.name, key)
  {
    var byLabel: map<Label, map<K, HandlerId>> := if cls in r.listeners then r.listeners[cls] else map[];
    var byKey: map<K, HandlerId> := if extractor.name in byLabel then byLabel[extractor.name] else map[];
    var listeners := r.listeners[cls := byLabel[extractor.name := byKey[key := handler]]];
    var extractors := if extractor.name in r.extractors then r.extractors
                      else r.extractors[extractor.name := extractor];
    (Router(listeners, extractors), if timeout.Some? then Some(Removal(cls, extractor.name, key)) else None)
  }

  /** The body of the delayed removal: drop the key, then drop the label's
      map if it became empty. The class map and the extractors stay. */
  function Expire<M, K(!new)>(r: Router<M, K>, removal: Removal<K>): (res: Router<M, K>)
    ensures Lookup(res, removal.cls, removal.name, removal.key) == None
    ensures forall c, l, k :: (c, l, k) != (removal.cls, removal.name, removal.key) ==> Lookup(res, c, l, k) == Lookup(r, c, l, k)
    ensures res.listeners.Keys == r.listeners.Keys
    ensures res.extractors == r.extractors
    ensures removal.cls in r.listeners ==>
      (removal.name in res.listeners[removal.cls] <==>
         removal.name in r.listeners[removal.cls] &&
         r.listeners[removal.cls][removal.name].Keys - {removal.key} != {})
  {
    if removal.cls !in r.listeners then r
    else
      var byLabel := r.listeners[removal.cls];
      if removal.name !in byLabel then r
      else
        var res := Router(r.listeners[removal.cls := RemoveKey(byLabel, removal.name, removal.key)], r.extractors);
        RemoveKeyFrame(r, removal, res);
        res
  }

  /** Removing one key changes the lookup of that key alone. */
  lemma RemoveKeyFrame<M, K>(r: Router<M, K>, removal: Removal<K>, res: Router<M, K>)
    requires removal.cls in r.listeners && removal.name in r.listeners[removal.cls]
    requires res == Router(r.listeners[removal.cls := RemoveKey(r.listeners[removal.cls], removal.name, removal.key)],
                           r.extractors)
    ensures Lookup(res, removal.cls, removal.name, removal.key) == None
    ensures forall c, l, k :: (c, l, k) != (removal.cls, removal.name, removal.key) ==> Lookup(res, c, l, k) == Lookup(r, c, l, k)
  {
    var byLabel := r.listeners[removal.cls];
    var dropped := RemoveKey(byLabel, removal.name, removal.key);
    forall c, l, k | (c, l, k) != (removal.cls, removal.name, removal.key)
      ensures Lookup(res, c, l, k) == Lookup(r, c, l, k)
    {
      if c != removal.cls {
        assert c in res.listeners <==> c in r.listeners;
        if c in r.listeners {
          assert res.listeners[c] == r.listeners[c];
        }
      } else if l != removal.name {
        assert res.listeners[c] == dropped;
        assert l in dropped <==> l in byLabel;
        if l in dropped {
          assert dropped[l] == byLabel[l];
        }
      } else {
        assert res.listeners[c] == dropped && k != removal.key;
        if l in dropped {
          assert dropped[l] == byLabel[l] - {removal.key};
        } else {
          assert byLabel[l].Keys - {removal.key} == {};
          assert k !in byLabel[l].Keys - {removal.key};
        }
      }
    }
  }

  /** Drop a key from a label's map, and the label when nothing is left. */
  function RemoveKey<K>(byLabel: map<Label, map<K, HandlerId>>, name: Label, key: K): (res: map<Label, map<K, HandlerId>>)
    requires name in byLabel
    ensures forall l :: l != name ==> (l in res <==> l in byLabel)
    ensures forall l :: l != name && l in res ==> res[l] == byLabel[l]
    ensures name in res <==> byLabel[name].Keys - {key} != {}
    ensures name in res ==> res[name] == byLabel[name] - {key}
  {
    var byKey := byLabel[name] - {key};
    if |byKey| == 0 then byLabel - {name}
    else
      assert byKey.Keys == byLabel[name].Keys - {key};
      byLabel[name := byKey]
  }

  /** The exception the loop body of `route` throws for a label, if any:
      `requireNotNull` on a missing extractor, or the extractor's own. */
  function FailureOf<M, K>(r: Router<M, K>, name: Label, sender: Peer, message: M): Option<Error>
  {
    if name !in r.extractors then Some(IllegalArgument)
    else match r.extractors[name].extract(sender, message)
      case Err(e) => Some(e)
      case Ok(_) => None
  }

  /** A handler invocation `route` makes for a message of class `cls`: the
      label's extractor computes a key, and the handler is the one
      registered under that class, label and key. */
  predicate Reaches<M, K>(r: Router<M, K>, cls: ClassTag, sender: Peer, message: M, d: Delivery)
  {
    d.name in r.extractors && r.extractors[d.name].extract(sender, message).Ok? &&
    Lookup(r, cls, d.name, r.extractors[d.name].extract(sender, message).value) == Some(d.handler)
  }

  /** No label occurs twice. */
  predicate Distinct(labels: seq<Label>)
  {
    forall i, j :: 0 <= i < j < |labels| ==> labels[i] != labels[j]
  }

  /** `order` is an iteration order of the labels of `byLabel`: each label
      once, and nothing else. */
  predicate IterationOrder<V>(byLabel: map<Label, V>, order: seq<Label>)
  {
    (forall l :: l in byLabel ==> l in order) &&
    (forall i :: 0 <= i < |order| ==> order[i] in byLabel) &&
    Distinct(order)
  }

  /** The loop of `route` over the labels `labels` of class `cls`, in
      order: the handlers invoked, and the exception that ends the loop. */
  function RouteFrom<M, K>(r: Router<M, K>, cls: ClassTag, sender: Peer, message: M, labels: seq<Label>)
    : (res: Mutation<seq<Delivery>>)
    requires cls in r.listeners && Distinct(labels)
    requires forall i :: 0 <= i < |labels| ==> labels[i] in r.listeners[cls]
    ensures res.thrown.None? <==> forall i :: 0 <= i < |labels| ==> FailureOf(r, labels[i], sender, message).None?
    ensures forall i :: 0 <= i < |res.after| ==>
      res.after[i].name in labels && Reaches(r, cls, sender, message, res.after[i])
    ensures forall i, j :: 0 <= i < j < |res.after| ==> res.after[i].name != res.after[j].name
    ensures res.thrown.None? ==> forall name, h :: name in labels && Reaches(r, cls, sender, message, Delivery(name, h)) ==>
      Delivery(name, h) in res.after
    decreases |labels|
  {
    if |labels| == 0 then Mutation([], None)
    else
      var name := labels[0];
      match FailureOf(r, name, sender, message)
      case Some(e) => Mutation([], Some(e))
      case None =>
        var key := r.extractors[name].extract(sender, message).value;
        var byKey := r.listeners[cls][name];
        var here := if key in byKey then [Delivery(name, byKey[key])] else [];
        assert Distinct(labels[1..]) by {
          forall i, j | 0 <= i < j < |labels[1..]| ensures labels[1..][i] != labels[1..][j] {
            assert labels[1..][i] == labels[i + 1] && labels[1..][j] == labels[j + 1];
          }
        }
        var rest := RouteFrom(r, cls, sender, message, labels[1..]);
        assert forall i :: 0 < i < |labels| ==> labels[i] == labels[1..][i - 1];
        assert name !in labels[1..];
        Mutation(here + rest.after, rest.thrown)
  }

  /** The exception `RouteFrom` ends with is that of the first label whose
      loop body throws. */
  lemma {:induction false} RouteFromThrowsFirstFailure<M, K>(r: Router<M, K>, cls: ClassTag, sender: Peer, message: M,
                                                            labels: seq<Label>)
    requires cls in r.listeners && Distinct(labels)
    requires forall i :: 0 <= i < |labels| ==> labels[i] in r.listeners[cls]
    ensures RouteFrom(r, cls, sender, message, labels).thrown.Some? ==>
      exists i :: 0 <= i < |labels| && RouteFrom(r, cls, sender, message, labels).thrown == FailureOf(r, labels[i], sender, message) &&
        forall j :: 0 <= j < i ==> FailureOf(r, labels[j], sender, message).None?
    decreases |labels|
  {
    var res := RouteFrom(r, cls, sender, message, labels);
    if |labels| > 0 && res.thrown.Some? && FailureOf(r, labels[0], sender, message).None? {
      assert Distinct(labels[1..]) by {
        forall i, j | 0 <= i < j < |labels[1..]| ensures labels[1..][i] != labels[1..][j] {
          assert labels[1..][i] == labels[i + 1] && labels[1..][j] == labels[j + 1];
        }
      }
      RouteFromThrowsFirstFailure(r, cls, sender, message, labels[1..]);
      var i :| 0 <= i < |labels[1..]| && res.thrown == FailureOf(r, labels[1..][i], sender, message) &&
        forall j :: 0 <= j < i ==> FailureOf(r, labels[1..][j], sender, message).None?;
      assert labels[1..][i] == labels[i + 1];
      forall j | 0 <= j < i + 1 ensures FailureOf(r, labels[j], sender, message).None? {
        if j > 0 {
          assert labels[j] == labels[1..][j - 1];
        }
      }
    }
  }

  /** `route(sender, message)`, iterating the class's labels in `order`
      (the hash map's iteration order): nothing when the class has no
      listeners; otherwise, label by label, the handler registered for the
      key the label's extractor computes, until a label has no extractor
      (`IllegalArgumentException`) or its extractor throws. The result holds
      the handlers invoked, in order, and the exception, if any. */
  function Route<M, K>(r: Router<M, K>, sender: Peer, message: M, classOf: M -> ClassTag, order: seq<Label>)
    : (res: Mutation<seq<Delivery>>)
    requires classOf(message) in r.listeners ==> IterationOrder(r.listeners[classOf(message)], order)
    ensures classOf(message) !in r.listeners ==> res == Mutation([], None)
    ensures res.thrown.None? <==> (classOf(message) !in r.listeners ||
                                   forall l :: l in r.listeners[classOf(message)] ==> FailureOf(r, l, sender, message).None?)
    ensures res.thrown.Some? ==>
      exists i :: 0 <= i < |order| && res.thrown == FailureOf(r, order[i], sender, message) &&
        forall j :: 0 <= j < i ==> FailureOf(r, order[j], sender, message).None?
    ensures forall i :: 0 <= i < |res.after| ==> Reaches(r, classOf(message), sender, message, res.after[i])
    ensures forall i, j :: 0 <= i < j < |res.after| ==> res.after[i].name != res.after[j].name
    ensures res.thrown.None? ==> forall name, h :: Delivery(name, h) in res.after <==>
      Reaches(r, classOf(message), sender, message, Delivery(name, h))
  {
    var cls := classOf(message);
    if cls !in r.listeners then Mutation([], None)
    else
      assert forall i :: 0 <= i < |order| ==> order[i] in r.listeners[cls];
      RouteFromThrowsFirstFailure(r, cls, sender, message, order);
      var res := RouteFrom(r, cls, sender, message, order);
      assert res.thrown.None? <==> forall l :: l in r.listeners[cls] ==> FailureOf(r, l, sender, message).None? by {
        if forall i :: 0 <= i < |order| ==> FailureOf(r, order[i], sender, message).None? {
          forall l | l in r.listeners[cls] ensures FailureOf(r, l, sender, message).None? {
            var i :| 0 <= i < |order| && order[i] == l;
          }
        }
      }
      res
  }

  // ---------------------------------------------------------------------
  // The registry's invariant
  // ---------------------------------------------------------------------

  /** Every label that has listeners has an extractor, and no label map is
      empty. */
  ghost predicate Wf<M, K>(r: Router<M, K>)
  {
    forall c, l :: c in r.listeners && l in r.listeners[c] ==>
      l in r.extractors && exists k :: k in r.listeners[c][l]
  }

  lemma ListenPreservesWf<M, K(!new)>(r: Router<M, K>, cls: ClassTag, extractor: Extractor<M, K>, key: K, handler: HandlerId,
                                timeout: Option<int>)
    requires Wf(r)
    ensures Wf(Listen(r, cls, extractor, key, handler, timeout).0)
  {
    var r' := Listen(r, cls, extractor, key, handler, timeout).0;
    forall c, l | c in r'.listeners && l in r'.listeners[c]
      ensures l in r'.extractors && exists k :: k in r'.listeners[c][l]
    {
      if c == cls && l == extractor.name {
        assert key in r'.listeners[c][l];
      } else {
        assert r'.listeners[c][l] == r.listeners[c][l];
      }
    }
  }

  lemma ExpirePreservesWf<M, K(!new)>(r: Router<M, K>, removal: Removal<K>)
    requires Wf(r)
    ensures Wf(Expire(r, removal))
  {
    var r' := Expire(r, removal);
    forall c, l | c in r'.listeners && l in r'.listeners[c]
      ensures l in r'.extractors && exists k :: k in r'.listeners[c][l]
    {
      if c == removal.cls && l == removal.name {
        var k :| k in r.listeners[c][l].Keys - {removal.key};
        assert k in r'.listeners[c][l];
      } else {
        assert r'.listeners[c][l] == r.listeners[c][l];
      }
    }
  }

  /** On a well-formed registry the `requireNotNull` in `route` never
      fires: an exception comes from the extractor of a label the class
      listens under, and when no extractor throws, `route` does not throw. */
  lemma RouteThrowsOnlyFromExtractorsWhenWf<M, K>(r: Router<M, K>, sender: Peer, message: M, classOf: M -> ClassTag,
                                                  order: seq<Label>)
    requires Wf(r)
    requires classOf(message) in r.listeners ==> IterationOrder(r.listeners[classOf(message)], order)
    ensures Route(r, sender, message, classOf, order).thrown.Some? ==>
      exists l :: l in r.listeners[classOf(message)] && l in r.extractors &&
        r.extractors[l].extract(sender, message) == Err(Route(r, sender, message, classOf, order).thrown.value)
    ensures (forall l :: l in r.extractors ==> r.extractors[l].extract(sender, message).Ok?) ==>
      Route(r, sender, message, classOf, order).thrown.None?
  {
    var res := Route(r, sender, message, classOf, order);
    if res.thrown.Some? {
      var i :| 0 <= i < |order| && res.thrown == FailureOf(r, order[i], sender, message) &&
        forall j :: 0 <= j < i ==> FailureOf(r, order[j], sender, message).None?;
      assert order[i] in r.listeners[classOf(message)];
    }
  }

  // ---------------------------------------------------------------------
  // Listening, routing and expiry together
  // ---------------------------------------------------------------------

  /** A registered listener receives every message of its class whose key,
      as the extractor kept under its label computes it, is the one it
      registered for, unless the routing throws first. That extractor is
      the listener's own when the label was new, and the earlier one
      otherwise. */
  lemma ListenThenRouteDelivers<M, K(!new)>(r: Router<M, K>, cls: ClassTag, extractor: Extractor<M, K>, key: K,
                                      handler: HandlerId, timeout: Option<int>, sender: Peer, message: M,
                                      classOf: M -> ClassTag, order: seq<Label>)
    requires Wf(r) && classOf(message) == cls
    requires (if extractor.name in r.extractors then r.extractors[extractor.name] else extractor).extract(sender, message) == Ok(key)
    requires IterationOrder(Listen(r, cls, extractor, key, handler, timeout).0.listeners[cls], order)
    ensures Route(Listen(r, cls, extractor, key, handler, timeout).0, sender, message, classOf, order).thrown.None? ==>
      Delivery(extractor.name, handler) in Route(Listen(r, cls, extractor, key, handler, timeout).0, sender, message, classOf, order).after
    ensures (forall l :: l in Listen(r, cls, extractor, key, handler, timeout).0.extractors ==>
               Listen(r, cls, extractor, key, handler, timeout).0.extractors[l].extract(sender, message).Ok?) ==>
      Delivery(extractor.name, handler) in Route(Listen(r, cls, extractor, key, handler, timeout).0, sender, message, classOf, order).after
  {
    var r' := Listen(r, cls, extractor, key, handler, timeout).0;
    ListenPreservesWf(r, cls, extractor, key, handler, timeout);
    RouteThrowsOnlyFromExtractorsWhenWf(r', sender, message, classOf, order);
    assert Reaches(r', cls, sender, message, Delivery(extractor.name, handler));
  }

  /** After the removal a timed listener scheduled, a message with that key
      is delivered under the label to nobody, whether or not routing
      throws. */
  lemma ExpireStopsDelivery<M, K(!new)>(r: Router<M, K>, removal: Removal<K>, sender: Peer, message: M,
                                  classOf: M -> ClassTag, order: seq<Label>, h: HandlerId)
    requires classOf(message) == removal.cls
    requires removal.name in r.extractors && r.extractors[removal.name].extract(sender, message) == Ok(removal.key)
    requires classOf(message) in Expire(r, removal).listeners ==>
      IterationOrder(Expire(r, removal).listeners[classOf(message)], order)
    ensures Delivery(removal.name, h) !in Route(Expire(r, removal), sender, message, classOf, order).after
  {
  }

  // ---------------------------------------------------------------------
  // The router's unit test
  // ---------------------------------------------------------------------

  /** The test's two message classes. */
  datatype TestMessage = FooMessage(v: int, flag: bool) | BarMessage(text: string)

  function TestClassOf(m: TestMessage): ClassTag
  {
    if m.FooMessage? then "FooMessage" else "BarMessage"
  }

  /** The test's extractor: a `FooMessage`'s `v`. Reading `v` casts the
      message to `FooMessage`, so any other message throws
      `ClassCastException`. */
  function FooExtractor(): Extractor<TestMessage, int>
  {
    Extractor("fooExtractor", (p: Peer, m: TestMessage) => if m.FooMessage? then Ok(m.v) else Err(ClassCast))
  }

  /** One listener for key 1, with timeout `NEVER`, and handler 0. */
  function TestRouter(): Router<TestMessage, int>
  {
    Listen(EmptyRouter(), "FooMessage", FooExtractor(), 1, 0, None).0
  }

  lemma TestRouterShape()
    ensures TestRouter().listeners == map["FooMessage" := map["fooExtractor" := map[1 := 0]]]
    ensures TestRouter().extractors == map["fooExtractor" := FooExtractor()]
  {
  }

  /** The listener is registered once and, with timeout `NEVER`, schedules
      no removal. */
  lemma RouterUnitTestRegistration()
    ensures Listen(EmptyRouter(), "FooMessage", FooExtractor(), 1, 0, None).1 == None
    ensures |TestRouter().listeners["FooMessage"]["fooExtractor"]| == 1
  {
    TestRouterShape();
  }

  /** A `BarMessage` has no listeners and reaches nobody. */
  lemma RouterUnitTestOtherClass(sender: Peer)
    ensures Route(TestRouter(), sender, BarMessage("ignored"), TestClassOf, []) == Mutation([], None)
  {
    TestRouterShape();
  }

  /** `FooMessage(2)` has listeners for its class but none for its key. */
  lemma RouterUnitTestOtherKey(sender: Peer)
    ensures Route(TestRouter(), sender, FooMessage(2, false), TestClassOf, ["fooExtractor"]) == Mutation([], None)
  {
    var r, m := TestRouter(), FooMessage(2, false);
    TestRouterShape();
    assert FailureOf(r, "fooExtractor", sender, m) == None;
    assert r.extractors["fooExtractor"].extract(sender, m) == Ok(2);
    assert ["fooExtractor"][1..] == [];
    assert r.listeners["FooMessage"]["fooExtractor"] == map[1 := 0];
    assert RouteFrom(r, "FooMessage", sender, m, []) == Mutation([], None);
    var labels := ["fooExtractor"];
    assert labels[0] == "fooExtractor";
    assert RouteFrom(r, "FooMessage", sender, m, labels).thrown == None;
    assert RouteFrom(r, "FooMessage", sender, m, labels).after == [];
    assert Route(r, sender, m, TestClassOf, labels) == RouteFrom(r, "FooMessage", sender, m, labels);
  }

  /** `FooMessage(1)` reaches exactly the listener. */
  lemma RouterUnitTestDelivers(sender: Peer)
    ensures Route(TestRouter(), sender, FooMessage(1, false), TestClassOf, ["fooExtractor"]) ==
      Mutation([Delivery("fooExtractor", 0)], None)
  {
    var r, m := TestRouter(), FooMessage(1, false);
    TestRouterShape();
    assert FailureOf(r, "fooExtractor", sender, m) == None;
    assert r.extractors["fooExtractor"].extract(sender, m) == Ok(1);
    assert ["fooExtractor"][1..] == [];
    assert r.listeners["FooMessage"]["fooExtractor"] == map[1 := 0];
    assert RouteFrom(r, "FooMessage", sender, m, []) == Mutation([], None);
    var labels := ["fooExtractor"];
    assert labels[0] == "fooExtractor";
    assert RouteFrom(r, "FooMessage", sender, m, labels).thrown == None;
    assert RouteFrom(r, "FooMessage", sender, m, labels).after == [Delivery("fooExtractor", 0)];
    assert Route(r, sender, m, TestClassOf, labels) == RouteFrom(r, "FooMessage", sender, m, labels);
  }

  /** A `BarMessage` extractor registered under the label the test's
      extractor already holds. */
  function BarExtractor(): Extractor<TestMessage, int>
  {
    Extractor("fooExtractor", (p: Peer, m: TestMessage) => if m.BarMessage? then Ok(|m.text|) else Err(ClassCast))
  }

  /** `listen` keeps extractors by label alone: after a `BarMessage`
      listener registers under the test's label, the `FooMessage` extractor
      stays in place, and routing a `BarMessage` applies it and throws
      `ClassCastException` before any handler runs. */
  lemma SharedLabelThrowsClassCast(sender: Peer)
    ensures Listen(TestRouter(), "BarMessage", BarExtractor(), 3, 1, None).0.extractors == TestRouter().extractors
    ensures Route(Listen(TestRouter(), "BarMessage", BarExtractor(), 3, 1, None).0, sender, BarMessage("bar"), TestClassOf,
                  ["fooExtractor"]) == Mutation([], Some(ClassCast))
  {
    TestRouterShape();
  }
}

=== FILE: microblogcontract.dfy ===
/** `MicroblogContractV1` of the microblog protocol: posts signed by one
    elliptic-curve key, optionally pinned to one post number, updated to
    strictly higher versions. */
module MicroblogContracts {
  import opened Failures
  import opened Bytes
  import opened Keys
  import opened Values

  /** `number == None` designates the latest post. */
  datatype MicroblogContractV1 = MicroblogContractV1(pubKey: PublicKey, number: Option<Int32>)

  /** The constructor, with its `number == null || number >= 0` check. */
  function New(pubKey: PublicKey, number: Option<Int32> := None): (r: Result<MicroblogContractV1>)
    ensures r.Ok? <==> (number.Some? ==> number.value >= 0)
    ensures r.Ok? ==> r.value == MicroblogContractV1(pubKey, number)
    ensures r.Err? ==> r.error == IllegalArgument
  {
    var n :- CheckNumber(number);
    Ok(MicroblogContractV1(pubKey, n))
  }

  /** `valid(retriever, post)`: only a `MicroblogPostV1` can be valid. The
      store is not consulted. */
  predicate Valid(c: MicroblogContractV1, post: Post, verify: Verifier)
  {
    post.MicroblogPostV1? && PostAccepted(c.pubKey, c.number, post.post, verify)
  }

  /** A contract pinned to a number accepts the posts the latest-post
      contract with the same key accepts that carry that number, and no
      others. */
  lemma PinnedContractValidity(c: MicroblogContractV1, post: Post, verify: Verifier)
    requires c.number.Some?
    ensures Valid(c, post, verify) <==>
      Valid(MicroblogContractV1(c.pubKey, None), post, verify) && post.post.payload.number == c.number.value
  {
    if post.MicroblogPostV1? {
      PinnedNumberNarrowsAcceptance(c.pubKey, c.number.value, post.post, verify);
    }
  }

  /** `update(old, update)`: a `ClassCastException` unless both sides are of
      this protocol; otherwise the updated post when its version is strictly
      higher, and `null` when it is not. */
  function Update(c: MicroblogContractV1, current: Post, update: PostUpdate): (r: Result<Option<Post>>)
    ensures r.Err? <==> !(current.MicroblogPostV1? && update.MicroblogUpdateV1?)
    ensures r.Err? ==> r.error == ClassCast
    ensures r.Ok? ==> (r.value.Some? <==> update.updated.payload.version > current.post.payload.version)
    ensures r.Ok? && r.value.Some? ==> r.value.value == MicroblogPostV1(update.updated)
  {
    if current.MicroblogPostV1? && update.MicroblogUpdateV1? then
      if Newer(update.updated, current.post) then Ok(Some(MicroblogPostV1(update.updated))) else Ok(None)
    else Err(ClassCast)
  }

  /** On posts of this protocol `update` keeps exactly the post that the
      reference `Latest` keeps for a single offer. */
  lemma UpdateFollowsLatest(c: MicroblogContractV1, p: SignedPost, u: SignedPost)
    ensures Update(c, MicroblogPostV1(p), MicroblogUpdateV1(u)).Ok?
    ensures Update(c, MicroblogPostV1(p), MicroblogUpdateV1(u)).value.Some? <==> Latest(p, [u]) != p
    ensures Update(c, MicroblogPostV1(p), MicroblogUpdateV1(u)).value.Some? ==>
      Update(c, MicroblogPostV1(p), MicroblogUpdateV1(u)).value.value == MicroblogPostV1(Latest(p, [u]))
  {
    assert Latest(p, [u]) == Latest(if Newer(u, p) then u else p, []);
    if Newer(u, p) {
      assert u != p;
    }
  }

  /** A holder of a microblog post that offers `update` each signed post in
      turn and keeps whatever post it returns. */
  function ApplyUpdates(c: MicroblogContractV1, p: SignedPost, offers: seq<SignedPost>): SignedPost
    decreases |offers|
  {
    if |offers| == 0 then p
    else
      var r := Update(c, MicroblogPostV1(p), MicroblogUpdateV1(offers[0]));
      var next := if r.Ok? && r.value.Some? && r.value.value.MicroblogPostV1? then r.value.value.post else p;
      ApplyUpdates(c, next, offers[1..])
  }

  /** After any sequence of offers the holder keeps what the reference
      `Latest` keeps: a post no offer is newer than, drawn from the start
      or the offers. */
  lemma {:induction false} ApplyUpdatesFollowsLatest(c: MicroblogContractV1, p: SignedPost, offers: seq<SignedPost>)
    ensures ApplyUpdates(c, p, offers) == Latest(p, offers)
    ensures forall i :: 0 <= i < |offers| ==> !Newer(offers[i], ApplyUpdates(c, p, offers))
    ensures ApplyUpdates(c, p, offers) == p || ApplyUpdates(c, p, offers) in offers
    decreases |offers|
  {
    LatestKeepsHighestVersion(p, offers);
    if |offers| > 0 {
      UpdateFollowsLatest(c, p, offers[0]);
      var next := if Newer(offers[0], p) then offers[0] else p;
      ApplyUpdatesFollowsLatest(c, next, offers[1..]);
    }
  }
}

=== FILE: parttracker.dfy ===
/** `PartTracker`: the list of part-number ranges received so far, and the
    gaps it reports as missing.

    `plusAssign` extends the FIRST range in list order that the part touches
    and never merges ranges, so ranges can end up adjacent or overlapping;
    this module does not assume they are disjoint. `AddUnlessCovered` is the
    corrected addition that keeps them disjoint, under which `missingRanges`
    reports exactly the parts not received. */
module PartTracking {
  import opened Failures

  /** A Kotlin `IntRange` `first..last`, empty when `last < first`. */
  datatype Range = Range(first: int, last: int)

  /** Kotlin's `a until b`. */
  function Until(a: int, b: int): Range
  {
    Range(a, b - 1)
  }

  predicate Contains(r: Range, p: int)
  {
    r.first <= p <= r.last
  }

  /** The `received` list, in list order. */
  type Ranges = seq<Range>

  /** Some range of the list holds part `p`. */
  predicate Covers(rs: Ranges, p: int)
  {
    exists i :: 0 <= i < |rs| && Contains(rs[i], p)
  }

  /** One of the three `when` branches of `plusAssign` fires for range `r`. */
  predicate Reacts(r: Range, p: int)
  {
    p == r.first - 1 || p == r.last + 1 || Contains(r, p)
  }

  /** What the `when` branch that fires does to range `r`. */
  function Extend(r: Range, p: int): (e: Range)
    requires Reacts(r, p)
    ensures r.first <= r.last ==> e.first <= e.last
    ensures r.first <= r.last ==> forall q :: Contains(e, q) <==> Contains(r, q) || q == p
  {
    if p == r.first - 1 then Range(p, r.last)
    else if p == r.last + 1 then Range(r.first, p)
    else r
  }

  /** The index at which the `for` loop of `plusAssign` returns, or the
      list's length when it runs to the end. */
  function FirstReacting(rs: Ranges, p: int): (k: nat)
    ensures k <= |rs|
    ensures forall j :: 0 <= j < k ==> !Reacts(rs[j], p)
    ensures k < |rs| ==> Reacts(rs[k], p)
  {
    if |rs| == 0 then 0
    else if Reacts(rs[0], p) then 0
    else 1 + FirstReacting(rs[1..], p)
  }

  /** Number of leading ranges that start below `p`: where the binary search
      by `first` places `p..p` in a list sorted by `first`. */
  function InsertPos(rs: Ranges, p: int): (i: nat)
    ensures i <= |rs|
  {
    if |rs| == 0 || rs[0].first >= p then 0 else 1 + InsertPos(rs[1..], p)
  }

  /** The binary search and `add(highIndex, p..p)`: the search reports an
      exact match, the branch that raises `error(...)`, when the range at the
      insertion point already starts at `p`. */
  function InsertSingleton(rs: Ranges, p: int): (r: Result<Ranges>)
    ensures var i := InsertPos(rs, p);
      r.Err? <==> i < |rs| && rs[i].first == p
    ensures r.Err? ==> r.error == IllegalState
    ensures var i := InsertPos(rs, p);
      r.Ok? ==> r.value == rs[..i] + [Range(p, p)] + rs[i..]
  {
    if |rs| == 0 then Ok([Range(p, p)])
    else if p < rs[0].first then
      assert rs[..0] == [] && rs[0..] == rs;
      Ok([Range(p, p)] + rs)
    else if p == rs[0].first then Err(IllegalState)
    else
      match InsertSingleton(rs[1..], p)
      case Err(e) => Err(e)
      case Ok(t) =>
        var i := InsertPos(rs, p);
        assert rs[..i] == [rs[0]] + rs[1..][..i - 1];
        assert rs[i..] == rs[1..][i - 1..];
        Ok([rs[0]] + t)
  }

  /** `plusAssign(part)` as written. */
  function Add(rs: Ranges, p: int): (r: Result<Ranges>)
    ensures p < 0 ==> r == Err(IllegalArgument)
    ensures r.Ok? ==> |r.value| == |rs| || |r.value| == |rs| + 1
  {
    if p < 0 then Err(IllegalArgument)
    else
      var k := FirstReacting(rs, p);
      if k < |rs| then Ok(rs[k := Extend(rs[k], p)]) else InsertSingleton(rs, p)
  }

  /** Feed the parts to a tracker one after the other. */
  function AddAll(rs: Ranges, parts: seq<int>): Result<Ranges>
    decreases |parts|
  {
    if |parts| == 0 then Ok(rs)
    else
      match Add(rs, parts[0])
      case Err(e) => Err(e)
      case Ok(t) => AddAll(t, parts[1..])
  }

  // ---------------------------------------------------------------------
  // The invariant of `received`
  // ---------------------------------------------------------------------

  /** Every range is non-empty and holds only non-negative parts. */
  predicate NonEmptyRanges(rs: Ranges)
  {
    forall i :: 0 <= i < |rs| ==> 0 <= rs[i].first <= rs[i].last
  }

  /** Range starts strictly increase along the list. */
  predicate StartsIncrease(rs: Ranges)
  {
    forall i, j :: 0 <= i < j < |rs| ==> rs[i].first < rs[j].first
  }

  /** What `plusAssign` keeps true of `received`. Ranges may still touch or
      overlap. */
  predicate Wf(rs: Ranges)
  {
    NonEmptyRanges(rs) && StartsIncrease(rs)
  }

  lemma InsertPosBounds(rs: Ranges, p: int)
    requires StartsIncrease(rs)
    ensures forall j :: 0 <= j < InsertPos(rs, p) ==> rs[j].first < p
    ensures InsertPos(rs, p) < |rs| ==> p <= rs[InsertPos(rs, p)].first
  {
    if |rs| > 0 && rs[0].first < p {
      InsertPosBounds(rs[1..], p);
    }
  }

  /** An extension keeps the invariant: moving a start down to `p` cannot
      reach an earlier start, because an earlier range starting at `p` would
      hold `p` and have reacted first. */
  lemma ExtendKeepsWf(rs: Ranges, p: int, k: nat)
    requires Wf(rs) && p >= 0 && k == FirstReacting(rs, p) && k < |rs|
    ensures Wf(rs[k := Extend(rs[k], p)])
  {
    var e := Extend(rs[k], p);
    var r' := rs[k := e];
    assert e.first == rs[k].first || e.first == p;
    forall i, j | 0 <= i < j < |r'| ensures r'[i].first < r'[j].first {
      if j == k && e.first == p {
        assert !Reacts(rs[i], p);
      }
    }
  }

  /** Where each range of the list ends up after inserting `p..p`. */
  lemma InsertShape(rs: Ranges, p: int)
    requires InsertSingleton(rs, p).Ok?
    ensures var r' := InsertSingleton(rs, p).value; var i := InsertPos(rs, p);
      && |r'| == |rs| + 1
      && r'[i] == Range(p, p)
      && (forall a :: 0 <= a < i ==> r'[a] == rs[a])
      && (forall a :: i < a < |r'| ==> r'[a] == rs[a - 1])
  {
  }

  /** An insertion keeps the invariant: when no range reacts to `p`, no
      range starts at `p`, so the search finds a gap. */
  lemma InsertKeepsWf(rs: Ranges, p: int)
    requires Wf(rs) && p >= 0 && FirstReacting(rs, p) == |rs|
    ensures InsertSingleton(rs, p).Ok? && Wf(InsertSingleton(rs, p).value)
  {
    InsertPosBounds(rs, p);
    var i := InsertPos(rs, p);
    assert i < |rs| ==> !Reacts(rs[i], p);
    InsertShape(rs, p);
    var r' := InsertSingleton(rs, p).value;
    assert NonEmptyRanges(r') by {
      forall a | 0 <= a < |r'| ensures 0 <= r'[a].first <= r'[a].last {
        if a < i {
          assert r'[a] == rs[a];
        } else if a > i {
          assert r'[a] == rs[a - 1];
        }
      }
    }
    forall a, b | 0 <= a < b < |r'| ensures r'[a].first < r'[b].first {
      if b <= i {
        assert r'[a] == rs[a];
        if b < i {
          assert r'[b] == rs[b];
        }
      } else {
        assert r'[b] == rs[b - 1];
        if a < i {
          assert r'[a] == rs[a];
        } else if a == i {
          assert p < rs[i].first <= rs[b - 1].first;
        } else {
          assert r'[a] == rs[a - 1];
        }
      }
    }
  }

  /** `plusAssign` keeps the invariant, and on a list that has it the
      "exact match" error branch is unreachable. */
  lemma AddPreservesWf(rs: Ranges, p: int)
    requires Wf(rs) && p >= 0
    ensures Add(rs, p).Ok? && Wf(Add(rs, p).value)
  {
    var k := FirstReacting(rs, p);
    if k < |rs| {
      ExtendKeepsWf(rs, p, k);
    } else {
      InsertKeepsWf(rs, p);
    }
  }

  /** Extending the first reacting range covers the old parts plus `p`. */
  lemma ExtendCovers(rs: Ranges, p: int, k: nat, q: int)
    requires Wf(rs) && p >= 0 && k == FirstReacting(rs, p) && k < |rs|
    ensures Covers(rs[k := Extend(rs[k], p)], q) <==> Covers(rs, q) || q == p
  {
    var r' := rs[k := Extend(rs[k], p)];
    if Covers(rs, q) {
      var i :| 0 <= i < |rs| && Contains(rs[i], q);
      assert Contains(r'[i], q);
    }
    if q == p {
      assert Contains(r'[k], q);
    }
    if Covers(r', q) {
      var i :| 0 <= i < |r'| && Contains(r'[i], q);
      if i != k {
        assert Contains(rs[i], q);
      }
    }
  }

  /** Inserting `p..p` covers the old parts plus `p`. */
  lemma InsertCovers(rs: Ranges, p: int, q: int)
    requires InsertSingleton(rs, p).Ok?
    ensures Covers(InsertSingleton(rs, p).value, q) <==> Covers(rs, q) || q == p
  {
    InsertShape(rs, p);
    var r' := InsertSingleton(rs, p).value;
    var i := InsertPos(rs, p);
    if Covers(rs, q) {
      var j :| 0 <= j < |rs| && Contains(rs[j], q);
      if j < i {
        assert r'[j] == rs[j];
      } else {
        assert r'[j + 1] == rs[j];
      }
    }
    if q == p {
      assert Contains(r'[i], q);
    }
    if Covers(r', q) {
      var j :| 0 <= j < |r'| && Contains(r'[j], q);
      if j < i {
        assert r'[j] == rs[j];
      } else if j > i {
        assert r'[j] == rs[j - 1];
      }
    }
  }

  /** After `+= p` the parts covered are the old ones plus `p`. */
  lemma AddCovers(rs: Ranges, p: int, q: int)
    requires Wf(rs) && p >= 0
    ensures Add(rs, p).Ok?
    ensures Covers(Add(rs, p).value, q) <==> Covers(rs, q) || q == p
  {
    AddPreservesWf(rs, p);
    var k := FirstReacting(rs, p);
    if k < |rs| {
      ExtendCovers(rs, p, k, q);
    } else {
      InsertCovers(rs, p, q);
    }
  }

  /** A part next to (or inside) some range goes to the FIRST such range in
      list order; the list keeps its length and no other range changes. */
  lemma AddExtendsFirstReacting(rs: Ranges, p: int)
    requires Wf(rs) && p >= 0
    requires exists i :: 0 <= i < |rs| && Reacts(rs[i], p)
    ensures var k := FirstReacting(rs, p);
      && k < |rs|
      && Add(rs, p).Ok?
      && |Add(rs, p).value| == |rs|
      && (forall j :: 0 <= j < |rs| && j != k ==> Add(rs, p).value[j] == rs[j])
      && (forall q :: Contains(Add(rs, p).value[k], q) <==> Contains(rs[k], q) || q == p)
  {
  }

  /** A part no range reacts to becomes a new singleton range, placed so
      that every earlier range starts below it and every later one above. */
  lemma AddInsertsSingleton(rs: Ranges, p: int)
    requires Wf(rs) && p >= 0
    requires forall i :: 0 <= i < |rs| ==> !Reacts(rs[i], p)
    ensures Add(rs, p).Ok?
    ensures var r := Add(rs, p).value;
      && |r| == |rs| + 1
      && (exists i :: 0 <= i < |r| && r[i] == Range(p, p) &&
           r[..i] == rs[..i] && r[i + 1..] == rs[i..])
  {
    var i := InsertPos(rs, p);
    var r := Add(rs, p).value;
    assert FirstReacting(rs, p) == |rs|;
    assert r == rs[..i] + [Range(p, p)] + rs[i..];
    assert r[i] == Range(p, p);
    assert r[..i] == rs[..i];
    assert r[i + 1..] == rs[i..];
  }

  /** Re-adding a part changes nothing when the first range it reacts to is
      one that holds it. */
  lemma ReAddInsideFirstIsNoOp(rs: Ranges, p: int)
    requires Wf(rs) && p >= 0
    requires FirstReacting(rs, p) < |rs| && Contains(rs[FirstReacting(rs, p)], p)
    ensures Add(rs, p) == Ok(rs)
  {
    var k := FirstReacting(rs, p);
    assert rs[k := rs[k]] == rs;
  }

  /** Re-adding a part already received can still change the list: after
      parts 0, 2, 1 the list is `[0..1, 2..2]`, and adding 2 again extends
      the first range instead, giving the overlapping `[0..2, 2..2]`. */
  lemma ReAddCanOverlap()
    ensures AddAll([], [0, 2, 1]) == Ok([Range(0, 1), Range(2, 2)])
    ensures Covers([Range(0, 1), Range(2, 2)], 2)
    ensures AddAll([], [0, 2, 1, 2]) == Ok([Range(0, 2), Range(2, 2)])
  {
    assert [Range(0, 1), Range(2, 2)][1] == Range(2, 2);
    assert Add([], 0) == Ok([Range(0, 0)]);
    AppendStep([Range(0, 0)], 2, [Range(0, 0), Range(2, 2)]);
    ExtendStep([Range(0, 0), Range(2, 2)], 1, [Range(0, 1), Range(2, 2)]);
    ExtendStep([Range(0, 1), Range(2, 2)], 2, [Range(0, 2), Range(2, 2)]);
  }

  /** A part above every range and next to none lands at the end. */
  lemma AppendStep(rs: Ranges, p: int, r: Ranges)
    requires p >= 0 && forall j :: 0 <= j < |rs| ==> rs[j].first < p && !Reacts(rs[j], p)
    requires r == rs + [Range(p, p)]
    ensures Add(rs, p) == Ok(r)
  {
    assert FirstReacting(rs, p) == |rs|;
    InsertPosAtEnd(rs, p);
    assert rs[..|rs|] == rs && rs[|rs|..] == [];
    assert InsertSingleton(rs, p).Ok?;
    assert InsertSingleton(rs, p).value == rs + [Range(p, p)];
    assert Add(rs, p) == InsertSingleton(rs, p);
  }

  lemma {:induction false} InsertPosAtEnd(rs: Ranges, p: int)
    requires forall j :: 0 <= j < |rs| ==> rs[j].first < p
    ensures InsertPos(rs, p) == |rs|
  {
    if |rs| > 0 {
      InsertPosAtEnd(rs[1..], p);
    }
  }

  /** A part the first range reacts to extends that range to `e`. */
  lemma ExtendStep(rs: Ranges, p: int, r: Ranges)
    requires p >= 0 && |rs| > 0 && Reacts(rs[0], p) && r == [Extend(rs[0], p)] + rs[1..]
    ensures Add(rs, p) == Ok(r)
  {
    assert rs[0 := Extend(rs[0], p)] == r;
  }

  // ---------------------------------------------------------------------
  // missingRanges
  // ---------------------------------------------------------------------

  /** The `ix == 0` branch: a gap before the first range. */
  function Lead(rs: Ranges): seq<Range>
    requires |rs| > 0
  {
    if rs[0].first > 0 then [Until(0, rs[0].first)] else []
  }

  /** The loop body for `ix` and every later index: the gap to the next
      range when `next.first - this.last > 0`, and after the last range the
      tail up to `totalParts`. */
  function Gaps(rs: Ranges, ix: nat, totalParts: int): seq<Range>
    requires ix < |rs|
    decreases |rs| - ix
  {
    if ix == |rs| - 1 then
      if rs[ix].last < totalParts - 1 then [Until(rs[ix].last + 1, totalParts)] else []
    else
      (if rs[ix + 1].first - rs[ix].last > 0 then [Until(rs[ix].last + 1, rs[ix + 1].first)] else [])
      + Gaps(rs, ix + 1, totalParts)
  }

  /** `missingRanges(totalParts)`. */
  function MissingRanges(rs: Ranges, totalParts: int): seq<Range>
  {
    if |rs| == 0 then [Until(0, totalParts)] else Lead(rs) + Gaps(rs, 0, totalParts)
  }

  /** With nothing received the whole of `0 until totalParts` is missing. */
  lemma MissingWhenEmpty(totalParts: int, q: int)
    ensures MissingRanges([], totalParts) == [Until(0, totalParts)]
    ensures Covers(MissingRanges([], totalParts), q) <==> 0 <= q < totalParts
  {
    assert Contains(MissingRanges([], totalParts)[0], q) <==> 0 <= q < totalParts;
  }

  lemma CoversAppend(a: seq<Range>, b: seq<Range>, q: int)
    ensures Covers(a + b, q) <==> Covers(a, q) || Covers(b, q)
  {
    if Covers(a + b, q) {
      var i :| 0 <= i < |a + b| && Contains((a + b)[i], q);
      if i >= |a| {
        assert Contains(b[i - |a|], q);
      }
    }
    if Covers(b, q) {
      var i :| 0 <= i < |b| && Contains(b[i], q);
      assert (a + b)[|a| + i] == b[i];
    }
    if Covers(a, q) {
      var i :| 0 <= i < |a| && Contains(a[i], q);
      assert (a + b)[i] == a[i];
    }
  }

  /** Range `rs[j]` and any later one cover `q`. */
  predicate CoversFrom(rs: Ranges, j: nat, q: int)
  {
    exists i :: j <= i < |rs| && Contains(rs[i], q)
  }

  /** Ranges are non-empty, start at 0 or above, and each ends before the
      next one starts. */
  predicate Disjoint(rs: Ranges)
  {
    NonEmptyRanges(rs) &&
    forall i, j :: 0 <= i < j < |rs| ==> rs[i].last < rs[j].first
  }

  predicate AllBelow(rs: Ranges, totalParts: int)
  {
    forall i :: 0 <= i < |rs| ==> rs[i].last < totalParts
  }

  lemma {:induction false} GapsExact(rs: Ranges, ix: nat, totalParts: int, q: int)
    requires Disjoint(rs) && AllBelow(rs, totalParts) && ix < |rs|
    ensures Covers(Gaps(rs, ix, totalParts), q) <==>
      rs[ix].last < q < totalParts && !CoversFrom(rs, ix + 1, q)
    decreases |rs| - ix
  {
    if ix == |rs| - 1 {
      if rs[ix].last < totalParts - 1 {
        assert Contains(Gaps(rs, ix, totalParts)[0], q) <==> rs[ix].last < q < totalParts;
      }
    } else {
      var g := [Until(rs[ix].last + 1, rs[ix + 1].first)];
      assert Gaps(rs, ix, totalParts) == g + Gaps(rs, ix + 1, totalParts);
      CoversAppend(g, Gaps(rs, ix + 1, totalParts), q);
      GapsExact(rs, ix + 1, totalParts, q);
      assert Covers(g, q) <==> rs[ix].last < q < rs[ix + 1].first by {
        assert Contains(g[0], q) <==> rs[ix].last < q < rs[ix + 1].first;
      }
      assert CoversFrom(rs, ix + 1, q) <==> Contains(rs[ix + 1], q) || CoversFrom(rs, ix + 2, q);
      if q < rs[ix + 1].first {
        assert !CoversFrom(rs, ix + 1, q);
      }
    }
  }

  /** For a list of disjoint ranges of parts below `totalParts`,
      `missingRanges` covers exactly the parts below `totalParts` that no
      range covers. */
  lemma MissingRangesExact(rs: Ranges, totalParts: int, q: int)
    requires Disjoint(rs) && AllBelow(rs, totalParts)
    ensures Covers(MissingRanges(rs, totalParts), q) <==> 0 <= q < totalParts && !Covers(rs, q)
  {
    if |rs| == 0 {
      MissingWhenEmpty(totalParts, q);
    } else {
      CoversAppend(Lead(rs), Gaps(rs, 0, totalParts), q);
      GapsExact(rs, 0, totalParts, q);
      assert Covers(Lead(rs), q) <==> 0 <= q < rs[0].first by {
        if rs[0].first > 0 {
          assert Contains(Lead(rs)[0], q) <==> 0 <= q < rs[0].first;
        }
      }
      assert Covers(rs, q) <==> Contains(rs[0], q) || CoversFrom(rs, 1, q);
      if q < rs[0].first {
        assert !CoversFrom(rs, 1, q);
      }
    }
  }

  /** For any list `plusAssign` can build, overlapping ranges included, the
      loop from index `ix` reports every part from `rs[ix].first` up to
      `totalParts` that no range from `ix` on covers. */
  lemma {:induction false} GapsComplete(rs: Ranges, ix: nat, totalParts: int, q: int)
    requires Wf(rs) && ix < |rs|
    requires rs[ix].first <= q < totalParts && !CoversFrom(rs, ix, q)
    ensures Covers(Gaps(rs, ix, totalParts), q)
    decreases |rs| - ix
  {
    assert !Contains(rs[ix], q);
    if ix == |rs| - 1 {
      assert Contains(Gaps(rs, ix, totalParts)[0], q);
    } else {
      var g := if rs[ix + 1].first - rs[ix].last > 0 then [Until(rs[ix].last + 1, rs[ix + 1].first)] else [];
      assert Gaps(rs, ix, totalParts) == g + Gaps(rs, ix + 1, totalParts);
      CoversAppend(g, Gaps(rs, ix + 1, totalParts), q);
      if rs[ix + 1].first <= q {
        GapsComplete(rs, ix + 1, totalParts, q);
      } else {
        assert Contains(g[0], q);
      }
    }
  }

  /** Whatever the list holds, every part below `totalParts` that no range
      covers is reported by `missingRanges`. */
  lemma MissingComplete(rs: Ranges, totalParts: int, q: int)
    requires Wf(rs) && 0 <= q < totalParts && !Covers(rs, q)
    ensures Covers(MissingRanges(rs, totalParts), q)
  {
    if |rs| == 0 {
      MissingWhenEmpty(totalParts, q);
    } else {
      CoversAppend(Lead(rs), Gaps(rs, 0, totalParts), q);
      if q < rs[0].first {
        assert Contains(Lead(rs)[0], q);
      } else {
        assert !CoversFrom(rs, 0, q);
        GapsComplete(rs, 0, totalParts, q);
      }
    }
  }

  /** The run that shows the defect: parts 0, 2, 1, 2, 3 leave the list
      `[0..3, 2..2]`, and `missingRanges(5)` then reports part 3 as missing
      although it was received. */
  lemma DuplicatePartReportedMissing()
    ensures AddAll([], [0, 2, 1, 2, 3]) == Ok([Range(0, 3), Range(2, 2)])
    ensures MissingRanges([Range(0, 3), Range(2, 2)], 5) == [Range(3, 4)]
    ensures Covers([Range(0, 3), Range(2, 2)], 3)
    ensures Covers(MissingRanges([Range(0, 3), Range(2, 2)], 5), 3)
  {
    ReAddCanOverlap();
    ExtendStep([Range(0, 2), Range(2, 2)], 3, [Range(0, 3), Range(2, 2)]);
    assert [Range(0, 3), Range(2, 2)][0] == Range(0, 3);
    var added := [Range(0, 3), Range(2, 2)];
    assert Contains(added[0], 3);
    assert MissingRanges(added, 5) == [Range(3, 4)];
    assert Contains(MissingRanges(added, 5)[0], 3);
  }

  // ---------------------------------------------------------------------
  // Corrected addition
  // ---------------------------------------------------------------------

  /** `plusAssign` that returns early when the part is already covered by
      any range, so a duplicate never extends a neighbouring range. */
  function AddUnlessCovered(rs: Ranges, p: int): (r: Result<Ranges>)
    ensures p >= 0 && Covers(rs, p) ==> r == Ok(rs)
    ensures p < 0 ==> r == Err(IllegalArgument)
  {
    if p >= 0 && Covers(rs, p) then Ok(rs) else Add(rs, p)
  }

  function AddAllUnlessCovered(rs: Ranges, parts: seq<int>): Result<Ranges>
    decreases |parts|
  {
    if |parts| == 0 then Ok(rs)
    else
      match AddUnlessCovered(rs, parts[0])
      case Err(e) => Err(e)
      case Ok(t) => AddAllUnlessCovered(t, parts[1..])
  }

  lemma DisjointIsWf(rs: Ranges)
    requires Disjoint(rs)
    ensures Wf(rs)
  {
    forall i, j | 0 <= i < j < |rs| ensures rs[i].first < rs[j].first {
      assert rs[i].first <= rs[i].last < rs[j].first;
    }
  }

  /** Extending a range by a part no range holds keeps disjoint ranges
      disjoint. */
  lemma ExtendKeepsDisjoint(rs: Ranges, p: int, k: nat)
    requires Disjoint(rs) && p >= 0 && !Covers(rs, p)
    requires k == FirstReacting(rs, p) && k < |rs|
    ensures Disjoint(rs[k := Extend(rs[k], p)])
  {
    var r' := rs[k := Extend(rs[k], p)];
    forall i, j | 0 <= i < j < |r'| ensures r'[i].last < r'[j].first {
      if i == k {
        assert rs[k].last < rs[j].first;
        assert !Contains(rs[j], p);
      } else if j == k {
        assert rs[i].last < rs[k].first;
        assert !Contains(rs[i], p);
      }
    }
  }

  /** Inserting `p..p` where no range holds `p` keeps disjoint ranges
      disjoint. */
  lemma InsertKeepsDisjoint(rs: Ranges, p: int)
    requires Disjoint(rs) && p >= 0 && !Covers(rs, p)
    requires InsertSingleton(rs, p).Ok?
    ensures Disjoint(InsertSingleton(rs, p).value)
  {
    DisjointIsWf(rs);
    InsertPosBounds(rs, p);
    InsertShape(rs, p);
    var r' := InsertSingleton(rs, p).value;
    var i := InsertPos(rs, p);
    forall a, b | 0 <= a < b < |r'| ensures r'[a].last < r'[b].first {
      if a < i && b == i {
        assert !Contains(rs[a], p);
      } else if a == i && b > i {
        assert !Contains(rs[b - 1], p);
      } else if a < i && b > i {
        assert r'[b] == rs[b - 1];
      } else if a > i {
        assert r'[a] == rs[a - 1] && r'[b] == rs[b - 1];
      }
    }
  }

  /** The corrected addition keeps ranges disjoint and below `totalParts`,
      and covers exactly the old parts plus `p`. */
  lemma AddUnlessCoveredPreservesDisjoint(rs: Ranges, p: int, totalParts: int)
    requires Disjoint(rs) && AllBelow(rs, totalParts) && 0 <= p < totalParts
    ensures AddUnlessCovered(rs, p).Ok?
    ensures Disjoint(AddUnlessCovered(rs, p).value)
    ensures AllBelow(AddUnlessCovered(rs, p).value, totalParts)
    ensures forall q :: Covers(AddUnlessCovered(rs, p).value, q) <==> Covers(rs, q) || q == p
  {
    if !Covers(rs, p) {
      DisjointIsWf(rs);
      AddPreservesWf(rs, p);
      forall q ensures Covers(Add(rs, p).value, q) <==> Covers(rs, q) || q == p {
        AddCovers(rs, p, q);
      }
      var k := FirstReacting(rs, p);
      if k < |rs| {
        ExtendKeepsDisjoint(rs, p, k);
      } else {
        InsertKeepsDisjoint(rs, p);
      }
      AllBelowAfterAdd(rs, p, totalParts);
    }
  }

  /** Every range after `+= p` ends below `totalParts` when `p` and the
      old ranges do. */
  lemma AllBelowAfterAdd(rs: Ranges, p: int, totalParts: int)
    requires Wf(rs) && AllBelow(rs, totalParts) && 0 <= p < totalParts
    ensures Add(rs, p).Ok? && AllBelow(Add(rs, p).value, totalParts)
  {
    AddPreservesWf(rs, p);
    var k := FirstReacting(rs, p);
    if k >= |rs| {
      InsertShape(rs, p);
    }
  }

  /** The same run as `DuplicatePartReportedMissing` with the corrected
      addition: ranges stay disjoint, and only part 4 is reported. */
  lemma DuplicatePartIgnoredWhenCovered()
    ensures AddAllUnlessCovered([], [0, 2, 1, 2, 3]) == Ok([Range(0, 1), Range(2, 3)])
    ensures MissingRanges([Range(0, 1), Range(2, 3)], 5) == [Range(2, 1), Range(4, 4)]
  {
    ReAddCanOverlap();
    assert !Covers([Range(0, 0)], 2);
    assert !Covers([Range(0, 0), Range(2, 2)], 1);
    assert !Covers([Range(0, 1), Range(2, 2)], 3);
    assert AddUnlessCovered([Range(0, 1), Range(2, 2)], 2) == Ok([Range(0, 1), Range(2, 2)]);
    assert FirstReacting([Range(0, 1), Range(2, 2)], 3) == 1 by {
      assert [Range(0, 1), Range(2, 2)][1..] == [Range(2, 2)];
    }
    assert [Range(0, 1), Range(2, 2)][1 := Range(2, 3)] == [Range(0, 1), Range(2, 3)];
  }

  // ---------------------------------------------------------------------
  // The unit-test scenarios
  // ---------------------------------------------------------------------

  /** The unit tests' first scenarios, for `missingRanges(5)`: nothing,
      one part, a part received twice, two adjacent parts. */
  lemma UnitTestsFirstParts()
    ensures MissingRanges([], 5) == [Range(0, 4)]
    ensures AddAll([], [0]) == Ok([Range(0, 0)])
    ensures MissingRanges([Range(0, 0)], 5) == [Range(1, 4)]
    ensures AddAll([], [0, 0]) == Ok([Range(0, 0)])
    ensures AddAll([], [0, 1]) == Ok([Range(0, 1)])
    ensures MissingRanges([Range(0, 1)], 5) == [Range(2, 4)]
  {
    ExtendStep([Range(0, 0)], 0, [Range(0, 0)]);
    ExtendStep([Range(0, 0)], 1, [Range(0, 1)]);
  }

  /** The unit tests' scenarios with gaps, for `missingRanges(5)`. */
  lemma UnitTestsGaps()
    ensures AddAll([], [0, 2]) == Ok([Range(0, 0), Range(2, 2)])
    ensures MissingRanges([Range(0, 0), Range(2, 2)], 5) == [Range(1, 1), Range(3, 4)]
    ensures AddAll([], [1, 4]) == Ok([Range(1, 1), Range(4, 4)])
    ensures MissingRanges([Range(1, 1), Range(4, 4)], 5) == [Range(0, 0), Range(2, 3)]
  {
    AppendStep([Range(0, 0)], 2, [Range(0, 0), Range(2, 2)]);
    AppendStep([Range(1, 1)], 4, [Range(1, 1), Range(4, 4)]);
  }

  /** The unit tests' out-of-order scenario: parts 1, 2, 0 make one range. */
  lemma UnitTestsOutOfOrder()
    ensures AddAll([], [1, 2, 0]) == Ok([Range(0, 2)])
    ensures MissingRanges([Range(0, 2)], 5) == [Range(3, 4)]
  {
    ExtendStep([Range(1, 1)], 2, [Range(1, 2)]);
    ExtendStep([Range(1, 2)], 0, [Range(0, 2)]);
  }
}

=== FILE: peers.dfy ===
/** `Peer`, `PeerKey` and `PeerKeyLocation`: a peer is an address and a
    port, with an optional display label that takes no part in equality or
    hashing. */
module Peers {
  import opened Failures
  import opened Bytes
  import opened Keys

  datatype Peer = Peer(addr: seq<Byte>, port: Int32, peerLabel: Option<string>)

  /** `Peer.equals`: the address bytes and the port agree. */
  predicate SamePeer(a: Peer, b: Peer)
  {
    a.addr == b.addr && a.port == b.port
  }

  /** `Peer.hashCode`: `31 * addr.contentHashCode() + port` in 32-bit
      arithmetic. */
  function PeerHash(p: Peer): Int32
  {
    Wrap32(31 * ContentHash(p.addr) + p.port)
  }

  /** Peer equality is structural equality once the label is dropped, so it
      is an equivalence relation, and equal peers hash alike. */
  lemma SamePeerIgnoresLabel(a: Peer, b: Peer)
    ensures SamePeer(a, b) <==> a.(peerLabel := None) == b.(peerLabel := None)
    ensures SamePeer(a, b) ==> PeerHash(a) == PeerHash(b)
  {
  }

  /** Two peers that differ only in their labels are equal. */
  lemma RelabelledPeerIsSame(p: Peer, newLabel: Option<string>)
    ensures SamePeer(p, p.(peerLabel := newLabel)) && PeerHash(p) == PeerHash(p.(peerLabel := newLabel))
  {
  }

  /** `InetAddress.getByAddress` accepts an IPv4 or an IPv6 address only. */
  predicate AddressLengthOk(addr: seq<Byte>)
  {
    |addr| == 4 || |addr| == 16
  }

  /** `InetSocketAddress` accepts ports in `0..65535` only. */
  predicate PortOk(port: Int32)
  {
    0 <= port <= 65535
  }

  /** `Peer.toString`: the label when there is one, otherwise the socket
      address rendered by `socketAddressText`, which stands for the JDK's
      `InetSocketAddress.toString`. Building that address first resolves
      the raw bytes, which throws `UnknownHostException` unless they are 4
      or 16 long, and then checks the port, which throws
      `IllegalArgumentException` outside `0..65535`. */
  function PeerText(p: Peer, socketAddressText: (seq<Byte>, Int32) -> string): (r: Result<string>)
    ensures p.peerLabel.Some? ==> r == Ok(p.peerLabel.value)
    ensures p.peerLabel.None? && AddressLengthOk(p.addr) && PortOk(p.port) ==>
      r == Ok(socketAddressText(p.addr, p.port))
    ensures p.peerLabel.None? && !AddressLengthOk(p.addr) ==> r == Err(UnknownHost)
    ensures p.peerLabel.None? && AddressLengthOk(p.addr) && !PortOk(p.port) ==> r == Err(IllegalArgument)
  {
    match p.peerLabel
    case Some(l) => Ok(l)
    case None =>
      if !AddressLengthOk(p.addr) then Err(UnknownHost)
      else if !PortOk(p.port) then Err(IllegalArgument)
      else Ok(socketAddressText(p.addr, p.port))
  }

  /** Printing agrees with equality: peers that `Peer.equals` identifies
      and that carry no label print alike, and both print or both throw. */
  lemma {:induction false} SamePeerPrintsAlike(p: Peer, q: Peer, socketAddressText: (seq<Byte>, Int32) -> string)
    requires SamePeer(p, q) && p.peerLabel.None? && q.peerLabel.None?
    ensures PeerText(p, socketAddressText) == PeerText(q, socketAddressText)
  {
    SamePeerIgnoresLabel(p, q);
  }

  /** A location on the ring: a fraction in `[0, 1)`. */
  type Location = real

  datatype PeerKey = PeerKey(peer: Peer, key: PublicKey)

  /** Data-class equality of `PeerKey`, which compares its peer with
      `Peer.equals`. */
  predicate SamePeerKey(a: PeerKey, b: PeerKey)
  {
    SamePeer(a.peer, b.peer) && a.key == b.key
  }

  datatype PeerKeyLocation = PeerKeyLocation(peerKey: PeerKey, location: Location)

  /** The secondary constructor `PeerKeyLocation(peer, key, location)`. */
  function NewPeerKeyLocation(peer: Peer, key: PublicKey, location: Location): (r: PeerKeyLocation)
    ensures r.peerKey.peer == peer && r.peerKey.key == key && r.location == location
  {
    PeerKeyLocation(PeerKey(peer, key), location)
  }

  /** The secondary constructor builds data-class-equal keys from peers
      that `Peer.equals` identifies, whatever their labels. */
  lemma SecondaryConstructorAgrees(p: Peer, q: Peer, key: PublicKey, location: Location, location': Location)
    requires SamePeer(p, q)
    ensures SamePeerKey(NewPeerKeyLocation(p, key, location).peerKey, NewPeerKeyLocation(q, key, location').peerKey)
  {
  }
}

=== FILE: rates.dfy ===
/** `Rate`: a sliding window of traffic samples and the running total of
    their byte counts.

    Time is an integer count of nanoseconds, so `Duration.between(a, b)` is
    `b - a` exactly. The total is a JVM `Int` and wraps around. */
module Rates {
  import opened Failures
  import opened Bytes

  /** One `registerTraffic` call: a byte count and when it happened. */
  datatype Sample = Sample(bytes: Int32, time: int)

  /** The window's state: samples oldest first, and `totalBytes`. */
  datatype Rate = Rate(windowSize: int, window: seq<Sample>, totalBytes: Int32)

  /** The default window: one minute. */
  const DefaultWindowSize: int := 60 * 1_000_000_000

  /** `Rate(windowSize)`: an empty window and a zero total. */
  function NewRate(windowSize: int := DefaultWindowSize): (r: Rate)
    ensures r.windowSize == windowSize && r.window == [] && r.totalBytes == 0
    ensures Wf(r)
  {
    Rate(windowSize, [], 0)
  }

  /** Exact sum of the byte counts of the samples. */
  function Sum(samples: seq<Sample>): int
  {
    if |samples| == 0 then 0 else Sum(samples[..|samples| - 1]) + samples[|samples| - 1].bytes
  }

  /** The invariant: `totalBytes` agrees with the sum over the window
      modulo 2^32 (see `WfIsWrappedSum`). */
  predicate Wf(r: Rate)
  {
    (r.totalBytes - Sum(r.window)) % TwoTo32 == 0
  }

  /** A sample is too old at `currentTime` when its age exceeds the window. */
  predicate TooOld(s: Sample, currentTime: int, windowSize: int)
  {
    currentTime - s.time > windowSize
  }

  /** `trimWindow(currentTime)`: drop samples from the head, subtracting
      their bytes from the total, while the head is too old. The head is read
      without an emptiness check, so running out of samples is a null
      dereference; the samples polled before it stay dropped. */
  function TrimWindow(r: Rate, currentTime: int): (t: Mutation<Rate>)
    ensures t.after.windowSize == r.windowSize && |t.after.window| <= |r.window|
    ensures t.thrown.Some? ==> t.thrown == Some(NullPointer) && t.after.window == []
    ensures t.thrown.None? ==> 0 < |t.after.window|
    decreases |r.window|
  {
    if |r.window| == 0 then Mutation(r, Some(NullPointer))
    else if TooOld(r.window[0], currentTime, r.windowSize) then
      var polled := r.window[0];
      TrimWindow(Rate(r.windowSize, r.window[1..], Wrap32(r.totalBytes - polled.bytes)), currentTime)
    else Mutation(r, None)
  }

  /** Trimming throws exactly when every sample is too old. */
  lemma {:induction false} TrimFailsIffAllTooOld(r: Rate, currentTime: int)
    ensures TrimWindow(r, currentTime).thrown.Some? <==>
      forall i :: 0 <= i < |r.window| ==> TooOld(r.window[i], currentTime, r.windowSize)
    decreases |r.window|
  {
    if |r.window| > 0 && TooOld(r.window[0], currentTime, r.windowSize) {
      var next := Rate(r.windowSize, r.window[1..], Wrap32(r.totalBytes - r.window[0].bytes));
      TrimFailsIffAllTooOld(next, currentTime);
      assert TrimWindow(r, currentTime) == TrimWindow(next, currentTime);
      assert forall i :: 0 < i < |r.window| ==> r.window[i] == next.window[i - 1];
      assert (forall i :: 0 <= i < |r.window| ==> TooOld(r.window[i], currentTime, r.windowSize)) <==>
        (forall i :: 0 <= i < |next.window| ==> TooOld(next.window[i], currentTime, r.windowSize));
    }
  }

  /** `trimWindow` removes samples from the head only: what is left is a
      suffix of the window, and when nothing was thrown its head is recent
      enough. */
  lemma {:induction false} TrimLeavesRecentSuffix(r: Rate, currentTime: int)
    ensures var w := TrimWindow(r, currentTime).after.window;
      w == r.window[|r.window| - |w|..]
    ensures TrimWindow(r, currentTime).thrown.None? ==>
      !TooOld(TrimWindow(r, currentTime).after.window[0], currentTime, r.windowSize)
    decreases |r.window|
  {
    if |r.window| > 0 && TooOld(r.window[0], currentTime, r.windowSize) {
      var next := Rate(r.windowSize, r.window[1..], Wrap32(r.totalBytes - r.window[0].bytes));
      TrimLeavesRecentSuffix(next, currentTime);
      var w := TrimWindow(next, currentTime).after.window;
      assert TrimWindow(r, currentTime) == TrimWindow(next, currentTime);
      assert r.window[1..][|next.window| - |w|..] == r.window[|r.window| - |w|..];
    }
  }

  /** Every sample `trimWindow` drops was too old, whether or not it
      throws afterwards. */
  lemma {:induction false} TrimDropsOnlyOldSamples(r: Rate, currentTime: int)
    ensures forall i :: 0 <= i < |r.window| - |TrimWindow(r, currentTime).after.window| ==>
      TooOld(r.window[i], currentTime, r.windowSize)
    decreases |r.window|
  {
    if |r.window| > 0 && TooOld(r.window[0], currentTime, r.windowSize) {
      var next := Rate(r.windowSize, r.window[1..], Wrap32(r.totalBytes - r.window[0].bytes));
      TrimDropsOnlyOldSamples(next, currentTime);
      assert TrimWindow(r, currentTime) == TrimWindow(next, currentTime);
      var n := |r.window| - |TrimWindow(r, currentTime).after.window|;
      forall i | 0 <= i < n ensures TooOld(r.window[i], currentTime, r.windowSize) {
        if i > 0 {
          assert r.window[i] == next.window[i - 1];
        }
      }
    }
  }

  /** `registerTraffic(bytes, time)`: append the sample at the tail, add its
      bytes to the total, then trim at `time`. A throw from the trim leaves
      the appended and drained state behind. */
  function RegisterTraffic(r: Rate, bytes: Int32, time: int): (t: Mutation<Rate>)
    ensures r.windowSize >= 0 ==> t.thrown.None?
    ensures t.thrown.None? ==> |t.after.window| > 0 && t.after.window[|t.after.window| - 1] == Sample(bytes, time)
    ensures t.thrown.Some? ==> t.thrown == Some(NullPointer) && t.after.window == []
    ensures t.after.windowSize == r.windowSize
  {
    var appended := Rate(r.windowSize, r.window + [Sample(bytes, time)], Wrap32(r.totalBytes + bytes));
    assert !TooOld(appended.window[|appended.window| - 1], time, r.windowSize) <== r.windowSize >= 0;
    TrimFailsIffAllTooOld(appended, time);
    var t := TrimWindow(appended, time);
    if t.thrown.None? then
      TrimLeavesRecentSuffix(appended, time);
      t
    else t
  }

  // ---------------------------------------------------------------------
  // The running total
  // ---------------------------------------------------------------------

  /** Two 32-bit values that agree modulo 2^32 are equal. */
  lemma Int32Unique(a: Int32, b: Int32)
    requires (a - b) % TwoTo32 == 0
    ensures a == b
  {
    var k := (a - b) / TwoTo32;
    assert a - b == k * TwoTo32;
    MultipleBound(k, TwoTo32);
  }

  /** Sums of numbers divisible by 2^32 are divisible by 2^32. */
  lemma MultipleSum(x: int, y: int)
    requires x % TwoTo32 == 0 && y % TwoTo32 == 0
    ensures (x + y) % TwoTo32 == 0 && (x - y) % TwoTo32 == 0
  {
    var p, q := x / TwoTo32, y / TwoTo32;
    assert x == p * TwoTo32 && y == q * TwoTo32;
    DivModUnique(x + y, TwoTo32, p + q, 0);
    DivModUnique(x - y, TwoTo32, p - q, 0);
  }

  /** The invariant says exactly that `totalBytes` is the sum over the
      window, wrapped to 32 bits. */
  lemma WfIsWrappedSum(r: Rate)
    ensures Wf(r) <==> r.totalBytes == Wrap32(Sum(r.window))
  {
    var w := Wrap32(Sum(r.window));
    if Wf(r) {
      MultipleSum(r.totalBytes - Sum(r.window), w - Sum(r.window));
      Int32Unique(r.totalBytes, w);
    }
  }

  lemma {:induction false} SumAppend(samples: seq<Sample>, s: Sample)
    ensures Sum(samples + [s]) == Sum(samples) + s.bytes
  {
    assert (samples + [s])[..|samples|] == samples;
  }

  lemma {:induction false} SumFront(samples: seq<Sample>)
    requires |samples| > 0
    ensures Sum(samples) == samples[0].bytes + Sum(samples[1..])
    decreases |samples|
  {
    if |samples| > 1 {
      var n := |samples|;
      SumFront(samples[..n - 1]);
      assert samples[..n - 1][1..] == samples[1..][..n - 2];
      assert samples[1..][n - 2] == samples[n - 1];
    } else {
      assert samples[1..] == [] && samples[..0] == [];
    }
  }

  /** `trimWindow` keeps the total equal to the sum over the window, also
      when it throws: the drained window is then empty and the total zero. */
  lemma {:induction false} TrimPreservesWf(r: Rate, currentTime: int)
    requires Wf(r)
    ensures Wf(TrimWindow(r, currentTime).after)
    ensures TrimWindow(r, currentTime).thrown.Some? ==> TrimWindow(r, currentTime).after.totalBytes == 0
    decreases |r.window|
  {
    if |r.window| == 0 {
      Int32Unique(r.totalBytes, 0);
    } else if TooOld(r.window[0], currentTime, r.windowSize) {
      var polled := r.window[0];
      var next := Rate(r.windowSize, r.window[1..], Wrap32(r.totalBytes - polled.bytes));
      SumFront(r.window);
      MultipleSum(next.totalBytes - (r.totalBytes - polled.bytes), r.totalBytes - Sum(r.window));
      assert Wf(next);
      TrimPreservesWf(next, currentTime);
      assert TrimWindow(r, currentTime) == TrimWindow(next, currentTime);
    }
  }

  /** `registerTraffic` keeps the total equal to the sum over the window,
      and a throw leaves an empty window with a zero total. */
  lemma RegisterPreservesWf(r: Rate, bytes: Int32, time: int)
    requires Wf(r)
    ensures Wf(RegisterTraffic(r, bytes, time).after)
    ensures RegisterTraffic(r, bytes, time).thrown.Some? ==> RegisterTraffic(r, bytes, time).after.totalBytes == 0
  {
    var appended := Rate(r.windowSize, r.window + [Sample(bytes, time)], Wrap32(r.totalBytes + bytes));
    SumAppend(r.window, Sample(bytes, time));
    MultipleSum(appended.totalBytes - (r.totalBytes + bytes), r.totalBytes - Sum(r.window));
    assert Wf(appended);
    TrimPreservesWf(appended, time);
    assert RegisterTraffic(r, bytes, time) == TrimWindow(appended, time);
  }

  /** Trimming twice at the same time is trimming once, including the
      exception. */
  lemma {:induction false} TrimIdempotent(r: Rate, currentTime: int)
    ensures TrimWindow(TrimWindow(r, currentTime).after, currentTime) == TrimWindow(r, currentTime)
    decreases |r.window|
  {
    if |r.window| > 0 && TooOld(r.window[0], currentTime, r.windowSize) {
      var polled := r.window[0];
      TrimIdempotent(Rate(r.windowSize, r.window[1..], Wrap32(r.totalBytes - polled.bytes)), currentTime);
    }
  }

  /** With a negative window, registering into a window of old samples
      drains every sample, the new one included, and then throws a null
      dereference. */
  lemma RegisterWithNegativeWindowFails(r: Rate, bytes: Int32, time: int)
    requires r.windowSize < 0
    requires forall i :: 0 <= i < |r.window| ==> TooOld(r.window[i], time, r.windowSize)
    ensures RegisterTraffic(r, bytes, time).thrown == Some(NullPointer)
    ensures RegisterTraffic(r, bytes, time).after.window == []
  {
    var w := r.window + [Sample(bytes, time)];
    TrimFailsIffAllTooOld(Rate(r.windowSize, w, Wrap32(r.totalBytes + bytes)), time);
    assert forall i :: 0 <= i < |w| ==> TooOld(w[i], time, r.windowSize) by {
      forall i | 0 <= i < |w| ensures TooOld(w[i], time, r.windowSize) {
        if i < |r.window| {
          assert w[i] == r.window[i];
        }
      }
    }
  }

  /** `Rate(-1 ns).registerTraffic(5, t)` throws and leaves an empty
      window with a zero total, not the sample it appended. */
  lemma NegativeWindowDrainsExample(time: int)
    ensures RegisterTraffic(NewRate(-1), 5, time) == Mutation(Rate(-1, [], 0), Some(NullPointer))
  {
    var appended := Rate(-1, [Sample(5, time)], 5);
    assert TrimWindow(appended, time) == TrimWindow(Rate(-1, [], 0), time);
  }
}

=== FILE: ringcontracts.dfy ===
/** The ring protocol's `MicroblogContractV1`: RSA-signed posts, optionally
    pinned to one post number, ordered by `supersedes` on their version. */
module RingContracts {
  import opened Failures
  import opened Bytes
  import opened Keys
  import opened Values

  /** `number == None` designates the latest post. */
  datatype RingMicroblogContractV1 = RingMicroblogContractV1(pubKey: PublicKey, number: Option<Int32>)

  /** The constructor, with its `number == null || number >= 0` check. */
  function New(pubKey: PublicKey, number: Option<Int32> := None): (r: Result<RingMicroblogContractV1>)
    ensures r.Ok? <==> (number.Some? ==> number.value >= 0)
    ensures r.Ok? ==> r.value == RingMicroblogContractV1(pubKey, number)
    ensures r.Err? ==> r.error == IllegalArgument
  {
    var n :- CheckNumber(number);
    Ok(RingMicroblogContractV1(pubKey, n))
  }

  /** `valid(retriever, post)`: only a ring `MicroblogPostV1` can be valid. */
  predicate Valid(c: RingMicroblogContractV1, post: Post, verify: Verifier)
  {
    post.RingMicroblogPostV1? && PostAccepted(c.pubKey, c.number, post.ring, verify)
  }

  /** A contract pinned to a number accepts the posts the latest-post
      contract with the same key accepts that carry that number, and no
      others. */
  lemma PinnedContractValidity(c: RingMicroblogContractV1, post: Post, verify: Verifier)
    requires c.number.Some?
    ensures Valid(c, post, verify) <==>
      Valid(RingMicroblogContractV1(c.pubKey, None), post, verify) && post.ring.payload.number == c.number.value
  {
    if post.RingMicroblogPostV1? {
      PinnedNumberNarrowsAcceptance(c.pubKey, c.number.value, post.ring, verify);
    }
  }

  /** `supersedes(old, new)`: a `ClassCastException` unless both are ring
      microblog posts; otherwise whether `new` has the strictly higher
      version. */
  function Supersedes(c: RingMicroblogContractV1, current: Post, candidate: Post): (r: Result<bool>)
    ensures r.Err? <==> !(current.RingMicroblogPostV1? && candidate.RingMicroblogPostV1?)
    ensures r.Err? ==> r.error == ClassCast
    ensures r.Ok? ==> (r.value <==> candidate.ring.payload.version > current.ring.payload.version)
  {
    if current.RingMicroblogPostV1? && candidate.RingMicroblogPostV1? then
      Ok(Newer(candidate.ring, current.ring))
    else Err(ClassCast)
  }

  /** On ring microblog posts `supersedes` is a strict order: no post
      supersedes itself, two posts never supersede each other, and it is
      transitive. */
  lemma SupersedesIsStrictOrder(c: RingMicroblogContractV1, a: SignedPost, b: SignedPost, d: SignedPost)
    ensures Supersedes(c, RingMicroblogPostV1(a), RingMicroblogPostV1(a)) == Ok(false)
    ensures Supersedes(c, RingMicroblogPostV1(a), RingMicroblogPostV1(b)) == Ok(true) ==>
      Supersedes(c, RingMicroblogPostV1(b), RingMicroblogPostV1(a)) == Ok(false)
    ensures (Supersedes(c, RingMicroblogPostV1(a), RingMicroblogPostV1(b)) == Ok(true) &&
             Supersedes(c, RingMicroblogPostV1(b), RingMicroblogPostV1(d)) == Ok(true)) ==>
      Supersedes(c, RingMicroblogPostV1(a), RingMicroblogPostV1(d)) == Ok(true)
  {
    NewerIsStrictOrder(b, a, d);
    NewerIsStrictOrder(d, b, a);
  }

  /** A post the reference `Latest` ends on is superseded by none of the
      offers, so a holder that replaces its post whenever `supersedes` says
      so ends on a post of the highest version offered. */
  lemma LatestIsNotSuperseded(c: RingMicroblogContractV1, p: SignedPost, offers: seq<SignedPost>)
    ensures forall i :: 0 <= i < |offers| ==>
      Supersedes(c, RingMicroblogPostV1(Latest(p, offers)), RingMicroblogPostV1(offers[i])) == Ok(false)
  {
    LatestKeepsHighestVersion(p, offers);
  }
}

=== FILE: ringmicroblog.dfy ===
/** The ring protocol's `MicroblogContract`: posts carry their number in the
    clear and a later number supersedes an earlier one. */
module RingMicroblog {
  import opened Failures
  import opened Bytes
  import opened Keys
  import opened Values

  /** `number == None` designates the latest post. This class has no
      constructor check on `number`. */
  datatype MicroblogContract = MicroblogContract(pubKey: PublicKey, number: Option<Int32>)

  /** `valid(p)`: a `MicroblogPost` with the contract's number, when it fixes
      one, whose signature over the payload verifies. */
  predicate Valid(c: MicroblogContract, p: Post, verify: Verifier)
  {
    p.MicroblogPost? && (c.number.None? || c.number.value == p.number) && verify(c.pubKey, p.signature, p.payload)
  }

  /** A contract pinned to a number accepts the posts the latest-post
      contract with the same key accepts that carry that number, and no
      others. */
  lemma PinnedContractValidity(c: MicroblogContract, p: Post, verify: Verifier)
    requires c.number.Some?
    ensures Valid(c, p, verify) <==> Valid(MicroblogContract(c.pubKey, None), p, verify) && p.number == c.number.value
  {
  }

  /** `supersedes(old, new)`: an `IllegalStateException` unless both are
      `MicroblogPost`s; otherwise whether `new` has the strictly higher
      number. */
  function Supersedes(c: MicroblogContract, current: Post, candidate: Post): (r: Result<bool>)
    ensures r.Err? <==> !(current.MicroblogPost? && candidate.MicroblogPost?)
    ensures r.Err? ==> r.error == IllegalState
    ensures r.Ok? ==> (r.value <==> candidate.number > current.number)
  {
    if current.MicroblogPost? && candidate.MicroblogPost? then Ok(candidate.number > current.number)
    else Err(IllegalState)
  }

  /** A pinned contract accepts at most one post number, so among the posts
      it accepts `supersedes` always answers `false`. */
  lemma PinnedContractNeverSupersedes(c: MicroblogContract, a: Post, b: Post, verify: Verifier)
    requires c.number.Some? && Valid(c, a, verify) && Valid(c, b, verify)
    ensures Supersedes(c, a, b) == Ok(false)
  {
  }

  /** `supersedes` is a strict order on `MicroblogPost`s. */
  lemma SupersedesIsStrictOrder(c: MicroblogContract, a: Post, b: Post, d: Post)
    requires a.MicroblogPost? && b.MicroblogPost? && d.MicroblogPost?
    ensures Supersedes(c, a, a) == Ok(false)
    ensures Supersedes(c, a, b) == Ok(true) ==> Supersedes(c, b, a) == Ok(false)
    ensures Supersedes(c, a, b) == Ok(true) && Supersedes(c, b, d) == Ok(true) ==> Supersedes(c, a, d) == Ok(true)
  {
  }
}

=== FILE: segments.dfy ===
/** `ByteArraySegment`: a bounds-checked view of part of a byte array, equal
    to another segment exactly when their contents are equal. */
module ByteArraySegments {
  import opened Failures
  import opened Bytes

  /** The constructor properties: the backing `array`, and `offset` and
      `length` as JVM `Int`s. */
  datatype Segment = Segment(backing: seq<Byte>, offset: Int32, length: Int32)

  /** The view lies inside its backing array. */
  predicate Valid(s: Segment)
  {
    0 <= s.offset && 0 <= s.length && s.offset + s.length <= |s.backing|
  }

  /** The constructor's `init` block as written: the third `require`
      computes `offset + length` in 32-bit arithmetic. */
  function NewAsWritten(data: seq<Byte>, offset: Int32, length: Int32): (r: Result<Segment>)
    ensures r.Ok? <==> offset >= 0 && length >= 0 && Wrap32(offset + length) <= |data|
    ensures r.Ok? ==> r.value == Segment(data, offset, length)
    ensures r.Err? ==> r.error == IllegalArgument
  {
    if offset < 0 || length < 0 || Wrap32(offset + length) > |data| then Err(IllegalArgument)
    else Ok(Segment(data, offset, length))
  }

  /** The overflow lets through a segment that starts far past the end of
      its array. */
  lemma NewAsWrittenAcceptsOverflow()
    ensures var r := NewAsWritten([0, 0, 0, 0], TwoTo31 - 1, 1);
      r.Ok? && !Valid(r.value)
  {
  }

  /** The constructor with the bound checked without overflow: exactly the
      valid segments are built. */
  function New(data: seq<Byte>, offset: Int32, length: Int32): (r: Result<Segment>)
    ensures r.Ok? <==> Valid(Segment(data, offset, length))
    ensures r.Ok? ==> r.value == Segment(data, offset, length)
    ensures r.Err? ==> r.error == IllegalArgument
  {
    if offset < 0 || length < 0 || offset as int + length as int > |data| then Err(IllegalArgument)
    else Ok(Segment(data, offset, length))
  }

  /** Below 2^31 the two checks agree, so the difference is only the
      overflow. */
  lemma NewAgreesWithoutOverflow(data: seq<Byte>, offset: Int32, length: Int32)
    requires offset as int + length as int < TwoTo31
    ensures NewAsWritten(data, offset, length) == New(data, offset, length)
  {
  }

  /** With the default arguments the segment covers the whole array. */
  function Whole(data: seq<Byte>): (s: Segment)
    requires |data| < TwoTo31
    ensures Valid(s) && AsArray(s) == data
  {
    var s := Segment(data, 0, |data|);
    assert s.backing[0..|data|] == data;
    s
  }

  /** `size`. */
  function Size(s: Segment): Int32
  {
    s.length
  }

  /** `asArray`: a copy of the viewed bytes. */
  function AsArray(s: Segment): (r: seq<Byte>)
    requires Valid(s)
    ensures |r| == Size(s)
    ensures forall i :: 0 <= i < Size(s) ==> r[i] == s.backing[s.offset + i]
  {
    s.backing[s.offset .. s.offset + s.length]
  }

  /** `get(index)` as written: it indexes the backing array at
      `offset + index` without checking `index` against `length`. */
  function GetAsWritten(s: Segment, index: Int32): (r: Result<Byte>)
    ensures r.Ok? <==> 0 <= s.offset + index < |s.backing|
    ensures r.Ok? ==> r.value == s.backing[s.offset + index]
  {
    if 0 <= s.offset + index < |s.backing| then Ok(s.backing[s.offset + index])
    else Err(IndexOutOfBounds)
  }

  /** Inside the view `get` agrees with `asArray`. */
  lemma GetAgreesWithAsArray(s: Segment, index: Int32)
    requires Valid(s) && 0 <= index < Size(s)
    ensures GetAsWritten(s, index) == Ok(AsArray(s)[index])
  {
  }

  /** Outside the view `get` still answers: the segment `[2, 3]` of
      `[1, 2, 3, 4]` yields `4` at index 2 although its size is 2. */
  lemma GetReadsPastSegment()
    ensures var s := Segment([1, 2, 3, 4], 1, 2);
      Valid(s) && Size(s) == 2 && GetAsWritten(s, 2) == Ok(4)
  {
  }

  /** `get` with the list contract's bound check: it succeeds exactly for
      indices below `size` and then returns the viewed byte. */
  function Get(s: Segment, index: Int32): (r: Result<Byte>)
    requires Valid(s)
    ensures r.Ok? <==> 0 <= index < Size(s)
    ensures r.Ok? ==> r.value == AsArray(s)[index]
    ensures r.Err? ==> r.error == IndexOutOfBounds
  {
    if 0 <= index < s.length then Ok(s.backing[s.offset + index]) else Err(IndexOutOfBounds)
  }

  /** `equals`: content equality of the viewed bytes. */
  predicate Equal(s: Segment, t: Segment)
    requires Valid(s) && Valid(t)
  {
    AsArray(s) == AsArray(t)
  }

  /** `hashCode`: the content hash of the viewed bytes. */
  function HashCode(s: Segment): Int32
    requires Valid(s)
  {
    ContentHash(AsArray(s))
  }

  /** Equality ignores the backing array and offset: two views are equal
      exactly when they have the same size and the same byte at every index,
      and equal views hash alike. */
  lemma EqualityIsContentEquality(s: Segment, t: Segment)
    requires Valid(s) && Valid(t)
    ensures Equal(s, t) <==>
      (Size(s) == Size(t) && forall i: Int32 :: 0 <= i < Size(s) ==> Get(s, i) == Get(t, i))
    ensures Equal(s, t) ==> HashCode(s) == HashCode(t)
  {
    if Size(s) == Size(t) && forall i: Int32 :: 0 <= i < Size(s) ==> Get(s, i) == Get(t, i) {
      forall i | 0 <= i < Size(s) ensures AsArray(s)[i] == AsArray(t)[i] {
        assert Get(s, i as Int32) == Get(t, i as Int32);
      }
      assert AsArray(s) == AsArray(t);
    }
  }

  /** The serializer writes `asArray`: the viewed bytes, in the order
      `get` reads them. */
  function Serialize(s: Segment): (r: seq<Byte>)
    requires Valid(s)
    ensures r == AsArray(s)
    ensures |r| == Size(s)
    ensures forall i: Int32 :: 0 <= i < Size(s) ==> Get(s, i) == Ok(r[i])
  {
    AsArray(s)
  }

  /** The deserializer wraps the bytes with the default arguments: a view
      of the whole array, whose `get` reads back every byte. */
  function Deserialize(bytes: seq<Byte>): (s: Segment)
    requires |bytes| < TwoTo31
    ensures Valid(s) && s.offset == 0 && Size(s) == |bytes|
    ensures AsArray(s) == bytes
    ensures forall i: Int32 :: 0 <= i < |bytes| ==> Get(s, i) == Ok(bytes[i])
  {
    Whole(bytes)
  }

  /** Round trip: deserializing what was serialized gives an equal segment,
      though not in general the same backing array or offset. */
  lemma SerializeRoundTrip(s: Segment)
    requires Valid(s)
    ensures Equal(Deserialize(Serialize(s)), s)
  {
  }

  /** The example of the unit test: `(1, 2, 3, 4)` at offset 1 with length 2. */
  lemma AsArrayExample()
    ensures var s := Segment([1, 2, 3, 4], 1, 2); Valid(s) && AsArray(s) == [2, 3]
  {
    var s := Segment([1, 2, 3, 4], 1, 2);
    assert AsArray(s) == [2, 3];
  }
}

=== FILE: signedcontract.dfy ===
/** `SignedContractV1`: a value is valid when its signature verifies under
    the contract's key, and an update replaces it only with a strictly
    higher version. */
module SignedContracts {
  import opened Failures
  import opened Keys
  import opened Values

  datatype SignedContractV1 = SignedContractV1(key: PublicKey)

  /** `SignedValueV1.verify(key)`: the signature covers the serialized
      versioned payload. */
  predicate SignatureVerifies(v: SignedValueV1, key: PublicKey, verify: Verifier)
  {
    verify(key, v.signature, v.serializedPayload)
  }

  /** `valid(store, value)`. The store is not consulted. */
  function Valid(c: SignedContractV1, value: Value, verify: Verifier): (r: Outcome)
    ensures r.Pass? <==> value.SignedValue? && SignatureVerifies(value.signed, c.key, verify)
    ensures r.Fail? && !value.SignedValue? ==> r.message == "Value isn't a SignedValueV1"
    ensures r.Fail? && value.SignedValue? ==> r.message == "Signature failed to verify"
  {
    match value
    case SignedValue(v) =>
      if SignatureVerifies(v, c.key, verify) then Pass else Fail("Signature failed to verify")
    case _ => Fail("Value isn't a SignedValueV1")
  }

  /** The version a value carries, when it is a signed value. */
  function VersionOf(v: Value): Option<UInt>
  {
    if v.SignedValue? then Some(v.signed.payload.version) else None
  }

  /** `update(old, update)`: the new signed value when both sides are the
      signed kind and the new version is strictly higher, otherwise `null`. */
  function Update(current: Value, update: ValueUpdate): (r: Option<Value>)
    ensures r.Some? <==>
      (current.SignedValue? && update.SignedValueUpdate? &&
       update.newSignedValue.payload.version > current.signed.payload.version)
    ensures r.Some? ==> r.value == SignedValue(update.newSignedValue)
  {
    if current.SignedValue? && update.SignedValueUpdate? then
      if update.newSignedValue.payload.version > current.signed.payload.version then
        Some(SignedValue(update.newSignedValue))
      else None
    else None
  }

  /** An accepted update is a strict version increase, and offering the
      same update again is refused. */
  lemma UpdateIsStrictlyNewer(current: Value, update: ValueUpdate)
    requires Update(current, update).Some?
    ensures VersionOf(Update(current, update).value).value > VersionOf(current).value
    ensures Update(Update(current, update).value, update).None?
  {
  }

  /** A holder that applies `update` to each offer in turn and keeps the
      result whenever one is returned. */
  function ApplyUpdates(v: Value, updates: seq<ValueUpdate>): Value
    decreases |updates|
  {
    if |updates| == 0 then v
    else
      var next := match Update(v, updates[0]) case Some(n) => n case None => v;
      ApplyUpdates(next, updates[1..])
  }

  /** After any sequence of offers the held signed value carries the
      highest version seen: at least the starting version and at least the
      version of every signed update offered. */
  lemma {:induction false} ApplyUpdatesKeepsHighestVersion(v: Value, updates: seq<ValueUpdate>)
    requires v.SignedValue?
    ensures ApplyUpdates(v, updates).SignedValue?
    ensures ApplyUpdates(v, updates).signed.payload.version >= v.signed.payload.version
    ensures forall i :: 0 <= i < |updates| && updates[i].SignedValueUpdate? ==>
      updates[i].newSignedValue.payload.version <= ApplyUpdates(v, updates).signed.payload.version
    decreases |updates|
  {
    if |updates| > 0 {
      var next := match Update(v, updates[0]) case Some(n) => n case None => v;
      ApplyUpdatesKeepsHighestVersion(next, updates[1..]);
      assert ApplyUpdates(v, updates) == ApplyUpdates(next, updates[1..]);
      forall i | 0 <= i < |updates| && updates[i].SignedValueUpdate?
        ensures updates[i].newSignedValue.payload.version <= ApplyUpdates(v, updates).signed.payload.version
      {
        if i > 0 {
          assert updates[i] == updates[1..][i - 1];
        }
      }
    }
  }
}

=== FILE: values.dfy ===
/** The values and posts that contracts judge, and the checks the microblog
    and flog contracts share.

    Kotlin's sealed `Value` and `Post` hierarchies become datatypes with one
    variant per subclass a contract tests for, plus a variant for every
    other subclass. Payloads that the source decodes lazily from ProtoBuf
    bytes are carried decoded, next to the bytes the signature covers. */
module Values {
  import opened Failures
  import opened Bytes
  import opened Keys

  /** A Kotlin `UInt`. */
  type UInt = x: int | 0 <= x < TwoTo32

  datatype VersionedPayload = VersionedPayload(version: UInt, payload: seq<Byte>)

  /** `SignedValueV1`: `serializedPayload` is the ProtoBuf encoding of
      `payload`, and the signature covers it. */
  datatype SignedValueV1 = SignedValueV1(signature: Signature, payload: VersionedPayload, serializedPayload: seq<Byte>)

  /** `MicroblogPayloadV1` and `FlogPayloadV1`, which have the same fields. */
  datatype PostPayload = PostPayload(number: Int32, version: Int32, serializedMessage: seq<Byte>)

  /** `FlogPostV1` and both `MicroblogPostV1` classes: signed payload bytes
      and what they decode to. */
  datatype SignedPost = SignedPost(signature: Signature, serializedPayload: seq<Byte>, payload: PostPayload)

  /** `AccountContract`, as the endpoints of a transfer name it. */
  datatype AccountContract = AccountContract(publicKey: PublicKey)

  datatype Transfer = Transfer(
    from: AccountContract,
    to: AccountContract,
    amount: Long,
    newFromBalance: Long,
    newFromNumber: Int32,
    newToBalance: Long,
    newToNumber: Int32)

  /** A signed ledger entry: the signature covers `payload`, which decodes to
      `accountEntry`. */
  datatype SignedAccountEntry = SignedAccountEntry(signature: Signature, payload: seq<Byte>, accountEntry: Transfer)

  datatype Value =
    | SignedValue(signed: SignedValueV1)
    | FlogPost(flog: SignedPost)
    | AccountValue(entries: seq<SignedAccountEntry>)
    | OtherValue

  /** `FlogUpdateV1` is read as carrying a flog post (see the README). */
  datatype ValueUpdate =
    | SignedValueUpdate(newSignedValue: SignedValueV1)
    | FlogUpdate(updated: SignedPost)
    | OtherValueUpdate

  datatype Post =
    | RingMicroblogPostV1(ring: SignedPost)
    | MicroblogPostV1(post: SignedPost)
    | MicroblogPost(signature: Signature, number: Int32, payload: seq<Byte>)
    | OtherPost

  datatype PostUpdate =
    | MicroblogUpdateV1(updated: SignedPost)
    | OtherPostUpdate

  // ---------------------------------------------------------------------
  // Checks shared by the numbered-post contracts
  // ---------------------------------------------------------------------

  /** The constructor check `require(number == null || number >= 0)`. */
  function CheckNumber(number: Option<Int32>): (r: Result<Option<Int32>>)
    ensures r.Ok? <==> (number.Some? ==> number.value >= 0)
    ensures r.Ok? ==> r.value == number
    ensures r.Err? ==> r.error == IllegalArgument
  {
    if number.Some? && number.value < 0 then Err(IllegalArgument) else Ok(number)
  }

  /** `(number == null || number == payload.number) && pubKey.verify(...)`:
      the post has the contract's number, when the contract fixes one, and
      its signature verifies. */
  predicate PostAccepted(pubKey: PublicKey, number: Option<Int32>, p: SignedPost, verify: Verifier)
  {
    (number.None? || number.value == p.payload.number) && verify(pubKey, p.signature, p.serializedPayload)
  }

  /** A contract pinned to post number `n` accepts exactly the posts the
      unpinned contract accepts that carry number `n`. */
  lemma PinnedNumberNarrowsAcceptance(pubKey: PublicKey, n: Int32, p: SignedPost, verify: Verifier)
    ensures PostAccepted(pubKey, Some(n), p, verify) <==>
      PostAccepted(pubKey, None, p, verify) && p.payload.number == n
  {
  }

  /** `updated.payload.version > old.payload.version`. */
  predicate Newer(updated: SignedPost, previous: SignedPost)
  {
    updated.payload.version > previous.payload.version
  }

  /** `Newer` is a strict order: never reflexive, never both ways, and
      transitive. */
  lemma NewerIsStrictOrder(a: SignedPost, b: SignedPost, c: SignedPost)
    ensures !Newer(a, a)
    ensures Newer(a, b) ==> !Newer(b, a)
    ensures Newer(a, b) && Newer(b, c) ==> Newer(a, c)
  {
  }

  /** The post a holder keeps when it is offered `offers` in turn and
      replaces its post by every strictly newer one: the reference the
      contracts' `update` functions are measured against. */
  function Latest(p: SignedPost, offers: seq<SignedPost>): SignedPost
    decreases |offers|
  {
    if |offers| == 0 then p
    else Latest(if Newer(offers[0], p) then offers[0] else p, offers[1..])
  }

  /** The kept post has the highest version seen: no lower than the
      starting post's or any offer's, and it is the starting post or one of
      the offers. */
  lemma {:induction false} LatestKeepsHighestVersion(p: SignedPost, offers: seq<SignedPost>)
    ensures Latest(p, offers).payload.version >= p.payload.version
    ensures forall i :: 0 <= i < |offers| ==> !Newer(offers[i], Latest(p, offers))
    ensures Latest(p, offers) == p || Latest(p, offers) in offers
    decreases |offers|
  {
    if |offers| > 0 {
      var next := if Newer(offers[0], p) then offers[0] else p;
      LatestKeepsHighestVersion(next, offers[1..]);
      forall i | 0 <= i < |offers| ensures !Newer(offers[i], Latest(p, offers)) {
        if i > 0 {
          assert offers[i] == offers[1..][i - 1];
        }
      }
    }
  }
}
